=== FILE: README.md ===
# makeinvoice.online agents — a Dafny model

The makeinvoice.online repository includes a handful of Python agent
scripts that maintain the site around the invoice generator:

- **The Search Console optimiser** (`agents/gsc_monitor.py`) picks blog
  pages that rank on page 2 or have a low click-through rate.
- **The schema injector** (`agents/schema_injector.py`) adds FAQ sections
  and FAQPage JSON-LD to blog pages.
- **The content engine** (`agents/content_engine.py`) writes keyword,
  landing and evergreen pages and tracks what it has written.
- **The question discovery agent** (`agents/question_discovery.py`) turns
  forum questions into draft articles.
- **The auto-index agent** (`agents/auto_index.py`) reads the sitemap and
  submits new URLs to IndexNow.
- **The directory submitter** (`agents/directory_submitter.py`) builds a
  listing checklist and a tracking file.
- **The local development server** (`local-server.py`) turns a free-text
  invoice request into normalised invoice JSON through the language model.

Most of this code is glue around HTTP APIs. This project models the
deterministic rules inside that glue as one library of pure Dafny
functions: selection, merging, escaping, insertion, slugs, tracking
updates, truncation and reply normalisation. Every outside result is a
parameter. That covers HTTP replies, language-model answers, file
existence, file contents, random choices, Python's `hash` and `float`,
the clock and the regular-expression helpers that are not modelled.

There is one module per script, plus shared modules:

- `Outcomes`: `Option` and `Result`.
- `Strings`: `find`, `replace`, `strip`, `lower`, `join` and `split`.
- `Sequences`: comprehension filters, stable descending sort, the
  seen-set deduplication loop, prefixes and subsequences.
- `Json`: ordered JSON objects, `d.get`, `d[k] = v`, and the text
  `json.dumps(indent=2, ensure_ascii=False)` writes.
- `Slugs`: the slug expression `re.sub('[^a-z0-9]+', '-', s.lower()).strip('-')[:n]`.

Each operation is paired with a partner and a lemma that links the two:

- an inverse, such as a parser for the FAQ HTML, the FAQ schema or the
  sitemap;
- a reference definition, such as per-character escaping;
- an invariant, such as idempotence or "the next run finds nothing new".

## Model

| member | source | states |
|---|---|---|
| GscMonitor.FindPage2Candidates | agents/gsc_monitor.py:173-181 | Every candidate ranks between 11 and 20, has at least 50 impressions and is a /blog/ page. The result is a permutation of the filtered rows, ordered by impressions from highest down, and the sort is stable: rows with equal impressions keep their report order. |
| GscMonitor.FindLowCtrCandidates | agents/gsc_monitor.py:184-192 | Every candidate has at least 200 impressions, a CTR below 0.03 and a /blog/ page. The result is a stable permutation of the filtered rows, ordered by impressions from highest down. |
| GscMonitor.Deduplicate | agents/gsc_monitor.py:195-212 | The merge keeps at most 5 entries, and no two entries share a page. Its rows are the first 5 of: the first page-2 row of each page in page-2 order, then the first low-CTR row of each page not already among the page-2 rows, in low-CTR order. When the low-CTR list has distinct pages, each entry's reason is "page2+low_ctr" exactly when its page is in both lists; otherwise it names the list the entry came from. |
| GscMonitor.MergeRows | agents/gsc_monitor.py:197-211 | The two loops together keep the same rows as one seen-set pass over page2 followed by low_ctr. Upgrading a reason never changes the rows. |
| GscMonitor.MergedDistinct | agents/gsc_monitor.py:199-206 | The rows kept by the seen-set pass have pairwise distinct pages. |
| GscMonitor.MergeReasons | agents/gsc_monitor.py:202-211 | With distinct pages among the low-CTR rows, every merged entry carries the reason its page deserves. |
| GscMonitor.AddPage2Spec | agents/gsc_monitor.py:199-202 | The page-2 loop appends the first row of every unseen page, tags each one "page2", and adds the pages of all rows to the seen set. |
| GscMonitor.AddLowCtrRows | agents/gsc_monitor.py:203-211 | The low-CTR loop appends exactly the first row of each unseen page. Upgrades change reasons only. |
| GscMonitor.AddLowCtrReasons | agents/gsc_monitor.py:203-211 | With distinct low-CTR pages, the low-CTR loop keeps every reason consistent with the page-2 list and the low-CTR rows read so far. |
| GscMonitor.UrlToFilepath | agents/gsc_monitor.py:219-242 | The path is the URL with the site prefix removed and leading slashes stripped. An empty path maps to index.html. Otherwise the result is the first existing path among `path.html`, `path/index.html` and `path`, each read as `pathlib` reads it. There is no result when none of the three exists. |
| GscMonitor.PathOfClean | agents/gsc_monitor.py:227-239 | A path of non-empty components other than "." is its own `pathlib` form. |
| GscMonitor.PathOfTrailingSlash | agents/gsc_monitor.py:237-239 | `pathlib` drops a trailing slash after a clean path. |
| GscMonitor.PathOfDoubleSlash | agents/gsc_monitor.py:232-234 | `pathlib` collapses the doubled slash when "/index.html" follows a path ending in "/". |
| GscMonitor.DirectoryCandidates | agents/gsc_monitor.py:227-239 | A directory URL such as ".../blog/" is looked up as blog/.html, then blog/index.html, then the directory blog itself. |
| GscMonitor.FirstExisting | agents/gsc_monitor.py:227-242 | The result is the first candidate that exists, and there is no result exactly when none exists. |
| SchemaInjector.EscapeHtml | agents/schema_injector.py:203-204 | No `<` or `>` survives in the escaped text. |
| SchemaInjector.EscapeHtmlPerChar | agents/schema_injector.py:203-204 | The two whole-string replace passes equal escaping each character on its own. |
| SchemaInjector.EscapeRoundTrip | agents/schema_injector.py:203-204 | For text without `&`, unescaping `&lt;` and `&gt;` recovers the original text, so escaping loses nothing. |
| SchemaInjector.FaqHtmlShape | agents/schema_injector.py:195-208 | The section is the fixed header with its single FAQ heading, then one question/answer block per FAQ in input order, then the closing tag. |
| SchemaInjector.FaqHtmlRoundTrip | agents/schema_injector.py:195-208 | Parsing the generated section gives back exactly the FAQs it was built from, in order, one `<h3>`/`<p>` pair each. |
| SchemaInjector.ParsePairsRoundTrip | agents/schema_injector.py:202-207 | Each FAQ contributes exactly one question and one answer, and the parser reads them back in order. |
| SchemaInjector.FaqSchemaRoundTrip | agents/schema_injector.py:165-180 | The schema is a FAQPage whose mainEntity lists one Question per FAQ in the same order. Each Question's name and accepted-answer text are the FAQ's texts unchanged. |
| SchemaInjector.EntitiesRoundTrip | agents/schema_injector.py:169-179 | The entity list reads back as exactly the given FAQs. |
| SchemaInjector.SchemaBlockNamesFaqPage | agents/schema_injector.py:181-191 | The script block written into the head contains "FAQPage" as `json.dumps(indent=2)` renders it. |
| SchemaInjector.InjectFaqSchema | agents/schema_injector.py:184-192 | The block and a newline are inserted just before the first `</head>`, and the rest of the page is unchanged. A page without `</head>` is returned unchanged. |
| SchemaInjector.InjectedIsRecognised | agents/schema_injector.py:96-97 | After injection into a page that has a `</head>`, `has_faq_schema` holds. |
| SchemaInjector.AddFaqSectionToBody | agents/schema_injector.py:211-216 | The section is inserted before the first `</article>`. Failing that, it goes before the first `</main>`. With neither marker the page is unchanged. |
| SchemaInjector.ExtractFaqs | agents/schema_injector.py:86-93 | At most 10 pairs are kept. Every kept pair is complete (both texts non-empty) and comes from the found pairs, in their order. With fewer than 10 kept, every complete pair is kept. The kept pairs are exactly the first min(10, n) of the n complete pairs, in order and with duplicates kept. |
| SchemaInjector.ExtractFaqsSnoc | agents/schema_injector.py:87-93 | One more match, read as the loop reads it: a complete pair is appended, duplicates included, while fewer than 10 are kept. Otherwise the result does not change. |
| SchemaInjector.PlanFile | agents/schema_injector.py:229-253 | The URL fix comes first, and the page is skipped when "FAQPage" appears after it. Extracted FAQs are used when there are any. Otherwise the generator is asked, and its FAQs, if any, are added to the body. |
| SchemaInjector.ProcessFile | agents/schema_injector.py:223-267 | When the schema is already present, nothing is injected and the page is written only if the URL fix changed it. Otherwise `faq_injected` holds exactly when FAQs were extracted or generated. The page is written exactly when the URL fix changed it or FAQs were found. The page written is the URL-fixed page with the schema injected for the extracted FAQs. Failing those, it is the page with the generated FAQ section added to the body and their schema injected. With neither, it is the URL-fixed page. |
| SchemaInjector.GeneratorOnlyWhenNothingExtracted | agents/schema_injector.py:245-253 | When extraction finds FAQs, the generator's answer has no influence on the result. |
| SchemaInjector.ReportsInjectionWithoutHead | agents/schema_injector.py:256-267 | A page with FAQs but no `</head>` is reported as injected, yet it carries no schema. |
| SchemaInjector.ReportsInjectionOnEmptyPage | agents/schema_injector.py:256-267 | A concrete instance: an empty page from which one FAQ pair is extracted. |
| SchemaInjector.ProcessFileChecked | agents/schema_injector.py:255-267 | `faq_injected` holds only when the written page carries the schema. It holds exactly when there are FAQs and a `</head>` to insert them before. |
| SchemaInjector.SecondRunSkips | agents/schema_injector.py:234-239 | A page that received the schema is skipped on the next run, with only the URL fix applied, provided the URL fix never removes "FAQPage". |
| Slugs.Slug | agents/content_engine.py:505 | A slug uses only `[a-z0-9-]` and never contains "--". It does not start with a dash, has at most n characters, and is a prefix of the normalised title. When the normalised title fits, the slug is all of it. Otherwise it has exactly n characters. |
| Slugs.NormaliseShape | agents/content_engine.py:505 | Lower-casing, substitution and `strip('-')` give a text over `[a-z0-9-]` with no double dash and no dash at either end. |
| Slugs.NormaliseKeepsWord | agents/content_engine.py:505 | Normalising keeps exactly the letters and digits of the lower-cased title, in order. |
| Slugs.NormaliseIdempotent | agents/content_engine.py:505 | Normalising a normalised text changes nothing. |
| Slugs.CollapseShape | agents/content_engine.py:505 | The substitution output uses only `[a-z0-9-]` and has no double dash. |
| Slugs.WordCollapse | agents/content_engine.py:505 | The substitution keeps every letter and digit, in order. |
| Slugs.CollapseFixed | agents/content_engine.py:505 | A slug-shaped text that does not start with a dash is unchanged by the substitution. |
| Slugs.TruncatedSlugMayEndWithDash | agents/content_engine.py:505 | Truncation can leave a trailing dash: the slug of "a b" cut at 2 is "a-". |
| ContentEngine.TruncateMessage | agents/content_engine.py:90-92 | Messages of at most 4000 characters are unchanged. Longer ones become their first 4000 characters followed by "...". |
| ContentEngine.LoadTracking | agents/content_engine.py:105-110 | Without a file, the tracking holds three empty lists. With a file, it is the file's content. |
| ContentEngine.RecordAll | agents/content_engine.py:519 | Appending names to a tracked list extends exactly that list by the names, in order, and leaves every other key as it was. Appending raises a KeyError exactly when the key is missing and there is something to append. |
| ContentEngine.Unfinished | agents/content_engine.py:482 | The available items are exactly those whose name is not yet recorded, in their original order. |
| ContentEngine.NothingDoneAllUnfinished | agents/content_engine.py:484-488 | With an empty record every item is available, which is why the reset makes all topics available again. |
| ContentEngine.ResetPool | agents/content_engine.py:479-488 | The list is reset exactly when every item is already recorded. A reset empties that one tracked list and makes every item available. Without a reset, the tracking is untouched and the available items are the unrecorded ones. |
| ContentEngine.Chosen | agents/content_engine.py:491 | The selected topics are the available topics at the sampled positions, in sample order. |
| ContentEngine.KeywordRun | agents/content_engine.py:474-532 | The run writes one article per sampled topic. Each article's slug and file name follow the slug rule, limited to 60 characters. The sampled keywords are appended, in order, to created_keywords, and no other tracking list changes. The run fails with a KeyError exactly when that list is missing and something was sampled. The failure leaves the tracking as loaded and the first topic's file already written. |
| ContentEngine.KeywordRunConsumes | agents/content_engine.py:482-519 | After a keyword run, no topic it wrote is still available. |
| ContentEngine.KeywordRunFailsWithoutList | agents/content_engine.py:478-519 | A tracking file without created_keywords makes the first append fail after that topic's file is written. |
| ContentEngine.RecordAllCreating | agents/content_engine.py:519 | The corrected append never fails. It extends the list by the names and leaves every other key as it was. |
| ContentEngine.KeywordRunCreating | agents/content_engine.py:474-532 | The corrected keyword run always completes. It writes the same articles and appends the same keywords, and no other tracking list changes. |
| ContentEngine.KeywordRunCreatingAgrees | agents/content_engine.py:474-532 | Wherever the original run succeeds, the corrected run gives the same articles and the same created_keywords. |
| ContentEngine.LandingRun | agents/content_engine.py:535-577 | With no landing page left, the run returns nothing and leaves the tracking unchanged; there is no reset. Otherwise it writes the chosen page and appends its slug to created_landing, and no other list changes. It fails only when that list is missing, and then the page file is already written and the tracking stays as loaded. |
| ContentEngine.EvergreenRun | agents/content_engine.py:580-627 | One topic is written, after a reset if all were done, and appended to created_evergreen; no other list changes. With an empty topic list the choice raises after the reset was saved, and nothing is written. When the tracked list is missing, the append raises after the topic's file is written. |
| ContentEngine.SummaryUrl | agents/content_engine.py:721-733 | A link is shown exactly when the result has a non-empty slug or file. |
| ContentEngine.BlogLinkNamesWrittenFile | agents/content_engine.py:722-727 | A keyword or evergreen article is linked as /blog/ followed by the file it was written to. |
| ContentEngine.LandingLinkPointsIntoBlog | agents/content_engine.py:722-727 | A landing result has no `type`, so its link points under /blog/ although the page was written elsewhere. |
| ContentEngine.TaggedLandingArticle | agents/content_engine.py:724-725 | A landing result tagged as landing is linked at the site root. Its file and slug are unchanged. |
| QuestionDiscovery.StartsWithAny | agents/question_discovery.py:98 | True exactly when the text starts with one of the words. |
| QuestionDiscovery.ToQuestion | agents/question_discovery.py:90-107 | The question keeps the post's title, score and comment count. Its engagement is score + 2 × comments. Its body is the post text cut to 500 characters. |
| QuestionDiscovery.Collect | agents/question_discovery.py:89-107 | The result is the qualifying posts, each turned into its question, in the order the search returned them. No other post appears. A post qualifies when its title has a "?" or starts, once lower-cased, with how/what/why/when/should/can/do/is. Each question has engagement score + 2 × comments. |
| QuestionDiscovery.TopQuestions | agents/question_discovery.py:111-120 | At most 20 questions are kept, with pairwise distinct lower-cased titles and engagement from highest down. All are taken from the input. |
| QuestionDiscovery.TopQuestionsMaxEngagement | agents/question_discovery.py:114-118 | A kept question has the highest engagement among all questions with its lower-cased title. |
| QuestionDiscovery.TopQuestionsFirstAmongTies | agents/question_discovery.py:114-118 | Among questions with its title and engagement, the kept one is the first in the input, because the sort is stable. |
| QuestionDiscovery.TopQuestionsAllTitles | agents/question_discovery.py:111-120 | With fewer than 20 kept, every lower-cased title of the input is represented. |
| QuestionDiscovery.TopQuestionsAreTop | agents/question_discovery.py:111-120 | When a title is left out, 20 questions were kept. No question with a left-out title has more engagement than the last one kept. |
| QuestionDiscovery.LoadAnswered | agents/question_discovery.py:123-128 | The answered set is the stored list as a set, or empty without a file. |
| QuestionDiscovery.AddAnswered | agents/question_discovery.py:131-137 | The new set is the old set plus the new hash. |
| QuestionDiscovery.AddAnsweredIdempotent | agents/question_discovery.py:131-137 | Recording the same hash twice is the same as recording it once. |
| QuestionDiscovery.ArticleFilename | agents/question_discovery.py:281-284 | The name is the date, a dash, the title's slug of at most 50 characters, and ".md". The slug can be read back from the name. The name holds no "/" when the date holds none. |
| QuestionDiscovery.FinalArticle | agents/question_discovery.py:352-355 | A score that is not a number (`null`, text) raises `TypeError` in the comparison with 7. A missing score with a non-empty revision raises `KeyError` where the score is printed. A non-empty revision replaces the article exactly when the score is a number below 7. In every other case the article is kept. |
| QuestionDiscovery.RevisionWithoutScoreRaises | agents/question_discovery.py:352-355 | A review that offers a revision but no score raises. |
| QuestionDiscovery.NonNumericScoreRaises | agents/question_discovery.py:353 | A score that is not a number raises, with or without a revision. |
| QuestionDiscovery.FailedReviewKeepsArticle | agents/question_discovery.py:273 | The fallback of a failed review, score 0 and no revision, keeps the generated article. |
| QuestionDiscovery.NewQuestions | agents/question_discovery.py:323 | The new questions are exactly those whose hash is not yet answered, in order. |
| QuestionDiscovery.Worthy | agents/question_discovery.py:339-341 | The questions judged worth writing, in batch order. |
| QuestionDiscovery.Reached | agents/question_discovery.py:333-362 | The reached questions are a prefix of the batch in which nothing raises, ending just before the first question that raises. |
| QuestionDiscovery.ProcessBatch | agents/question_discovery.py:333-369 | The loop reaches the questions before the first worthy one whose article generation, review or saving raises. Generation raises when `target_keywords` is not a list of text, or when `call_claude` gets a status other than 200 or the request fails. Saving raises when `suggested_title` is present but not text. The worthy questions it reaches are saved, in order, each with the article the agents write for it. The answered set grows by exactly their hashes. The run stops exactly when some question raises. |
| QuestionDiscovery.GenerationFailureStops | agents/question_discovery.py:142-159 | When generating the article for a worthy first question raises, the loop stops with nothing saved and nothing recorded. |
| QuestionDiscovery.UntitledStops | agents/question_discovery.py:281-282 | When a worthy first question's `suggested_title` is present but not text, `.lower()` raises before the file is opened. The loop stops with nothing saved and nothing recorded. |
| QuestionDiscovery.WeeklyRun | agents/question_discovery.py:306-369 | The batch is the first three new questions. The saved articles are those of its worthy questions reached before generation, review or saving raises, each as the agents write it. Exactly their hashes are added, and the run stops exactly when one of those steps raises. |
| QuestionDiscovery.WeeklyRunSavesEveryWorthy | agents/question_discovery.py:333-369 | When neither generation, review nor saving raises for any question of the batch, every worthy question of the batch is saved and the run completes. |
| QuestionDiscovery.WeeklyRunSavesNew | agents/question_discovery.py:306-362 | At most 3 articles are saved, and the answered set only grows. Every saved question is from the list, was new, is worth writing, and has its hash recorded. The saved questions keep the list order. |
| QuestionDiscovery.SavedNotNewAgain | agents/question_discovery.py:323-362 | A question saved by one run is not new in a run that starts from the updated answered set. |
| AutoIndex.LocEnd | agents/auto_index.py:79 | The lazy match ends at the first `</loc>`, provided no line break comes before it. |
| AutoIndex.ExtractLocs | agents/auto_index.py:79 | No extracted URL holds a line break or a closing tag. |
| AutoIndex.SitemapRoundTrip | agents/auto_index.py:79 | Extraction recovers, in order, every URL of a sitemap written one `<loc>` per line. |
| AutoIndex.ExtractSkipsText | agents/auto_index.py:79 | Text without a `<` before the rest of a sitemap, such as the line breaks between entries, adds no URL. |
| AutoIndex.LoadIndexed | agents/auto_index.py:52-58 | The tracked set is the stored list as a set, or empty without a file. |
| AutoIndex.FindNewUrls | agents/auto_index.py:156-162 | The new URLs are exactly the sitemap URLs not yet tracked, in sitemap order. |
| AutoIndex.UpdateTracking | agents/auto_index.py:194-198 | Tracking is rewritten only when there are new URLs, and then it is the old set united with them. |
| AutoIndex.SubmitIndexNow | agents/auto_index.py:118-153 | An empty list sends nothing and fails. Otherwise the payload carries the first min(n, 100) URLs, the host, the key and the key location. Success means exactly status 200 or 202, so a 422 key-validation answer is a failure. |
| AutoIndex.AutoIndexRun | agents/auto_index.py:165-198 | The new URLs are exactly the untracked sitemap URLs, in sitemap order, and IndexNow receives them as the submission rule prescribes. When there are new URLs, the payload holds the first 100 of them and success is the IndexNow verdict. Tracking is rewritten exactly when some sitemap URL is untracked, and it then covers the old set and the whole sitemap. With nothing new, nothing is submitted. |
| AutoIndex.RerunFindsNothing | agents/auto_index.py:156-198 | After a run that rewrote tracking, the next run finds no new URL. |
| AutoIndex.OverflowTrackedButNotSent | agents/auto_index.py:189-198 | With more than 100 new URLs, the 101st is tracked as indexed although the request did not carry it. |
| AutoIndex.AutoIndexRunCapped | agents/auto_index.py:165-198 | The corrected run tracks only the submitted URLs, so the next run still finds exactly the rest. |
| LocalServer.PromptOf | local-server.py:34-36 | A prompt is read only from a JSON object. A missing prompt reads as "". |
| LocalServer.CheckPrompt | local-server.py:41-43 | A prompt is usable exactly when it is a string whose stripped length is at least 5. A falsy prompt is too short. A truthy prompt that is not a string raises. |
| LocalServer.Sanitise | local-server.py:50 | The forwarded prompt is the stripped prompt cut to at most 500 characters. It is the whole stripped prompt when that fits, and exactly 500 characters when it does not. It keeps at least 5 characters when the check passed. |
| LocalServer.FirstText | local-server.py:113-118 | The reply text is the text of the first block whose type is "text", or "" when that block has no text. There is none when no block has type "text". |
| LocalServer.StripFencesFenced | local-server.py:124-133 | Fence stripping recovers the JSON the model wrapped in a "```json" fence. |
| LocalServer.StripFencesUnfenced | local-server.py:124-133 | A reply that is a bare JSON object is only stripped. |
| LocalServer.ItemsOf | local-server.py:141-144 | Items are accepted exactly when "items" is a non-empty list. |
| LocalServer.NormaliseItem | local-server.py:147-154 | A normalised item has exactly description, quantity and price. Missing fields default to "Service", 1 and 0. Conversion failures raise. |
| LocalServer.NormaliseItemFixed | local-server.py:147-154 | Normalising an already normalised item leaves it unchanged. |
| LocalServer.MissingFieldsDefault | local-server.py:149-151 | An empty item becomes ("Service", 1, 0). An explicit null quantity raises instead. |
| LocalServer.NormaliseItems | local-server.py:147-154 | There is one normalised item per item, in order, and the whole list fails if one item does. |
| LocalServer.NormalClient | local-server.py:156-162 | The client has exactly the keys name, email and address, with missing values null. |
| LocalServer.NormalInvoice | local-server.py:164-168 | The invoice has exactly the key notes, null when missing. |
| LocalServer.Assemble | local-server.py:147-168 | The three assignments set items, client and invoice, and every other key keeps its value. |
| LocalServer.NormaliseParsed | local-server.py:141-168 | A parsed reply without a non-empty item list gets a 400 answer. A 200 answer has the shape the page relies on. Its items are the normalised items of the reply, and its client and invoice are the normalised client and invoice of the reply. The handler raises exactly when the reply is not an object, or an item fails to normalise, or client or invoice is present but not an object. |
| LocalServer.NormaliseParsedKeepsOtherKeys | local-server.py:147-168 | Keys other than items, client and invoice pass through unchanged. |
| LocalServer.NullClientCrashes | local-server.py:157-159 | A reply with "client": null raises instead of producing an empty client. |
| LocalServer.NormaliseParsedChecked | local-server.py:156-168 | The corrected normalisation answers 200 whenever the items normalise, whatever the client and invoice hold. |
| LocalServer.CheckedAgrees | local-server.py:156-168 | Wherever the original answers, the corrected normalisation gives the same answer. |
| LocalServer.HandleParseInvoice | local-server.py:29-168 | Undecodable JSON gets a 400 answer, and a body that is not an object raises. A prompt that is too short gets the "Prompt too short" 400 answer, exactly when the check says so. A truthy prompt that is not text raises. A usable prompt without the API key gets the "key not set" 500 answer. The model is called exactly when the key is set and the prompt usable. It is called with the sanitised prompt of 5 to 500 characters, and the response is then the answer to its reply. |
| LocalServer.Answer | local-server.py:100-168 | An HTTP error and a connection failure get their two 500 messages. A reply without text, or with empty text, gets "Invalid response from AI". Text that does not parse after fence stripping gets the "couldn't understand" 500 answer. Otherwise the answer is the normalisation of the parsed reply. The status is always 200, 400 or 500, and a 200 answer has the normalised shape. |
| LocalServer.FencedReplyAnswered | local-server.py:113-168 | A reply whose one text block is JSON in a "```json" fence is answered with the normalisation of exactly that JSON. |
| LocalServer.FencedReplyHandled | local-server.py:29-168 | A request with a long enough prompt, answered with fenced invoice JSON, forwards the sanitised prompt and responds with the normalisation of that JSON. |
| DirectorySubmitter.Tier | agents/directory_submitter.py:324-326 | A tier's list is exactly the directories with that tier, in list order. |
| DirectorySubmitter.ChecklistPermutes | agents/directory_submitter.py:392-405 | With every tier in 1..3, the checklist lists each directory exactly as often as the list does. |
| DirectorySubmitter.AddMissing | agents/directory_submitter.py:449-457 | Existing records are untouched. Afterwards the tracked names are the old ones plus every directory name, and each added one holds the pending record. |
| DirectorySubmitter.AddMissingTracked | agents/directory_submitter.py:449-450 | Nothing is added when every directory is already tracked. |
| DirectorySubmitter.InitTracking | agents/directory_submitter.py:447-459 | With no directories nothing happens. Otherwise a missing `submissions` raises. An object gets a pending record for each missing name. Any other value is kept only when every name is already `in` it, as an element of a list or a substring of a text. Otherwise the first assignment or `in` raises. Only `submissions` changes, and afterwards every name is `in` it. |
| DirectorySubmitter.NameListKept | agents/directory_submitter.py:449-459 | A `submissions` list that holds every directory name is returned unchanged. |
| DirectorySubmitter.InitTrackingIdempotent | agents/directory_submitter.py:447-459 | A second `init_tracking` changes nothing. |
| DirectorySubmitter.InitFromEmpty | agents/directory_submitter.py:437-457 | A first run without a file gives every directory a pending record. |
| Json.Set | local-server.py:147-168 | `d[k] = v` makes the key read v. An existing key keeps its place, and a new key is appended. |
| Json.SetOther | local-server.py:147-168 | Assigning one key leaves every other key's value as it was. |
| Json.SetSame | agents/directory_submitter.py:450-451 | Assigning a key the value it already has changes nothing. |
| Json.RenderObjectContains | agents/schema_injector.py:181 | The text of an object written with `indent=2` contains the line of each of its fields. |
| Sequences.SortDesc | agents/gsc_monitor.py:181 | `sorted(key, reverse=True)` gives a permutation in non-increasing key order. |
| Sequences.SortDescStable | agents/gsc_monitor.py:181 | The sort is stable: elements with equal keys keep their input order. |
| Sequences.DedupByProperties | agents/question_discovery.py:112-118 | The seen-set loop keeps a subsequence with distinct keys, none already seen. Each kept element is the first of its key, and every unseen key is represented. |
| Sequences.DedupByConcat | agents/gsc_monitor.py:197-206 | Two consecutive seen-set loops equal one loop over the concatenation. |
| Strings.ReplaceFirstInserts | agents/schema_injector.py:192 | `replace(m, t + m, 1)` inserts t just before the first marker, and does nothing without one. |
| Strings.ReplaceAllRemoves | agents/schema_injector.py:203-204 | Replacing a character everywhere by text without it removes it. |
| Strings.StripPadded | local-server.py:126-133 | `strip` removes whitespace padding and nothing else. |

## Left out

- Network calls are parameters or are left out: Anthropic, Telegram, Google OAuth and Search Console, Reddit, the sitemap fetch, the sitemap pings and IndexNow. The HTTP request and response plumbing of `local-server.py` is left out too. The JWT/RS256 signing in `get_access_token` is a call into a cryptography library and is left out.
- File reads, writes and `exists()` are left out. The existence check is the `onDisk` parameter (true for files and directories alike, as `exists()` is), file contents are `Option` parameters (`None` when there is no file), and written files are returned values.
- `random.sample` and `random.choice` are parameters: picks of distinct positions (`IsSample`) and an index into the available list.
- `datetime.now()` is a `date` parameter.
- Python's `hash` is a parameter. The salted per-process string hash is not stable between runs. QuestionDiscovery.SavedNotNewAgain therefore holds only when the hash is the same across runs.
- `float(...)` is a parameter (`FloatOracle`). Search Console CTR and position values are `real` and are compared exactly, without rounding. Number text in `json.dumps` is a parameter.
- Unicode is not modelled. `lower`, `isspace` and `strip` are modelled on ASCII letters and whitespace only.
- Regular expressions other than the slug substitution and the `<loc>` extraction are parameters or left out:
  - `fix_article_schema_url` is the `fixUrl` parameter, and "URL fixed" means the text changed, as the source computes it;
  - the heading search and tag stripping of `extract_faqs` are the `findPairs` parameter. Its non-empty filter and the cap of 10 are modelled;
  - `extract_meta` and `apply_meta_updates` are left out.
- `generate_faqs_with_claude` and the title and description it is given are the `generate` parameter.
- The article generation, review and regeneration in the content engine are the `title` parameter. Only the title they produce is used.
- ContentEngine.KeywordRun: failures of generation are not modelled. `generate_blog_article` raises when `call_claude` does, and a review score that is not a number raises in the comparison with 5. Either can happen after earlier articles were written and recorded.
- ContentEngine.LandingRun: a failure of `generate_landing_page` is not modelled. The run would then raise before writing anything.
- ContentEngine.EvergreenRun: a failure of `generate_blog_article` is not modelled. The run would then raise before writing, after a reset of the evergreen list was saved.
- QuestionDiscovery.FinalArticle: a revision that is truthy but not text is not modelled. Saving it would raise in `save_article` after the file was opened.
- The Search Console `main` loop, `generate_improvements` and the meta rewrite are left out. They are API and file glue around the modelled selection rules.
- Page templates are fixed text and are left out: `wrap_blog_html`, the front matter `save_article` writes before a question article (title, date, keywords, source, URL, draft status), the landing page prompt and most of `build_markdown_kit`. Only the tier partition and the checklist order are modelled.
- `run_questions_mode` in the content engine and `main`'s mode dispatch and message text are left out, apart from the link rule.
- The auto-index `main` fetches the sitemap twice. The model reads it once, since two fetches can differ only through the network.
- A reply whose JSON is not an object, and non-dict items, are modelled as an uncaught exception (`Crash`), as the source raises there.
- SchemaInjector.ProcessFile: the `generate` parameter yields well-formed FAQs. The JSON the model returns is used as parsed, and an item without `question` or `answer`, or one that is not an object, makes `build_faq_html` raise. The model does not represent that exception.
- Json.Get returns the first field with a key. `json.loads` keeps the last value of a repeated key and builds objects with distinct keys, and on those the two agree. Objects with repeated keys are not modelled as `json.loads` output.
- GscMonitor.Deduplicate states the reasons only when the low-CTR list has distinct pages. With a repeated low-CTR page, the second occurrence upgrades the first to "page2+low_ctr" even though the page is not in the page-2 list.

## Findings

| source | as written | input that shows it | evidently intended | confidence | as-written member | corrected member |
|---|---|---|---|---|---|---|
| agents/schema_injector.py:256-267 | `faq_injected` is `bool(faqs)`, but `inject_faq_schema` inserts nothing into a page without `</head>` | an empty page from which one pair ("Q?", "A.") is extracted: reported injected, and the written page has no "FAQPage" | report injection only when the schema was inserted, so the next run skips exactly those pages | medium, not executed | SchemaInjector.ProcessFile, SchemaInjector.ReportsInjectionOnEmptyPage | SchemaInjector.ProcessFileChecked, SchemaInjector.SecondRunSkips |
| agents/content_engine.py:722-733 | the landing result has no `type` key, so the summary links to /blog/&lt;slug&gt;.html although the page was saved as landing-pages/&lt;slug&gt;.html | any landing idea with a non-empty slug | the `type == 'landing'` branch, linking https://www.makeinvoice.online/&lt;slug&gt; | medium, not executed | ContentEngine.LandingLinkPointsIntoBlog | ContentEngine.TaggedLandingArticle |
| agents/content_engine.py:479-519 | the available list is read with `.get("created_keywords", [])`, but the append indexes the key directly | a tracking file `{}` with at least one topic: KeyError on the first append | append to the list the filter read (`setdefault`) | low, not executed | ContentEngine.KeywordRun, ContentEngine.KeywordRunFailsWithoutList | ContentEngine.KeywordRunCreating, ContentEngine.KeywordRunCreatingAgrees |
| agents/auto_index.py:189-198 | only the first 100 new URLs are submitted, but all new URLs are recorded as indexed | a sitemap with 101 distinct untracked URLs: the 101st is never submitted and never found new again | track only what was submitted | medium, not executed | AutoIndex.AutoIndexRun, AutoIndex.OverflowTrackedButNotSent | AutoIndex.AutoIndexRunCapped |
| local-server.py:157-168 | `parsed_data.get('client', {})` returns `None` for `"client": null`, and `.get` on it raises, so the handler sends no response | the reply `{"items": [{}], "client": null}` | treat a null client or invoice as empty (`or {}`) | medium, not executed | LocalServer.NormaliseParsed, LocalServer.NullClientCrashes | LocalServer.NormaliseParsedChecked, LocalServer.CheckedAgrees |

=== FILE: auto_index.dfy ===
/**
 * The auto-index agent's bookkeeping: the `<loc>` URLs of the sitemap, the
 * ones not yet submitted, the IndexNow request and its verdict, and the
 * tracking set of URLs already handed to search engines. Fetching the
 * sitemap, the pings and the POST are parameters.
 */
module AutoIndex {
  import opened Outcomes
  import opened Strings
  import opened Sequences

  // ---------------------------------------------------------------------
  // Sitemap URLs
  // ---------------------------------------------------------------------

  const LocOpen := "<loc>"
  const LocClose := "</loc>"

  /**
   * Where the lazy `(.*?)</loc>` match ends inside `t` (the text after an
   * opening tag): at the first closing tag, provided no line break comes
   * before it, since `.` does not match a newline.
   */
  function LocEnd(t: string): (r: Option<nat>)
    ensures r.Some? ==> StartsAt(t, LocClose, r.value) && '\n' !in t[..r.value]
    ensures r.Some? ==> forall k :: 0 <= k < r.value ==> !StartsAt(t, LocClose, k)
    ensures r.None? ==> forall k: nat :: StartsAt(t, LocClose, k) ==> '\n' in t[..k]
  {
    match Find(t, LocClose)
    case None => None
    case Some(j) =>
      if '\n' in t[..j] then
        var i :| 0 <= i < j && t[i] == '\n';
        assert forall k: nat :: StartsAt(t, LocClose, k) ==> t[..k][i] == '\n';
        None
      else Some(j)
  }

  /** The text of a match holds neither a line break nor a closing tag. */
  lemma LocEndContent(t: string)
    requires LocEnd(t).Some?
    ensures var j := LocEnd(t).value;
      '\n' !in t[..j] && forall k: nat :: !StartsAt(t[..j], LocClose, k)
  {
    var j := LocEnd(t).value;
    forall k: nat | StartsAt(t[..j], LocClose, k) ensures false {
      assert t[..j][k..k + |LocClose|] == t[k..k + |LocClose|];
      assert StartsAt(t, LocClose, k) && k < j;
    }
  }

  /** `re.findall(r'<loc>(.*?)</loc>', text)`: the contents of the `<loc>` elements, in order. */
  function ExtractLocs(s: string): (r: seq<string>)
    ensures forall i :: 0 <= i < |r| ==> '\n' !in r[i] && forall k: nat :: !StartsAt(r[i], LocClose, k)
    decreases |s|
  {
    if |s| == 0 then []
    else if StartsWith(s, LocOpen) then
      var t := s[|LocOpen|..];
      match LocEnd(t)
      case Some(j) =>
        LocEndContent(t);
        [t[..j]] + ExtractLocs(t[j + |LocClose|..])
      case None => ExtractLocs(s[1..])
    else ExtractLocs(s[1..])
  }

  /** A URL the sitemap can carry verbatim: no tag start and no line break. */
  predicate PlainUrl(u: string) {
    '<' !in u && '\n' !in u
  }

  /** One sitemap line. */
  function LocLine(u: string): string {
    LocOpen + u + LocClose + "\n"
  }

  function SitemapText(urls: seq<string>): string {
    if |urls| == 0 then "" else LocLine(urls[0]) + SitemapText(urls[1..])
  }

  /** The match after an opening tag ends at the first closing tag when the text before it has no `<`. */
  lemma LocEndAfterPlain(u: string, rest: string)
    requires PlainUrl(u)
    ensures LocEnd(u + LocClose + rest) == Some(|u|)
  {
    var t := u + LocClose + rest;
    assert t[|u|..|u| + |LocClose|] == LocClose;
    assert StartsAt(t, LocClose, |u|);
    forall k: nat | k < |u| ensures !StartsAt(t, LocClose, k) {
      assert t[k] == u[k];
    }
    assert t[..|u|] == u;
  }

  /** One unfolding of the extractor at an opening tag whose element closes. */
  lemma ExtractAtOpen(s: string, t: string, j: nat)
    requires s == LocOpen + t && LocEnd(t) == Some(j)
    ensures ExtractLocs(s) == [t[..j]] + ExtractLocs(t[j + |LocClose|..])
  {
    assert s[..|LocOpen|] == LocOpen;
    assert s[|LocOpen|..] == t;
  }

  lemma LocLineExtract(u: string, rest: string)
    requires PlainUrl(u)
    ensures ExtractLocs(LocLine(u) + rest) == [u] + ExtractLocs(rest)
  {
    var tail := "\n" + rest;
    var t := u + LocClose + tail;
    assert LocLine(u) + rest == LocOpen + t;
    LocEndAfterPlain(u, tail);
    ExtractAtOpen(LocOpen + t, t, |u|);
    assert t[..|u|] == u;
    assert t[|u| + |LocClose|..] == tail;
    ExtractSkipsText("\n", rest);
  }

  /** Text without a tag start, such as the line breaks between entries, adds nothing. */
  lemma {:induction false} ExtractSkipsText(x: string, rest: string)
    requires '<' !in x
    ensures ExtractLocs(x + rest) == ExtractLocs(rest)
    decreases |x|
  {
    if |x| > 0 {
      var s := x + rest;
      assert s[0] == x[0] != LocOpen[0];
      assert s[1..] == x[1..] + rest;
      ExtractSkipsText(x[1..], rest);
    } else {
      assert x + rest == rest;
    }
  }

  /** Extraction recovers every URL of a sitemap written one `<loc>` per line. */
  lemma {:induction false} SitemapRoundTrip(urls: seq<string>)
    requires forall i :: 0 <= i < |urls| ==> PlainUrl(urls[i])
    ensures ExtractLocs(SitemapText(urls)) == urls
    decreases |urls|
  {
    if |urls| > 0 {
      SitemapRoundTrip(urls[1..]);
      LocLineExtract(urls[0], SitemapText(urls[1..]));
      assert urls == [urls[0]] + urls[1..];
    }
  }

  // ---------------------------------------------------------------------
  // New URLs and tracking
  // ---------------------------------------------------------------------

  /** `load_indexed_urls`: the stored list as a set, or nothing when there is no file. */
  function LoadIndexed(file: Option<seq<string>>): (r: set<string>)
    ensures forall u :: u in r <==> file.Some? && u in file.value
  {
    match file
    case None => {}
    case Some(urls) => set u | u in urls
  }

  /** `find_new_urls`: the sitemap URLs not yet tracked, in sitemap order. */
  function FindNewUrls(sitemap: seq<string>, indexed: set<string>): (r: seq<string>)
    ensures forall u :: u in r <==> u in sitemap && u !in indexed
    ensures IsSubseq(r, sitemap)
  {
    FilterSubseq(u => u !in indexed, sitemap);
    Filter(u => u !in indexed, sitemap)
  }

  /** The tracking update in `main`: rewritten, with the new URLs added, only when there are any. */
  function UpdateTracking(indexed: set<string>, newUrls: seq<string>): (r: Option<set<string>>)
    ensures r.None? <==> |newUrls| == 0
    ensures r.Some? ==> forall u :: u in r.value <==> u in indexed || u in newUrls
  {
    if |newUrls| == 0 then None else Some(indexed + set u | u in newUrls)
  }

  // ---------------------------------------------------------------------
  // IndexNow
  // ---------------------------------------------------------------------

  const SiteUrl := "https://www.makeinvoice.online"
  const IndexNowHost := "www.makeinvoice.online"
  const MaxBatch := 100

  datatype Payload = Payload(host: string, key: string, keyLocation: string, urlList: seq<string>)

  /** The request sent, if any, and whether it was accepted. */
  datatype Submission = Submission(sent: Option<Payload>, ok: bool)

  /** The statuses IndexNow answers with on success; `None` stands for a failed request. */
  predicate Accepted(status: Option<int>) {
    status == Some(200) || status == Some(202)
  }

  /** `submit_indexnow`; `post` is the HTTP call, answering with a status or failing. */
  function SubmitIndexNow(urls: seq<string>, key: string, post: Payload -> Option<int>): (r: Submission)
    ensures |urls| == 0 ==> r.sent.None? && !r.ok
    ensures |urls| > 0 ==> r.sent.Some?
    ensures r.sent.Some? ==>
      var p := r.sent.value;
      && |p.urlList| == (if |urls| < MaxBatch then |urls| else MaxBatch)
      && p.urlList == urls[..|p.urlList|]
      && p.host == IndexNowHost && p.key == key
      && p.keyLocation == SiteUrl + "/" + key + ".txt"
      && (r.ok <==> Accepted(post(p)))
  {
    if |urls| == 0 then Submission(None, false)
    else
      var p := Payload(IndexNowHost, key, SiteUrl + "/" + key + ".txt", Take(urls, MaxBatch));
      Submission(Some(p), Accepted(post(p)))
  }

  // ---------------------------------------------------------------------
  // A run
  // ---------------------------------------------------------------------

  datatype IndexRun = IndexRun(newUrls: seq<string>, submission: Submission, tracking: Option<set<string>>)

  /** `main`, with the sitemap read once and the pings left out. */
  function AutoIndexRun(sitemap: seq<string>, indexed: set<string>, key: string, post: Payload -> Option<int>)
    : (r: IndexRun)
    ensures r.newUrls == FindNewUrls(sitemap, indexed)
    ensures forall u :: u in r.newUrls <==> u in sitemap && u !in indexed
    ensures r.submission == SubmitIndexNow(r.newUrls, key, post)
    ensures r.tracking.None? <==> forall u :: u in sitemap ==> u in indexed
    ensures r.tracking.None? ==> r.submission.sent.None? && !r.submission.ok
    ensures r.tracking.Some? ==>
      && r.submission.sent.Some? && r.submission.sent.value.urlList == Take(r.newUrls, MaxBatch)
      && (r.submission.ok <==> Accepted(post(r.submission.sent.value)))
    ensures r.tracking.Some? ==> forall u :: u in r.tracking.value <==> u in indexed || u in sitemap
  {
    var newUrls := FindNewUrls(sitemap, indexed);
    assert |newUrls| == 0 <==> forall u :: u in sitemap ==> u in indexed by {
      if |newUrls| > 0 { assert newUrls[0] in newUrls; }
    }
    IndexRun(newUrls, SubmitIndexNow(newUrls, key, post), UpdateTracking(indexed, newUrls))
  }

  /** Tracking after a run covers the whole sitemap, so the next run finds nothing new. */
  lemma RerunFindsNothing(sitemap: seq<string>, indexed: set<string>, key: string, post: Payload -> Option<int>)
    requires AutoIndexRun(sitemap, indexed, key, post).tracking.Some?
    ensures FindNewUrls(sitemap, AutoIndexRun(sitemap, indexed, key, post).tracking.value) == []
  {
    NothingNewWhenTracked(sitemap, AutoIndexRun(sitemap, indexed, key, post).tracking.value);
  }

  lemma {:induction false} NothingNewWhenTracked(sitemap: seq<string>, indexed: set<string>)
    requires forall u :: u in sitemap ==> u in indexed
    ensures FindNewUrls(sitemap, indexed) == []
    decreases |sitemap|
  {
    if |sitemap| > 0 {
      NothingNewWhenTracked(sitemap[1..], indexed);
      assert sitemap[0] in indexed;
    }
  }

  /**
   * With more than 100 new URLs, the 101st is recorded as indexed although
   * the request carried only the first 100.
   */
  lemma OverflowTrackedButNotSent(sitemap: seq<string>, indexed: set<string>, key: string, post: Payload -> Option<int>)
    requires var n := FindNewUrls(sitemap, indexed); |n| > MaxBatch && n[MaxBatch] !in n[..MaxBatch]
    ensures var r := AutoIndexRun(sitemap, indexed, key, post);
      var u := r.newUrls[MaxBatch];
      && u !in indexed && u in r.tracking.value
      && u !in r.submission.sent.value.urlList
  {
    var r := AutoIndexRun(sitemap, indexed, key, post);
    assert r.newUrls[MaxBatch] in r.newUrls;
  }

  /** The run with tracking limited to what was actually sent. */
  function AutoIndexRunCapped(sitemap: seq<string>, indexed: set<string>, key: string, post: Payload -> Option<int>)
    : (r: IndexRun)
    ensures forall u :: u in r.newUrls <==> u in sitemap && u !in indexed
    ensures r.tracking.None? <==> forall u :: u in sitemap ==> u in indexed
    ensures r.tracking.Some? ==> r.submission.sent.Some? && forall u :: u in r.tracking.value <==>
      u in indexed || u in r.submission.sent.value.urlList
    ensures r.tracking.Some? ==> forall u :: u in FindNewUrls(sitemap, r.tracking.value) <==>
      u in r.newUrls && u !in Take(r.newUrls, MaxBatch)
  {
    var newUrls := FindNewUrls(sitemap, indexed);
    assert |newUrls| == 0 <==> forall u :: u in sitemap ==> u in indexed by {
      if |newUrls| > 0 { assert newUrls[0] in newUrls; }
    }
    var submission := SubmitIndexNow(newUrls, key, post);
    var sent := Take(newUrls, MaxBatch);
    IndexRun(newUrls, submission, UpdateTracking(indexed, sent))
  }
}

=== FILE: content_engine.dfy ===
/**
 * The bookkeeping of the content engine: which topics are still to be
 * written, the reset when none is left, the tracking lists the runs append
 * to, the Telegram truncation and the link the run summary shows. Article
 * generation, review and file writing are external; the random choices are
 * parameters constrained as `random.sample`/`random.choice` constrain them.
 */
module ContentEngine {
  import opened Outcomes
  import opened Strings
  import opened Sequences
  import opened Slugs

  // ---------------------------------------------------------------------
  // Telegram
  // ---------------------------------------------------------------------

  const MessageLimit := 4000

  /** `send_telegram`'s truncation: long messages keep their first 4000 characters and gain "...". */
  function TruncateMessage(m: string): (r: string)
    ensures |r| <= MessageLimit + 3
    ensures |m| <= MessageLimit ==> r == m
    ensures |m| > MessageLimit ==>
      |r| == MessageLimit + 3 && StartsWith(m, r[..MessageLimit]) && EndsWith(r, "...")
  {
    if |m| > MessageLimit then m[..MessageLimit] + "..." else m
  }

  // ---------------------------------------------------------------------
  // Tracking
  // ---------------------------------------------------------------------

  /** The tracking file: lists of what has been created, by kind. */
  type Tracking = map<string, seq<string>>

  const KeywordsKey := "created_keywords"
  const LandingKey := "created_landing"
  const EvergreenKey := "created_evergreen"

  /** `load_tracking`: the file's contents, or empty lists when there is no file. */
  function LoadTracking(file: Option<Tracking>): (t: Tracking)
    ensures file.None? ==>
      (t.Keys == {KeywordsKey, LandingKey, EvergreenKey}
       && t[KeywordsKey] == [] && t[LandingKey] == [] && t[EvergreenKey] == [])
    ensures file.Some? ==> t == file.value
  {
    match file
    case Some(t) => t
    case None => map[KeywordsKey := [], LandingKey := [], EvergreenKey := []]
  }

  /** `tracking.get(key, [])`. */
  function Created(t: Tracking, key: string): seq<string> {
    if key in t then t[key] else []
  }

  datatype Failure =
    | KeyError(key: string)   // `tracking[key]` on a file without that list
    | EmptyChoice             // `random.choice` of an empty list

  /**
   * A run that raised: the exception, the tracking as last saved, and the
   * files written before the exception (under the run's own directory).
   */
  datatype Halt = Halt(failure: Failure, tracking: Tracking, written: seq<string>)

  /** The tracking differs from `before` at most in the list under `key`. */
  predicate OnlyChanges(after: Tracking, before: Tracking, key: string) {
    && after.Keys - {key} == before.Keys - {key}
    && forall k :: k in before && k in after && k != key ==> after[k] == before[k]
  }

  /** `for name in names: tracking[key].append(name)`. */
  function RecordAll(t: Tracking, key: string, names: seq<string>): (r: Result<Tracking, Failure>)
    ensures r.Err? <==> key !in t && |names| > 0
    ensures r.Err? ==> r.error == KeyError(key)
    ensures r.Ok? ==> r.value.Keys == t.Keys
    ensures r.Ok? ==> forall k :: k in t && k != key ==> r.value[k] == t[k]
    ensures r.Ok? ==> Created(r.value, key) == Created(t, key) + names
    decreases |names|
  {
    if |names| == 0 then Ok(t)
    else if key !in t then Err(KeyError(key))
    else
      var r := RecordAll(t[key := t[key] + [names[0]]], key, names[1..]);
      assert t[key] + [names[0]] + names[1..] == t[key] + names;
      r
  }

  // ---------------------------------------------------------------------
  // Work still to do
  // ---------------------------------------------------------------------

  /** The items whose name is not yet recorded, in their original order. */
  function Unfinished<T(!new)>(items: seq<T>, name: T -> string, done: seq<string>): (r: seq<T>)
    ensures forall x :: x in r <==> x in items && name(x) !in done
    ensures IsSubseq(r, items)
  {
    FilterSubseq(x => name(x) !in done, items);
    Filter(x => name(x) !in done, items)
  }

  lemma {:induction false} NothingDoneAllUnfinished<T(!new)>(items: seq<T>, name: T -> string)
    ensures Unfinished(items, name, []) == items
    decreases |items|
  {
    if |items| > 0 {
      NothingDoneAllUnfinished(items[1..], name);
      assert items == [items[0]] + items[1..];
    }
  }

  /** The items a run may choose from, after any reset, and the tracking as it then stands. */
  datatype Pool<T> = Pool(tracking: Tracking, items: seq<T>, reset: bool)

  /**
   * The available list of `run_keyword_mode` and `run_evergreen_mode`: when
   * every item is done the list under `key` is emptied and every item is
   * available again.
   */
  function ResetPool<T(!new)>(items: seq<T>, name: T -> string, t: Tracking, key: string): (p: Pool<T>)
    ensures p.reset <==> forall x :: x in items ==> name(x) in Created(t, key)
    ensures p.items == Unfinished(items, name, Created(p.tracking, key))
    ensures !p.reset ==> p.tracking == t
    ensures p.reset ==> p.tracking == t[key := []] && p.items == items
    ensures OnlyChanges(p.tracking, t, key)
  {
    var available := Unfinished(items, name, Created(t, key));
    if |available| == 0 then
      NothingDoneAllUnfinished(items, name);
      Pool(t[key := []], items, true)
    else
      assert available[0] in available;
      Pool(t, available, false)
  }

  // ---------------------------------------------------------------------
  // The runs
  // ---------------------------------------------------------------------

  /** A keyword topic. */
  datatype Topic = Topic(title: string, keyword: string)

  /** A landing page idea. */
  datatype LandingIdea = LandingIdea(slug: string, title: string)

  /** A summary entry: the keys a run's result dictionary may carry. */
  datatype Article = Article(
    title: string,
    keyword: Option<string>,
    slug: Option<string>,
    file: Option<string>,
    kind: Option<string>)

  /** The articles a run reports and the tracking it leaves. */
  datatype Run = Run(articles: seq<Article>, tracking: Tracking)

  function KeywordOf(t: Topic): string {
    t.keyword
  }

  const SlugLimit := 60

  function KeywordPool(topics: seq<Topic>, t: Tracking): Pool<Topic> {
    ResetPool(topics, KeywordOf, t, KeywordsKey)
  }

  /** `random.sample(pool, k)`, as the positions it picks: `k` distinct positions of the pool. */
  predicate IsSample(picks: seq<nat>, n: nat, k: nat) {
    |picks| == k
    && (forall i :: 0 <= i < |picks| ==> picks[i] < n)
    && (forall i, j :: 0 <= i < j < |picks| ==> picks[i] != picks[j])
  }

  /** The items at the picked positions, in pick order. */
  function Chosen<T>(items: seq<T>, picks: seq<nat>): (r: seq<T>)
    requires forall i :: 0 <= i < |picks| ==> picks[i] < |items|
    ensures |r| == |picks|
    ensures forall i :: 0 <= i < |picks| ==> r[i] == items[picks[i]]
  {
    if |picks| == 0 then [] else [items[picks[0]]] + Chosen(items, picks[1..])
  }

  function Keywords(topics: seq<Topic>): (r: seq<string>)
    ensures |r| == |topics|
    ensures forall i :: 0 <= i < |topics| ==> r[i] == topics[i].keyword
  {
    Map((t: Topic) => t.keyword, topics)
  }

  function KeywordArticles(topics: seq<Topic>, title: Topic -> Option<string>): (r: seq<Article>)
    ensures |r| == |topics|
    ensures forall i :: 0 <= i < |topics| ==> r[i] == KeywordArticle(topics[i], title(topics[i]))
  {
    if |topics| == 0 then [] else [KeywordArticle(topics[0], title(topics[0]))] + KeywordArticles(topics[1..], title)
  }

  function Min(a: nat, b: nat): nat {
    if a < b then a else b
  }

  function KeywordArticle(topic: Topic, title: Option<string>): Article {
    var slug := Slug(topic.title, SlugLimit);
    Article(title.GetOr(topic.title), Some(topic.keyword), Some(slug), Some(slug + ".html"), None)
  }

  /**
   * `run_keyword_mode`: two distinct topics (or fewer, if fewer are
   * available) are written and their keywords appended to the tracking;
   * `title` gives the title the generator returned, if any.
   */
  function KeywordRun(topics: seq<Topic>, t: Tracking, picks: seq<nat>, title: Topic -> Option<string>)
    : (r: Result<Run, Halt>)
    requires IsSample(picks, |KeywordPool(topics, t).items|, Min(2, |KeywordPool(topics, t).items|))
    ensures r.Err? <==> KeywordsKey !in KeywordPool(topics, t).tracking && |picks| > 0
    ensures r.Err? ==>
      && r.error.failure == KeyError(KeywordsKey) && r.error.tracking == t
      && r.error.written == [Slug(KeywordPool(topics, t).items[picks[0]].title, SlugLimit) + ".html"]
    ensures r.Ok? ==> OnlyChanges(r.value.tracking, t, KeywordsKey)
    ensures r.Ok? ==> r.value.articles == KeywordArticles(Chosen(KeywordPool(topics, t).items, picks), title)
    ensures r.Ok? ==>
      Created(r.value.tracking, KeywordsKey)
      == Created(KeywordPool(topics, t).tracking, KeywordsKey) + Keywords(Chosen(KeywordPool(topics, t).items, picks))
  {
    var pool := KeywordPool(topics, t);
    var selected := Chosen(pool.items, picks);
    match RecordAll(pool.tracking, KeywordsKey, Keywords(selected))
    case Err(e) => Err(Halt(e, pool.tracking, [KeywordArticle(selected[0], None).file.value]))
    case Ok(tracking) => Ok(Run(KeywordArticles(selected, title), tracking))
  }

  /** After a keyword run, the topics it wrote are no longer available. */
  lemma KeywordRunConsumes(topics: seq<Topic>, t: Tracking, picks: seq<nat>, title: Topic -> Option<string>, i: nat)
    requires IsSample(picks, |KeywordPool(topics, t).items|, Min(2, |KeywordPool(topics, t).items|))
    requires KeywordRun(topics, t, picks, title).Ok?
    requires i < |picks|
    ensures KeywordPool(topics, t).items[picks[i]]
        !in Unfinished(topics, KeywordOf, Created(KeywordRun(topics, t, picks, title).value.tracking, KeywordsKey))
  {
    var pool := KeywordPool(topics, t);
    var before := Created(pool.tracking, KeywordsKey);
    var after := Created(KeywordRun(topics, t, picks, title).value.tracking, KeywordsKey);
    var keywords := Keywords(Chosen(pool.items, picks));
    assert after == before + keywords;
    assert after[|before| + i] == keywords[i] == pool.items[picks[i]].keyword;
  }

  /** A tracking file without the keyword list makes the first append fail, after the first article is written. */
  lemma KeywordRunFailsWithoutList()
    ensures KeywordRun([Topic("Invoice Tips", "invoice tips")], map[], [0], _ => None)
         == Err(Halt(KeyError(KeywordsKey), map[], [Slug("Invoice Tips", SlugLimit) + ".html"]))
  {
    var topics := [Topic("Invoice Tips", "invoice tips")];
    var pool := KeywordPool(topics, map[]);
    assert Topic("Invoice Tips", "invoice tips") in Unfinished(topics, KeywordOf, Created(map[], KeywordsKey));
    assert !pool.reset;
  }

  /** `tracking.setdefault(key, []).append(name)` for each name: never fails. */
  function RecordAllCreating(t: Tracking, key: string, names: seq<string>): (r: Tracking)
    ensures r.Keys == t.Keys + (if |names| > 0 then {key} else {})
    ensures forall k :: k in t && k != key ==> r[k] == t[k]
    ensures OnlyChanges(r, t, key)
    ensures Created(r, key) == Created(t, key) + names
  {
    if |names| == 0 then t
    else
      var start := t[key := Created(t, key)];
      var r := RecordAll(start, key, names);
      r.value
  }

  /** Keyword mode with the list created when missing: the run always completes. */
  function KeywordRunCreating(topics: seq<Topic>, t: Tracking, picks: seq<nat>, title: Topic -> Option<string>)
    : (r: Run)
    requires IsSample(picks, |KeywordPool(topics, t).items|, Min(2, |KeywordPool(topics, t).items|))
    ensures OnlyChanges(r.tracking, t, KeywordsKey)
    ensures r.articles == KeywordArticles(Chosen(KeywordPool(topics, t).items, picks), title)
    ensures Created(r.tracking, KeywordsKey)
         == Created(KeywordPool(topics, t).tracking, KeywordsKey) + Keywords(Chosen(KeywordPool(topics, t).items, picks))
  {
    var pool := KeywordPool(topics, t);
    var selected := Chosen(pool.items, picks);
    Run(KeywordArticles(selected, title), RecordAllCreating(pool.tracking, KeywordsKey, Keywords(selected)))
  }

  /** Where both runs succeed they agree; the corrected run also succeeds where the original fails. */
  lemma KeywordRunCreatingAgrees(topics: seq<Topic>, t: Tracking, picks: seq<nat>, title: Topic -> Option<string>)
    requires IsSample(picks, |KeywordPool(topics, t).items|, Min(2, |KeywordPool(topics, t).items|))
    requires KeywordRun(topics, t, picks, title).Ok?
    ensures KeywordRun(topics, t, picks, title).value.articles == KeywordRunCreating(topics, t, picks, title).articles
    ensures Created(KeywordRun(topics, t, picks, title).value.tracking, KeywordsKey)
         == Created(KeywordRunCreating(topics, t, picks, title).tracking, KeywordsKey)
  {
  }

  function SlugOf(idea: LandingIdea): string {
    idea.slug
  }

  /**
   * `run_landing_mode`: one page not yet created is written and recorded;
   * with none left nothing happens, and there is no reset.
   */
  function LandingRun(ideas: seq<LandingIdea>, t: Tracking, pick: nat): (r: Result<Run, Halt>)
    requires var available := Unfinished(ideas, SlugOf, Created(t, LandingKey));
             |available| > 0 ==> pick < |available|
    ensures var available := Unfinished(ideas, SlugOf, Created(t, LandingKey));
      && (|available| == 0 ==> r == Ok(Run([], t)))
      && (|available| > 0 ==>
        var idea := available[pick];
        && (r.Err? <==> LandingKey !in t)
        && (r.Err? ==> r.error == Halt(KeyError(LandingKey), t, [idea.slug + ".html"]))
        && (r.Ok? ==> OnlyChanges(r.value.tracking, t, LandingKey))
        && (r.Ok? ==> r.value.articles == [LandingArticle(idea)]
                      && Created(r.value.tracking, LandingKey) == Created(t, LandingKey) + [idea.slug]))
  {
    var available := Unfinished(ideas, SlugOf, Created(t, LandingKey));
    if |available| == 0 then Ok(Run([], t))
    else
      var idea := available[pick];
      match RecordAll(t, LandingKey, [idea.slug])
      case Err(e) => Err(Halt(e, t, [idea.slug + ".html"]))
      case Ok(tracking) => Ok(Run([LandingArticle(idea)], tracking))
  }

  /** The result a landing run reports: no `type` key. */
  function LandingArticle(idea: LandingIdea): Article {
    Article(idea.title, None, Some(idea.slug), Some(idea.slug + ".html"), None)
  }

  function Itself(s: string): string {
    s
  }

  function EvergreenPool(topics: seq<string>, t: Tracking): Pool<string> {
    ResetPool(topics, Itself, t, EvergreenKey)
  }

  /**
   * `run_evergreen_mode`: one topic not yet written (after a reset if all
   * were) is written and recorded; `random.choice` of an empty list fails.
   */
  function EvergreenRun(topics: seq<string>, t: Tracking, pick: nat, title: string -> Option<string>)
    : (r: Result<Run, Halt>)
    requires |EvergreenPool(topics, t).items| > 0 ==> pick < |EvergreenPool(topics, t).items|
    ensures r.Ok? ==> OnlyChanges(r.value.tracking, t, EvergreenKey)
    ensures var pool := EvergreenPool(topics, t);
      && (|pool.items| == 0 ==> r == Err(Halt(EmptyChoice, pool.tracking, [])))
      && (|pool.items| > 0 ==>
        var topic := pool.items[pick];
        && (r.Err? <==> EvergreenKey !in pool.tracking)
        && (r.Err? ==> r.error == Halt(KeyError(EvergreenKey), t, [Slug(topic, SlugLimit) + ".html"]))
        && (r.Ok? ==> r.value.articles == [EvergreenArticle(topic, title(topic))]
                      && Created(r.value.tracking, EvergreenKey) == Created(pool.tracking, EvergreenKey) + [topic]))
  {
    var pool := EvergreenPool(topics, t);
    if |pool.items| == 0 then Err(Halt(EmptyChoice, pool.tracking, []))
    else
      var topic := pool.items[pick];
      match RecordAll(pool.tracking, EvergreenKey, [topic])
      case Err(e) => Err(Halt(e, pool.tracking, [EvergreenArticle(topic, None).file.value]))
      case Ok(tracking) => Ok(Run([EvergreenArticle(topic, title(topic))], tracking))
  }

  function EvergreenArticle(topic: string, title: Option<string>): Article {
    var slug := Slug(topic, SlugLimit);
    Article(title.GetOr(topic), None, Some(slug), Some(slug + ".html"), None)
  }

  // ---------------------------------------------------------------------
  // The link in the run summary
  // ---------------------------------------------------------------------

  const SiteRoot := "https://www.makeinvoice.online"

  /** Python's truth value of an optional string field. */
  predicate Present(o: Option<string>) {
    o.Some? && |o.value| > 0
  }

  /** The "View" link `main` prints for a result, if any. */
  function SummaryUrl(a: Article): (url: Option<string>)
    ensures url.Some? <==> Present(a.slug) || Present(a.file)
  {
    if Present(a.slug) then
      if a.kind == Some("landing") then Some(SiteRoot + "/" + a.slug.value)
      else Some(SiteRoot + "/blog/" + a.slug.value + ".html")
    else if Present(a.file) then Some(SiteRoot + "/" + ReplaceAll(a.file.value, ".html", ""))
    else None
  }

  /** The blog link of a keyword or evergreen article names the file the run wrote under blog/. */
  lemma BlogLinkNamesWrittenFile(a: Article)
    requires a.kind.None? && a.slug.Some? && |a.slug.value| > 0
    requires a.file == Some(a.slug.value + ".html")
    ensures SummaryUrl(a) == Some(SiteRoot + "/blog/" + a.file.value)
  {
    assert SiteRoot + "/blog/" + a.slug.value + ".html" == SiteRoot + "/blog/" + (a.slug.value + ".html");
  }

  /** A landing page, saved as landing-pages/<slug>.html, is nevertheless linked under /blog/. */
  lemma LandingLinkPointsIntoBlog(idea: LandingIdea)
    requires |idea.slug| > 0
    ensures SummaryUrl(LandingArticle(idea)) == Some(SiteRoot + "/blog/" + idea.slug + ".html")
  {
  }

  /** The landing result tagged with `type: landing`, as the summary expects. */
  function TaggedLandingArticle(idea: LandingIdea): (a: Article)
    ensures |idea.slug| > 0 ==> SummaryUrl(a) == Some(SiteRoot + "/" + idea.slug)
    ensures a.file == LandingArticle(idea).file && a.slug == LandingArticle(idea).slug
  {
    LandingArticle(idea).(kind := Some("landing"))
  }
}

=== FILE: directory_submitter.dfy ===
/**
 * The directory submission kit: the directory list, the checklist that
 * groups it by tier, and the tracking file that gets a pending record for
 * every directory not yet tracked. Writing the kit and the tracking file,
 * and the content the language model suggests, are left to the caller.
 */
module DirectorySubmitter {
  import opened Outcomes
  import opened Sequences
  import opened Json
  import Strings

  // ---------------------------------------------------------------------
  // Directories
  // ---------------------------------------------------------------------

  datatype Directory = Directory(
    name: string,
    tier: int,
    url: string,
    submitUrl: string,
    da: int,
    linkType: string,
    notes: string,
    maxTagline: nat,
    maxDescription: nat)

  /** The directories to submit to, in the order the kit lists them. */
  const Directories: seq<Directory> := [
      Directory("Product Hunt", 1, "https://www.producthunt.com", "https://www.producthunt.com/posts/new", 91, "dofollow",
                "Best launched on Tuesday-Thursday. Needs a tagline, description, and thumbnail image. Schedule a launch.",
                60, 260),
      Directory("AlternativeTo", 1, "https://alternativeto.net", "https://alternativeto.net/software/add/", 80, "dofollow",
                "Free listing. Add as alternative to FreshBooks, Wave, Invoice Ninja. Very high referral traffic for tools.",
                70, 500),
      Directory("G2", 1, "https://www.g2.com", "https://sell.g2.com/free-software-listing", 87, "nofollow",
                "Free listing available. High trust signal for B2B. Requires business email.",
                70, 350),
      Directory("Capterra", 1, "https://www.capterra.com", "https://www.capterra.com/vendors/sign-up", 87, "nofollow",
                "Free basic listing. Category: Invoice Management / Billing. High buyer intent traffic.",
                70, 400),
      Directory("GetApp", 1, "https://www.getapp.com", "https://www.getapp.com/add-a-product/", 77, "nofollow",
                "Sister site to Capterra. Same company (Gartner). Free listing, worth submitting separately.",
                70, 400),
      Directory("SaaSHub", 2, "https://www.saashub.com", "https://www.saashub.com/add-software", 65, "dofollow",
                "Free listing. Fast approval. Good for indie tools.",
                60, 300),
      Directory("Indie Hackers", 2, "https://www.indiehackers.com", "https://www.indiehackers.com/products/new", 72, "dofollow",
                "Create a product page. Great community for bootstrappers. Also post in relevant groups.",
                60, 300),
      Directory("BetaList", 2, "https://betalist.com", "https://betalist.com/submit", 65, "dofollow",
                "Free submission. Good for early-stage products. Can take 1-2 weeks for review.",
                60, 250),
      Directory("Uneed", 2, "https://www.uneed.best", "https://www.uneed.best/submit-a-tool", 45, "dofollow",
                "Quick submission. Free. Good for tool directories. Fast approval.",
                60, 200),
      Directory("SaaSworthy", 2, "https://www.saasworthy.com", "https://www.saasworthy.com/add-product", 58, "nofollow",
                "Free listing. Good for SaaS discovery. Category: Invoice Management.",
                70, 350),
      Directory("Software Advice", 3, "https://www.softwareadvice.com", "https://www.softwareadvice.com/app/signup", 82, "nofollow",
                "Gartner-owned (same as Capterra). Free basic listing. Category: Billing & Invoicing.",
                70, 400),
      Directory("Crozdesk", 3, "https://crozdesk.com", "https://crozdesk.com/software/add", 55, "dofollow",
                "Free listing. Good for B2B software discovery.",
                60, 300),
      Directory("SourceForge", 3, "https://sourceforge.net", "https://sourceforge.net/software/add/", 93, "nofollow",
                "Very high DA. Free listing. Category: Billing/Invoicing. Old but still high traffic.",
                60, 500),
      Directory("Slant", 3, "https://www.slant.co", "https://www.slant.co/topics/11323/~best-free-invoice-generators", 68, "dofollow",
                "Add MakeInvoice.online as an option in the 'Best free invoice generators' topic.",
                60, 200),
      Directory("ToolPilot", 3, "https://www.toolpilot.ai", "https://www.toolpilot.ai/submit", 40, "dofollow",
                "AI/web tool directory. Free submission. Fast approval.",
                60, 200)
    ]

  /** The directories of one tier, in list order. */
  function Tier(dirs: seq<Directory>, t: int): (r: seq<Directory>)
    ensures forall d :: d in r <==> d in dirs && d.tier == t
    ensures IsSubseq(r, dirs)
  {
    FilterSubseq((d: Directory) => d.tier == t, dirs);
    Filter((d: Directory) => d.tier == t, dirs)
  }

  lemma TierCons(d: Directory, rest: seq<Directory>, t: int)
    ensures Tier([d] + rest, t) == (if d.tier == t then [d] else []) + Tier(rest, t)
  {
    assert ([d] + rest)[1..] == rest;
  }

  /** The checklist entries of `build_markdown_kit`: tier 1, then tier 2, then tier 3. */
  function Checklist(dirs: seq<Directory>): seq<Directory> {
    Tier(dirs, 1) + Tier(dirs, 2) + Tier(dirs, 3)
  }

  predicate KnownTiers(dirs: seq<Directory>) {
    forall i :: 0 <= i < |dirs| ==> 1 <= dirs[i].tier <= 3
  }

  /** With every tier in 1..3, the checklist lists every directory exactly as often as the list does. */
  lemma {:induction false} ChecklistPermutes(dirs: seq<Directory>)
    requires KnownTiers(dirs)
    ensures multiset(Checklist(dirs)) == multiset(dirs)
    decreases |dirs|
  {
    if |dirs| > 0 {
      var d := dirs[0];
      var rest := dirs[1..];
      ChecklistPermutes(rest);
      assert dirs == [d] + rest;
      TierCons(d, rest, 1);
      TierCons(d, rest, 2);
      TierCons(d, rest, 3);
    }
  }

  /** Every directory of the list has a tier from 1 to 3, so `ChecklistPermutes` applies to it. */
  lemma DirectoriesKnownTiers()
    ensures KnownTiers(Directories)
  {
  }

  // ---------------------------------------------------------------------
  // Tracking
  // ---------------------------------------------------------------------

  /** The record a directory starts with. */
  const Pending: Json := JObj([
    Field("status", JStr("pending")),
    Field("submitted_date", JNull),
    Field("approved_date", JNull),
    Field("backlink_url", JNull),
    Field("notes", JStr(""))])

  /** `load_tracking` without a file. */
  const EmptyTracking: seq<Field> := [Field("submissions", JObj([]))]

  function Names(dirs: seq<Directory>): (r: seq<string>)
    ensures |r| == |dirs|
    ensures forall i :: 0 <= i < |dirs| ==> r[i] == dirs[i].name
  {
    Map((d: Directory) => d.name, dirs)
  }

  /** The loop of `init_tracking` over the submissions object. */
  function AddMissing(subs: seq<Field>, dirs: seq<Directory>): (r: seq<Field>)
    ensures forall k :: k in Keys(subs) ==> Get(r, k) == Get(subs, k)
    ensures forall k :: k in Keys(r) <==> k in Keys(subs) || k in Names(dirs)
    ensures forall k :: k in Keys(r) && k !in Keys(subs) ==> Get(r, k) == Some(Pending)
    decreases |dirs|
  {
    if |dirs| == 0 then subs
    else
      var name := dirs[0].name;
      var next := if name in Keys(subs) then subs else Set(subs, name, Pending);
      assert forall k :: k in Names(dirs) <==> k == name || k in Names(dirs[1..]) by {
        assert Names(dirs) == [name] + Names(dirs[1..]);
      }
      forall k | k in Keys(subs) && k != name ensures Get(next, k) == Get(subs, k) {
        if name !in Keys(subs) { SetOther(subs, name, Pending, k); }
      }
      AddMissing(next, dirs[1..])
  }

  /** Nothing is added when every directory is already tracked. */
  lemma {:induction false} AddMissingTracked(subs: seq<Field>, dirs: seq<Directory>)
    requires forall i :: 0 <= i < |dirs| ==> dirs[i].name in Keys(subs)
    ensures AddMissing(subs, dirs) == subs
    decreases |dirs|
  {
    if |dirs| > 0 {
      AddMissingTracked(subs, dirs[1..]);
    }
  }

  /**
   * Python's `name in submissions` for whatever JSON value the tracking
   * file holds there: a key of an object, an element of a list, a substring
   * of a text, and `None` where `in` raises `TypeError`.
   */
  function Tracks(submissions: Json, name: string): (r: Option<bool>)
    ensures r.Some? <==> submissions.JObj? || submissions.JArr? || submissions.JStr?
    ensures submissions.JObj? ==> r == Some(name in Keys(submissions.fields))
  {
    match submissions
    case JObj(fields) => Some(name in Keys(fields))
    case JArr(items) => Some(JStr(name) in items)
    case JStr(text) => Some(Strings.Contains(text, name))
    case _ => None
  }

  /** Every directory name is `in` the value, so the loop assigns nothing. */
  predicate TracksAll(submissions: Json, dirs: seq<Directory>) {
    forall i :: 0 <= i < |dirs| ==> Tracks(submissions, dirs[i].name) == Some(true)
  }

  /**
   * `init_tracking` on the loaded tracking object. With no directories the
   * loop does nothing. Otherwise `tracking["submissions"]` raises when
   * missing (`None`); an object gets the missing records; any other value
   * survives only when every name is already `in` it, since the first
   * name that is not (or an `in` on a number, `null` or boolean) raises.
   */
  function InitTracking(tracking: seq<Field>, dirs: seq<Directory>): (r: Option<seq<Field>>)
    ensures r.Some? <==>
      || |dirs| == 0
      || (Get(tracking, "submissions").Some?
          && (Get(tracking, "submissions").value.JObj? || TracksAll(Get(tracking, "submissions").value, dirs)))
    ensures r.Some? ==> forall k :: k != "submissions" ==> Get(r.value, k) == Get(tracking, k)
    ensures r.Some? ==> Keys(r.value) == Keys(tracking)
    ensures r.Some? && |dirs| > 0 ==> TracksAll(Get(r.value, "submissions").value, dirs)
    ensures r.Some? && Get(tracking, "submissions").Some? && Get(tracking, "submissions").value.JObj?
            ==> Get(r.value, "submissions")
                == Some(JObj(AddMissing(Get(tracking, "submissions").value.fields, dirs)))
    ensures r.Some? && !(Get(tracking, "submissions").Some? && Get(tracking, "submissions").value.JObj?)
            ==> r.value == tracking
  {
    if |dirs| == 0 then
      if Get(tracking, "submissions").Some? && Get(tracking, "submissions").value.JObj? then
        var subs := Get(tracking, "submissions").value;
        SetSame(tracking, "submissions", subs);
        Some(tracking)
      else Some(tracking)
    else
      match Get(tracking, "submissions")
      case None => None
      case Some(JObj(subs)) =>
        var added := AddMissing(subs, dirs);
        var t := Set(tracking, "submissions", JObj(added));
        forall k | k != "submissions" ensures Get(t, k) == Get(tracking, k) {
          SetOther(tracking, "submissions", JObj(added), k);
        }
        assert TracksAll(JObj(added), dirs) by {
          forall i | 0 <= i < |dirs| ensures dirs[i].name in Keys(added) {
            assert Names(dirs)[i] == dirs[i].name;
          }
        }
        Some(t)
      case Some(other) => if TracksAll(other, dirs) then Some(tracking) else None
  }

  /** A list holding every directory name is left as it is: `in` finds each name, so nothing is assigned. */
  lemma NameListKept(tracking: seq<Field>, dirs: seq<Directory>)
    requires Get(tracking, "submissions") == Some(JArr(Map((d: Directory) => JStr(d.name), dirs)))
    ensures InitTracking(tracking, dirs) == Some(tracking)
  {
    var items := Map((d: Directory) => JStr(d.name), dirs);
    assert forall i :: 0 <= i < |dirs| ==> items[i] == JStr(dirs[i].name);
  }

  /** Running `init_tracking` a second time changes nothing. */
  lemma InitTrackingIdempotent(tracking: seq<Field>, dirs: seq<Directory>)
    requires InitTracking(tracking, dirs).Some?
    ensures InitTracking(InitTracking(tracking, dirs).value, dirs) == InitTracking(tracking, dirs)
  {
    var t := InitTracking(tracking, dirs).value;
    if |dirs| > 0 && Get(tracking, "submissions").value.JObj? {
      var subs := AddMissing(Get(tracking, "submissions").value.fields, dirs);
      assert forall i :: 0 <= i < |dirs| ==> dirs[i].name in Keys(subs);
      AddMissingTracked(subs, dirs);
      SetSame(t, "submissions", JObj(subs));
    }
  }

  /** A first run from no file gives every directory a pending record. */
  lemma InitFromEmpty(dirs: seq<Directory>, i: nat)
    requires i < |dirs|
    ensures var t := InitTracking(EmptyTracking, dirs).value;
      Get(Get(t, "submissions").value.fields, dirs[i].name) == Some(Pending)
  {
    var subs := AddMissing([], dirs);
    assert Names(dirs)[i] == dirs[i].name;
    assert Keys([]) == [];
  }
}

=== FILE: gsc_monitor.dfy ===
/**
 * The weekly Search Console optimiser's selection rules: which pages are
 * "page 2" or "low CTR" candidates, how the two candidate lists are merged
 * and capped, and how a page URL is mapped to a local HTML file.
 */
module GscMonitor {
  import opened Outcomes
  import opened Strings
  import opened Sequences

  /** One row of the Search Console report, grouped by page. */
  datatype Row = Row(page: string, clicks: int, impressions: int, ctr: real, position: real)

  const Page2Min: real := 11.0
  const Page2Max: real := 20.0
  const Page2MinImpressions: int := 50
  const LowCtrMinImpressions: int := 200
  const LowCtrMaxCtr: real := 0.03
  const MaxPagesToOptimize: nat := 5
  const BlogMarker := "/blog/"
  const SiteUrl := "https://www.makeinvoice.online"

  function Impressions(r: Row): int {
    r.impressions
  }

  function Page(r: Row): string {
    r.page
  }

  /** A blog page ranking on the second results page with some visibility. */
  predicate IsPage2(r: Row) {
    Page2Min <= r.position <= Page2Max && r.impressions >= Page2MinImpressions && Contains(r.page, BlogMarker)
  }

  /** A blog page seen often but rarely clicked. */
  predicate IsLowCtr(r: Row) {
    r.impressions >= LowCtrMinImpressions && r.ctr < LowCtrMaxCtr && Contains(r.page, BlogMarker)
  }

  function FindPage2Candidates(rows: seq<Row>): (r: seq<Row>)
    ensures forall i :: 0 <= i < |r| ==>
      11.0 <= r[i].position <= 20.0 && r[i].impressions >= 50 && Contains(r[i].page, "/blog/")
    ensures multiset(r) == multiset(Filter(IsPage2, rows))
    ensures SortedDesc(r, Impressions)
    ensures StableFor(r, Filter(IsPage2, rows), Impressions)
  {
    var c := Filter(IsPage2, rows);
    SortDescStable(c, Impressions);
    SortDescMembers(c, Impressions);
    var r := SortDesc(c, Impressions);
    assert forall i :: 0 <= i < |r| ==> r[i] in r;
    r
  }

  function FindLowCtrCandidates(rows: seq<Row>): (r: seq<Row>)
    ensures forall i :: 0 <= i < |r| ==>
      r[i].impressions >= 200 && r[i].ctr < 0.03 && Contains(r[i].page, "/blog/")
    ensures multiset(r) == multiset(Filter(IsLowCtr, rows))
    ensures SortedDesc(r, Impressions)
    ensures StableFor(r, Filter(IsLowCtr, rows), Impressions)
  {
    var c := Filter(IsLowCtr, rows);
    SortDescStable(c, Impressions);
    SortDescMembers(c, Impressions);
    var r := SortDesc(c, Impressions);
    assert forall i :: 0 <= i < |r| ==> r[i] in r;
    r
  }

  /** Why a page was selected for optimisation. */
  datatype Reason = Page2 | LowCtr | Page2AndLowCtr

  /** A row tagged with its reason (the source's `{**r, "reason": ...}`). */
  datatype Candidate = Candidate(row: Row, reason: Reason)

  function Rows(cs: seq<Candidate>): (r: seq<Row>)
    ensures |r| == |cs|
    ensures forall i :: 0 <= i < |cs| ==> r[i] == cs[i].row
  {
    if |cs| == 0 then [] else [cs[0].row] + Rows(cs[1..])
  }

  lemma RowsAppend(cs: seq<Candidate>, c: Candidate)
    ensures Rows(cs + [c]) == Rows(cs) + [c.row]
  {
  }

  /** Marks every entry for `page` as selected for both reasons. */
  function Upgrade(cs: seq<Candidate>, page: string): (r: seq<Candidate>)
    ensures |r| == |cs|
    ensures forall i :: 0 <= i < |cs| ==>
      r[i] == if cs[i].row.page == page then Candidate(cs[i].row, Page2AndLowCtr) else cs[i]
  {
    if |cs| == 0 then []
    else
      [if cs[0].row.page == page then Candidate(cs[0].row, Page2AndLowCtr) else cs[0]] + Upgrade(cs[1..], page)
  }

  lemma RowsUpgrade(cs: seq<Candidate>, page: string)
    ensures Rows(Upgrade(cs, page)) == Rows(cs)
  {
  }

  ghost predicate DistinctPages(rows: seq<Row>) {
    forall i, j :: 0 <= i < j < |rows| ==> rows[i].page != rows[j].page
  }

  /** The reason a page deserves, read off the two candidate lists. */
  function ReasonFor(page: string, page2: seq<Row>, lowCtr: seq<Row>): Reason {
    if page in KeySet(page2, Page) then
      if page in KeySet(lowCtr, Page) then Page2AndLowCtr else Page2
    else LowCtr
  }

  /** Every entry carries the reason its page deserves after low-CTR rows `lowSoFar`. */
  ghost predicate ReasonsMatch(all: seq<Candidate>, page2: seq<Row>, lowSoFar: seq<Row>) {
    forall m :: 0 <= m < |all| ==> all[m].reason == ReasonFor(all[m].row.page, page2, lowSoFar)
  }

  lemma UpgradeMatches(all: seq<Candidate>, page2: seq<Row>, low: seq<Row>, r: Row)
    requires ReasonsMatch(all, page2, low)
    requires r.page in KeySet(page2, Page)
    ensures ReasonsMatch(Upgrade(all, r.page), page2, low + [r])
  {
    KeySetConcat(low, [r], Page);
  }

  lemma AppendMatches(all: seq<Candidate>, page2: seq<Row>, low: seq<Row>, r: Row)
    requires ReasonsMatch(all, page2, low)
    requires r.page !in KeySet(page2, Page)
    requires forall m :: 0 <= m < |all| ==> all[m].row.page != r.page
    ensures ReasonsMatch(all + [Candidate(r, LowCtr)], page2, low + [r])
  {
    KeySetConcat(low, [r], Page);
  }

  /** The first loop of the merge: each page-2 row with an unseen page is appended as "page2". */
  function AddPage2(rows: seq<Row>, seen: set<string>, acc: seq<Candidate>): (seq<Candidate>, set<string>)
    decreases |rows|
  {
    if |rows| == 0 then (acc, seen)
    else if rows[0].page !in seen then AddPage2(rows[1..], seen + {rows[0].page}, acc + [Candidate(rows[0], Page2)])
    else AddPage2(rows[1..], seen, acc)
  }

  /**
   * The second loop of the merge: a low-CTR row with an unseen page is
   * appended as "low_ctr"; otherwise every entry for its page is upgraded.
   */
  function AddLowCtr(rows: seq<Row>, seen: set<string>, acc: seq<Candidate>): seq<Candidate>
    decreases |rows|
  {
    if |rows| == 0 then acc
    else if rows[0].page !in seen then AddLowCtr(rows[1..], seen + {rows[0].page}, acc + [Candidate(rows[0], LowCtr)])
    else AddLowCtr(rows[1..], seen, Upgrade(acc, rows[0].page))
  }

  lemma {:induction false} AddPage2Spec(rows: seq<Row>, seen: set<string>, acc: seq<Candidate>)
    requires forall m :: 0 <= m < |acc| ==> acc[m].reason == Page2
    ensures var (out, seen') := AddPage2(rows, seen, acc);
      && Rows(out) == Rows(acc) + DedupBy(rows, Page, seen)
      && seen' == seen + KeySet(rows, Page)
      && forall m :: 0 <= m < |out| ==> out[m].reason == Page2
    decreases |rows|
  {
    if |rows| > 0 {
      var r := rows[0];
      if r.page !in seen {
        AddPage2Spec(rows[1..], seen + {r.page}, acc + [Candidate(r, Page2)]);
        RowsAppend(acc, Candidate(r, Page2));
      } else {
        AddPage2Spec(rows[1..], seen, acc);
      }
    }
  }

  lemma {:induction false} AddLowCtrRows(rows: seq<Row>, seen: set<string>, acc: seq<Candidate>)
    ensures Rows(AddLowCtr(rows, seen, acc)) == Rows(acc) + DedupBy(rows, Page, seen)
    decreases |rows|
  {
    if |rows| > 0 {
      var r := rows[0];
      if r.page !in seen {
        AddLowCtrRows(rows[1..], seen + {r.page}, acc + [Candidate(r, LowCtr)]);
        RowsAppend(acc, Candidate(r, LowCtr));
      } else {
        AddLowCtrRows(rows[1..], seen, Upgrade(acc, r.page));
        RowsUpgrade(acc, r.page);
      }
    }
  }

  /** With distinct pages, the next row's page has not been met before. */
  lemma NotYetDone(done: seq<Row>, rows: seq<Row>)
    requires |rows| > 0 && DistinctPages(done + rows)
    ensures rows[0].page !in KeySet(done, Page)
  {
    forall m | 0 <= m < |done| ensures done[m].page != rows[0].page {
      assert (done + rows)[m] == done[m];
      assert (done + rows)[|done|] == rows[0];
    }
    KeySetExcludes(done, Page, rows[0].page);
  }

  /**
   * With distinct pages among the low-CTR rows, the second loop leaves
   * every entry with the reason its page deserves.
   */
  lemma {:induction false} AddLowCtrReasons(rows: seq<Row>, page2: seq<Row>, done: seq<Row>, seen: set<string>, acc: seq<Candidate>)
    requires DistinctPages(done + rows)
    requires seen == KeySet(page2, Page) + KeySet(done, Page)
    requires forall m :: 0 <= m < |acc| ==> acc[m].row.page in seen
    requires ReasonsMatch(acc, page2, done)
    ensures ReasonsMatch(AddLowCtr(rows, seen, acc), page2, done + rows)
    decreases |rows|
  {
    if |rows| == 0 {
      assert done + rows == done;
    } else {
      var r := rows[0];
      assert done + [r] + rows[1..] == done + rows;
      KeySetConcat(done, [r], Page);
      NotYetDone(done, rows);
      if r.page !in seen {
        AppendMatches(acc, page2, done, r);
        AddLowCtrReasons(rows[1..], page2, done + [r], seen + {r.page}, acc + [Candidate(r, LowCtr)]);
      } else {
        UpgradeMatches(acc, page2, done, r);
        AddLowCtrReasons(rows[1..], page2, done + [r], seen, Upgrade(acc, r.page));
      }
    }
  }

  lemma MergeRows(page2: seq<Row>, lowCtr: seq<Row>)
    ensures var (tagged, seen) := AddPage2(page2, {}, []);
      var rows := Rows(AddLowCtr(lowCtr, seen, tagged));
      && rows == DedupBy(page2, Page, {}) + DedupBy(lowCtr, Page, KeySet(page2, Page))
      && rows == DedupBy(page2 + lowCtr, Page, {})
  {
    var (tagged, seen) := AddPage2(page2, {}, []);
    AddPage2Spec(page2, {}, []);
    assert Rows(tagged) == DedupBy(page2, Page, {});
    assert seen == KeySet(page2, Page);
    AddLowCtrRows(lowCtr, seen, tagged);
    DedupByConcat(page2, lowCtr, Page, {});
    assert {} + KeySet(page2, Page) == KeySet(page2, Page);
  }

  lemma MergedDistinct(rows: seq<Row>)
    ensures var r := DedupBy(rows, Page, {});
      forall i, j :: 0 <= i < j < |r| ==> r[i].page != r[j].page
  {
    DedupByProperties(rows, Page, {});
  }

  lemma MergeReasons(page2: seq<Row>, lowCtr: seq<Row>)
    ensures var (tagged, seen) := AddPage2(page2, {}, []);
      DistinctPages(lowCtr) ==> ReasonsMatch(AddLowCtr(lowCtr, seen, tagged), page2, lowCtr)
  {
    var (tagged, seen) := AddPage2(page2, {}, []);
    if DistinctPages(lowCtr) {
      AddPage2Spec(page2, {}, []);
      DedupByProperties(page2, Page, {});
      forall m | 0 <= m < |tagged| ensures tagged[m].row.page in seen {
        assert Page(Rows(tagged)[m]) in KeySet(Rows(tagged), Page);
      }
      assert [] + lowCtr == lowCtr;
      assert KeySet(page2, Page) + KeySet([], Page) == seen;
      AddLowCtrReasons(lowCtr, page2, [], seen, tagged);
    }
  }

  /**
   * Merges the two candidate lists (the source's `deduplicate`): page-2
   * rows first, then low-CTR rows whose page is new, each tagged with its
   * reason; at most five entries are kept.
   */
  function Deduplicate(page2: seq<Row>, lowCtr: seq<Row>): (combined: seq<Candidate>)
    ensures |combined| <= MaxPagesToOptimize
    ensures forall i, j :: 0 <= i < j < |combined| ==> combined[i].row.page != combined[j].row.page
    ensures Rows(combined) == Take(DedupBy(page2, Page, {}) + DedupBy(lowCtr, Page, KeySet(page2, Page)), 5)
    ensures DistinctPages(lowCtr) ==> forall i :: 0 <= i < |combined| ==>
      combined[i].reason == ReasonFor(combined[i].row.page, page2, lowCtr)
  {
    var (tagged, seen) := AddPage2(page2, {}, []);
    var all := AddLowCtr(lowCtr, seen, tagged);
    MergeRows(page2, lowCtr);
    MergedDistinct(page2 + lowCtr);
    MergeReasons(page2, lowCtr);
    var combined := Take(all, MaxPagesToOptimize);
    assert Rows(combined) == Take(Rows(all), 5);
    assert forall i :: 0 <= i < |combined| ==> combined[i].row == Rows(all)[i];
    combined
  }

  /** The site path of a page URL: every site prefix removed, then leading slashes. */
  function SitePath(url: string): string {
    LStripChar(ReplaceAll(url, SiteUrl, ""), '/')
  }

  /** A path component `pathlib` keeps: `PurePath` drops empty and "." components. */
  predicate KeptPart(part: string) {
    part != "" && part != "."
  }

  /** The path `pathlib` makes of `p` under the site root: its kept components joined by '/'. */
  function PathOf(p: string): string {
    Join(Filter(KeptPart, SplitOn(p, '/')), "/")
  }

  /**
   * The paths tried, in order, for a non-empty site path: `BASE_DIR /
   * f"{path}.html"`, `BASE_DIR / path / "index.html"` and `BASE_DIR / path`.
   */
  function FileCandidates(path: string): seq<string> {
    [PathOf(path + ".html"), PathOf(path + "/index.html"), PathOf(path)]
  }

  /** A path written as components joined by '/' reads back as its kept components. */
  lemma PathOfJoin(parts: seq<string>)
    requires |parts| > 0 && forall i :: 0 <= i < |parts| ==> '/' !in parts[i]
    ensures PathOf(Join(parts, "/")) == Join(Filter(KeptPart, parts), "/")
  {
    SplitJoin(parts, '/');
  }

  /** Components a clean relative path is made of: non-empty, not ".", without '/'. */
  predicate CleanParts(parts: seq<string>) {
    |parts| > 0 && forall i :: 0 <= i < |parts| ==> KeptPart(parts[i]) && '/' !in parts[i]
  }

  /** A clean path is its own `pathlib` form. */
  lemma PathOfClean(parts: seq<string>)
    requires CleanParts(parts)
    ensures PathOf(Join(parts, "/")) == Join(parts, "/")
  {
    PathOfJoin(parts);
    FilterAll(KeptPart, parts);
  }

  /** A clean path with a last component appended reads back as itself. */
  lemma PathOfAppended(parts: seq<string>, x: string)
    requires CleanParts(parts) && KeptPart(x) && '/' !in x
    ensures PathOf(Join(parts, "/") + "/" + x) == Join(parts, "/") + "/" + x
  {
    JoinSnoc(parts, x, "/");
    PathOfClean(parts + [x]);
  }

  /** The text of a path with an empty component before its last one. */
  lemma JoinWithEmpty(parts: seq<string>, x: string)
    requires |parts| > 0
    ensures Join(parts + ["", x], "/") == Join(parts, "/") + "/" + "/" + x
  {
    var d := Join(parts, "/");
    var withEmpty := parts + [""];
    JoinSnoc(parts, "", "/");
    assert Join(withEmpty, "/") == d + "/" by { assert d + "/" + "" == d + "/"; }
    JoinSnoc(withEmpty, x, "/");
    assert withEmpty + [x] == parts + ["", x];
  }

  /** Dropping the empty component leaves the clean ones. */
  lemma KeptWithEmpty(parts: seq<string>, x: string)
    requires CleanParts(parts) && KeptPart(x)
    ensures Filter(KeptPart, parts + ["", x]) == parts + [x]
  {
    FilterAll(KeptPart, parts);
    FilterConcat(KeptPart, parts, ["", x]);
    FilterCons(KeptPart, "", [x]);
    FilterAll(KeptPart, [x]);
  }

  /** A doubled slash inside a clean path collapses. */
  lemma PathOfDoubleSlash(parts: seq<string>, x: string)
    requires CleanParts(parts) && KeptPart(x) && '/' !in x
    ensures PathOf(Join(parts, "/") + "/" + "/" + x) == Join(parts, "/") + "/" + x
  {
    JoinWithEmpty(parts, x);
    KeptWithEmpty(parts, x);
    PathOfJoin(parts + ["", x]);
    JoinSnoc(parts, x, "/");
  }

  /** A trailing slash after a clean path is dropped. */
  lemma PathOfTrailingSlash(parts: seq<string>)
    requires CleanParts(parts)
    ensures PathOf(Join(parts, "/") + "/") == Join(parts, "/")
  {
    JoinSnoc(parts, "", "/");
    assert Join(parts, "/") + "/" == Join(parts + [""], "/");
    PathOfJoin(parts + [""]);
    FilterAll(KeptPart, parts);
    FilterConcat(KeptPart, parts, [""]);
    assert Filter(KeptPart, [""]) == [];
    assert parts + [] == parts;
  }

  /** The three candidates of a directory path `d + "/"`, each in `pathlib` form. */
  lemma DirectoryCandidateForms(d: string)
    ensures FileCandidates(d + "/") == [PathOf(d + "/" + ".html"), PathOf(d + "/" + "/" + "index.html"), PathOf(d + "/")]
  {
    assert (d + "/") + ".html" == d + "/" + ".html";
    assert (d + "/") + "/index.html" == d + "/" + "/" + "index.html";
  }

  /**
   * A directory URL such as ".../blog/" is looked up as blog/.html, then
   * blog/index.html, then the directory blog itself.
   */
  lemma DirectoryCandidates(parts: seq<string>)
    requires CleanParts(parts)
    ensures var d := Join(parts, "/");
      FileCandidates(d + "/") == [d + "/" + ".html", d + "/" + "index.html", d]
  {
    var d := Join(parts, "/");
    DirectoryCandidateForms(d);
    PathOfAppended(parts, ".html");
    PathOfDoubleSlash(parts, "index.html");
    PathOfTrailingSlash(parts);
  }

  /**
   * Maps a page URL to a local path, with `onDisk` answering whether a path
   * exists. The root maps to index.html; otherwise the first existing
   * candidate is chosen.
   */
  function UrlToFilepath(url: string, onDisk: string -> bool): (r: Option<string>)
    ensures SitePath(url) == "" ==> r == Some("index.html")
    ensures SitePath(url) != "" ==>
      (r.None? <==> forall k :: 0 <= k < 3 ==> !onDisk(FileCandidates(SitePath(url))[k]))
    ensures SitePath(url) != "" && r.Some? ==>
      exists k :: 0 <= k < 3 && r.value == FileCandidates(SitePath(url))[k] && onDisk(r.value)
        && forall j :: 0 <= j < k ==> !onDisk(FileCandidates(SitePath(url))[j])
  {
    var path := SitePath(url);
    if path == "" then Some("index.html")
    else FirstExisting(FileCandidates(path), onDisk)
  }

  /** The first of `candidates` for which `onDisk` holds, if any. */
  function FirstExisting(candidates: seq<string>, onDisk: string -> bool): (r: Option<string>)
    ensures r.None? <==> forall k :: 0 <= k < |candidates| ==> !onDisk(candidates[k])
    ensures r.Some? ==>
      exists k :: 0 <= k < |candidates| && r.value == candidates[k] && onDisk(r.value)
        && forall j :: 0 <= j < k ==> !onDisk(candidates[j])
  {
    if |candidates| == 0 then None
    else if onDisk(candidates[0]) then Some(candidates[0])
    else
      var rest := candidates[1..];
      var r := FirstExisting(rest, onDisk);
      assert forall k :: 1 <= k < |candidates| ==> candidates[k] == rest[k - 1];
      if r.None? then None
      else
        var k :| 0 <= k < |rest| && r.value == rest[k] && onDisk(r.value)
          && forall j :: 0 <= j < k ==> !onDisk(rest[j]);
        assert r.value == candidates[k + 1];
        r
  }

}

=== FILE: json.dfy ===
/**
 * JSON values as Python's `json` module produces and consumes them, with
 * objects kept as ordered field lists (a `dict` keeps insertion order), and
 * the text `json.dumps(value, indent=2, ensure_ascii=False)` writes.
 */
module Json {
  import opened Outcomes
  import opened Strings
  import opened Sequences

  datatype Json =
    | JNull
    | JBool(b: bool)
    | JNum(n: real)
    | JStr(s: string)
    | JArr(items: seq<Json>)
    | JObj(fields: seq<Field>)

  datatype Field = Field(key: string, value: Json)

  /**
   * Python's `d.get(key)`: the value of the first field named `key`. A
   * dictionary built by `json.loads` has distinct keys (a repeated key in
   * the text keeps its last value), so on such objects first and only agree.
   */
  function Get(fields: seq<Field>, key: string): (r: Option<Json>)
    ensures r.Some? <==> key in Keys(fields)
  {
    if |fields| == 0 then None
    else if fields[0].key == key then Some(fields[0].value)
    else Get(fields[1..], key)
  }

  /** The keys of an object, in order. */
  function Keys(fields: seq<Field>): (r: seq<string>)
    ensures |r| == |fields|
    ensures forall i :: 0 <= i < |fields| ==> r[i] == fields[i].key
  {
    Map((f: Field) => f.key, fields)
  }

  lemma KeysCons(f: Field, t: seq<Field>)
    ensures Keys([f] + t) == [f.key] + Keys(t)
  {
    assert ([f] + t)[1..] == t;
  }

  lemma GetCons(f: Field, t: seq<Field>, key: string)
    ensures Get([f] + t, key) == if f.key == key then Some(f.value) else Get(t, key)
  {
    assert ([f] + t)[1..] == t;
  }

  /** Lookup in a three-field object: the first field with the key wins. */
  lemma GetTriple(a: Field, b: Field, c: Field, key: string)
    ensures Get([a, b, c], key)
         == if a.key == key then Some(a.value)
            else if b.key == key then Some(b.value)
            else if c.key == key then Some(c.value)
            else None
  {
    assert [a, b, c] == [a] + ([b] + ([c] + []));
    GetCons(a, [b, c], key);
    GetCons(b, [c], key);
    GetCons(c, [], key);
  }

  /** Python's `d[key] = v`: the field keeps its place if present, else it is appended. */
  function Set(fields: seq<Field>, key: string, v: Json): (r: seq<Field>)
    ensures Get(r, key) == Some(v)
    ensures key in Keys(fields) ==> Keys(r) == Keys(fields)
    ensures key !in Keys(fields) ==> Keys(r) == Keys(fields) + [key]
    decreases |fields|
  {
    if |fields| == 0 then [Field(key, v)]
    else
      var f := fields[0];
      var rest := fields[1..];
      assert fields == [f] + rest;
      if f.key == key then
        SetHit(f, rest, v);
        [Field(key, v)] + rest
      else
        var t := Set(rest, key, v);
        SetMiss(f, rest, t, key, v);
        [f] + t
  }

  /** Replacing the value of the first field keeps the keys and makes the lookup see the new value. */
  lemma SetHit(f: Field, rest: seq<Field>, v: Json)
    ensures Get([Field(f.key, v)] + rest, f.key) == Some(v)
    ensures f.key in Keys([f] + rest)
    ensures Keys([Field(f.key, v)] + rest) == Keys([f] + rest)
  {
    GetCons(Field(f.key, v), rest, f.key);
    KeysCons(Field(f.key, v), rest);
    KeysCons(f, rest);
  }

  /** A first field with another key stays in front of the updated rest. */
  lemma SetMiss(f: Field, rest: seq<Field>, t: seq<Field>, key: string, v: Json)
    requires f.key != key && Get(t, key) == Some(v)
    requires key in Keys(rest) ==> Keys(t) == Keys(rest)
    requires key !in Keys(rest) ==> Keys(t) == Keys(rest) + [key]
    ensures Get([f] + t, key) == Some(v)
    ensures key in Keys([f] + rest) ==> Keys([f] + t) == Keys([f] + rest)
    ensures key !in Keys([f] + rest) ==> Keys([f] + t) == Keys([f] + rest) + [key]
  {
    GetCons(f, t, key);
    KeysCons(f, t);
    KeysCons(f, rest);
    KeyListCons(f.key, Keys(rest), Keys(t), key);
  }

  /** The key-list half of `SetMiss`, over plain lists of keys. */
  lemma KeyListCons(k: string, ks: seq<string>, ts: seq<string>, key: string)
    requires k != key
    requires key in ks ==> ts == ks
    requires key !in ks ==> ts == ks + [key]
    ensures key in [k] + ks ==> [k] + ts == [k] + ks
    ensures key !in [k] + ks ==> [k] + ts == [k] + ks + [key]
  {
    assert key in [k] + ks <==> key in ks;
  }

  /** Setting one key leaves every other key's value as it was. */
  lemma {:induction false} SetOther(fields: seq<Field>, key: string, v: Json, k: string)
    requires k != key
    ensures Get(Set(fields, key, v), k) == Get(fields, k)
    decreases |fields|
  {
    if |fields| > 0 && fields[0].key != key {
      SetOther(fields[1..], key, v, k);
      assert ([fields[0]] + Set(fields[1..], key, v))[1..] == Set(fields[1..], key, v);
    } else if |fields| > 0 {
      assert ([Field(key, v)] + fields[1..])[1..] == fields[1..];
    }
  }

  /** Assigning a key the value it already has changes nothing. */
  lemma {:induction false} SetSame(fields: seq<Field>, key: string, v: Json)
    requires Get(fields, key) == Some(v)
    ensures Set(fields, key, v) == fields
    decreases |fields|
  {
    if fields[0].key != key {
      SetSame(fields[1..], key, v);
      assert fields == [fields[0]] + fields[1..];
    } else {
      assert fields == [Field(key, v)] + fields[1..];
    }
  }

  /** Python's truth value of a JSON value (`bool(x)`). */
  predicate Truthy(j: Json) {
    match j
    case JNull => false
    case JBool(b) => b
    case JNum(n) => n != 0.0
    case JStr(s) => |s| > 0
    case JArr(items) => |items| > 0
    case JObj(fields) => |fields| > 0
  }

  /** `level` steps of the two-space indent. */
  function Indent(level: nat): (r: string)
    ensures |r| == 2 * level
  {
    if level == 0 then "" else "  " + Indent(level - 1)
  }

  function HexDigit(n: nat): char
    requires n < 16
  {
    "0123456789abcdef"[n]
  }

  /** How the encoder writes one character of a string (`ensure_ascii=False`). */
  function EscapeChar(c: char): string {
    if c == '"' then "\\\""
    else if c == '\\' then "\\\\"
    else if c == '\n' then "\\n"
    else if c == '\r' then "\\r"
    else if c == '\t' then "\\t"
    else if c as int == 8 then "\\b"
    else if c as int == 12 then "\\f"
    else if c as int < 32 then "\\u00" + [HexDigit(c as int / 16), HexDigit(c as int % 16)]
    else [c]
  }

  /** A character the encoder writes as itself. */
  predicate IsPlain(c: char) {
    c as int >= 32 && c != '"' && c != '\\'
  }

  function EscapeString(s: string): (r: string)
    ensures (forall i :: 0 <= i < |s| ==> IsPlain(s[i])) ==> r == s
  {
    if |s| == 0 then "" else EscapeChar(s[0]) + EscapeString(s[1..])
  }

  /** A JSON string literal. */
  function Quote(s: string): string {
    "\"" + EscapeString(s) + "\""
  }

  /**
   * `json.dumps(j, indent=2)` for a value nested `level` deep; `number`
   * gives the text of a number (Python's float repr is not modelled).
   */
  function Render(j: Json, level: nat, number: real -> string): string
    decreases j
  {
    match j
    case JNull => "null"
    case JBool(b) => if b then "true" else "false"
    case JNum(n) => number(n)
    case JStr(s) => Quote(s)
    case JArr(items) =>
      if |items| == 0 then "[]"
      else "[\n" + RenderItems(items, level + 1, number) + "\n" + Indent(level) + "]"
    case JObj(fields) =>
      if |fields| == 0 then "{}"
      else "{\n" + RenderFields(fields, level + 1, number) + "\n" + Indent(level) + "}"
  }

  /** The items of a non-empty array, one per line, separated by commas. */
  function RenderItems(items: seq<Json>, level: nat, number: real -> string): string
    decreases items
  {
    if |items| == 0 then ""
    else
      Indent(level) + Render(items[0], level, number)
      + (if |items| == 1 then "" else ",\n" + RenderItems(items[1..], level, number))
  }

  /** One `"key": value` line of an object. */
  function FieldLine(f: Field, level: nat, number: real -> string): string
    decreases f, 0
  {
    Indent(level) + Quote(f.key) + ": " + Render(f.value, level, number)
  }

  function RenderFields(fields: seq<Field>, level: nat, number: real -> string): string
    decreases fields
  {
    if |fields| == 0 then ""
    else
      FieldLine(fields[0], level, number)
      + (if |fields| == 1 then "" else ",\n" + RenderFields(fields[1..], level, number))
  }

  /** Every field of an object is written out in full inside the object's text. */
  lemma {:induction false} RenderFieldsContains(fields: seq<Field>, i: nat, level: nat, number: real -> string)
    requires i < |fields|
    ensures Contains(RenderFields(fields, level, number), FieldLine(fields[i], level, number))
    decreases fields
  {
    var line := FieldLine(fields[0], level, number);
    var rest := if |fields| == 1 then "" else ",\n" + RenderFields(fields[1..], level, number);
    if i == 0 {
      assert RenderFields(fields, level, number)[0..|line|] == line;
      ContainsAt(RenderFields(fields, level, number), line, 0);
    } else {
      RenderFieldsContains(fields[1..], i - 1, level, number);
      ContainsConcat(RenderFields(fields[1..], level, number), ",\n", FieldLine(fields[i], level, number));
      assert rest == ",\n" + RenderFields(fields[1..], level, number);
      ContainsConcat(rest, line, FieldLine(fields[i], level, number));
      assert RenderFields(fields, level, number) == line + rest;
    }
  }

  /** A non-empty object is its field lines between braces. */
  lemma RenderObjectText(fields: seq<Field>, level: nat, number: real -> string)
    requires |fields| > 0
    ensures Render(JObj(fields), level, number)
         == "{\n" + (RenderFields(fields, level + 1, number) + ("\n" + Indent(level) + "}"))
  {
  }

  /** An object's text contains the line of each of its fields. */
  lemma RenderObjectContains(fields: seq<Field>, i: nat, level: nat, number: real -> string)
    requires i < |fields|
    ensures Contains(Render(JObj(fields), level, number), FieldLine(fields[i], level + 1, number))
  {
    var line := FieldLine(fields[i], level + 1, number);
    var body := RenderFields(fields, level + 1, number);
    var close := "\n" + Indent(level) + "}";
    RenderFieldsContains(fields, i, level + 1, number);
    ContainsConcat(body, close, line);
    ContainsConcat(body + close, "{\n", line);
    RenderObjectText(fields, level, number);
  }
}

=== FILE: local_server.dfy ===
/**
 * The invoice-parsing endpoint of the local development server: it checks
 * the prompt, forwards it to the language model, strips code fences from
 * the reply and normalises the parsed invoice so that the page always finds
 * the same shape. The HTTP exchange, the model call, `json.loads` of the
 * reply and Python's `float` are parameters.
 */
module LocalServer {
  import opened Outcomes
  import opened Strings
  import opened Sequences
  import opened Json

  // ---------------------------------------------------------------------
  // Responses
  // ---------------------------------------------------------------------

  /** A JSON response, or an exception the handler does not catch. */
  datatype Response = Respond(status: int, body: Json) | Crash

  function ErrorBody(message: string): Json {
    JObj([Field("error", JStr(message))])
  }

  const InvalidJson := "Invalid JSON"
  const PromptTooShort := "Prompt too short"
  const KeyMissing := "ANTHROPIC_API_KEY not set. Run: export ANTHROPIC_API_KEY=sk-ant-..."
  const ApiFailed := "Failed to process your request. Please try again."
  const ConnectionFailed := "Connection failed. Check your internet and try again."
  const InvalidReply := "Invalid response from AI"
  const NotUnderstood := "I couldn't understand that. Try: 'Invoice [name] for [amount] [service]'"
  const NoItems := "I couldn't identify any items. Try: 'Invoice Bob for $500 web design'"

  // ---------------------------------------------------------------------
  // The prompt
  // ---------------------------------------------------------------------

  const MinPrompt := 5
  const MaxPrompt := 500

  /** `data.get('prompt', '')`; `None` when the request body is not an object. */
  function PromptOf(data: Json): (r: Option<Json>)
    ensures r.Some? <==> data.JObj?
    ensures data.JObj? && "prompt" !in Keys(data.fields) ==> r == Some(JStr(""))
  {
    match data
    case JObj(fields) => Some(Get(fields, "prompt").GetOr(JStr("")))
    case _ => None
  }

  datatype PromptCheck = TooShort | Usable(text: string) | NotText

  /**
   * `if not prompt or len(prompt.strip()) < 5`: a falsy prompt or one with
   * fewer than five characters once stripped is too short; a truthy value
   * that is not a string has no `strip`.
   */
  function CheckPrompt(prompt: Json): (r: PromptCheck)
    ensures r.Usable? <==> prompt.JStr? && |Strip(prompt.s)| >= MinPrompt
    ensures r.Usable? ==> r.text == prompt.s
    ensures r.NotText? <==> Truthy(prompt) && !prompt.JStr?
  {
    if !Truthy(prompt) then
      assert prompt.JStr? ==> prompt.s == "" && Strip(prompt.s) == "";
      TooShort
    else if prompt.JStr? then
      if |Strip(prompt.s)| < MinPrompt then TooShort else Usable(prompt.s)
    else NotText
  }

  /** `prompt.strip()[:500]`. */
  function Sanitise(prompt: string): (r: string)
    ensures |r| <= MaxPrompt && |r| <= |Strip(prompt)| && r == Strip(prompt)[..|r|]
    ensures |Strip(prompt)| <= MaxPrompt ==> r == Strip(prompt)
    ensures |Strip(prompt)| > MaxPrompt ==> |r| == MaxPrompt
    ensures |Strip(prompt)| >= MinPrompt ==> |r| >= MinPrompt
    ensures |r| > 0 ==> !IsSpace(r[0])
  {
    Take(Strip(prompt), MaxPrompt)
  }

  // ---------------------------------------------------------------------
  // The model's reply
  // ---------------------------------------------------------------------

  /** A content block of the reply: its `type` and `text`, where present. */
  datatype Block = Block(kind: Option<string>, text: Option<string>)

  datatype ApiReply = HttpFailure | ConnectionFailure | Reply(blocks: seq<Block>)

  predicate IsTextBlock(b: Block) {
    b.kind == Some("text")
  }

  /** The text of the first text block (empty if it has none), or `None` without one. */
  function FirstText(blocks: seq<Block>): (r: Option<string>)
    ensures r.None? <==> forall i :: 0 <= i < |blocks| ==> !IsTextBlock(blocks[i])
    ensures r.Some? ==>
      exists i :: 0 <= i < |blocks| && IsTextBlock(blocks[i])
        && r.value == blocks[i].text.GetOr("")
        && forall j :: 0 <= j < i ==> !IsTextBlock(blocks[j])
  {
    if |blocks| == 0 then None
    else if IsTextBlock(blocks[0]) then Some(blocks[0].text.GetOr(""))
    else
      var r := FirstText(blocks[1..]);
      assert forall i :: 1 <= i < |blocks| ==> blocks[i] == blocks[1..][i - 1];
      if r.Some? then
        var i :| 0 <= i < |blocks[1..]| && IsTextBlock(blocks[1..][i])
          && r.value == blocks[1..][i].text.GetOr("")
          && forall j :: 0 <= j < i ==> !IsTextBlock(blocks[1..][j]);
        assert IsTextBlock(blocks[i + 1]) && r.value == blocks[i + 1].text.GetOr("");
        r
      else r
  }

  const Fence := "```"
  const JsonFence := "```json"

  /**
   * The code-fence removal before parsing: strip; drop a leading "```json",
   * or else a leading "```"; drop one trailing "```"; strip again.
   */
  function StripFences(text: string): string {
    var t := Strip(text);
    var t1 := if StartsWith(t, JsonFence) then t[|JsonFence|..]
              else if StartsWith(t, Fence) then t[|Fence|..]
              else t;
    var t2 := if EndsWith(t1, Fence) then t1[..|t1| - |Fence|] else t1;
    Strip(t2)
  }

  /** A text with no whitespace at either end and at least one character. */
  predicate Trimmed(x: string) {
    |x| > 0 && !IsSpace(x[0]) && !IsSpace(x[|x| - 1])
  }

  /** The reply as the model usually wraps it: a "```json" line, the text, a closing fence. */
  function Fenced(x: string): string {
    JsonFence + "\n" + x + "\n" + Fence
  }

  /** Fence removal recovers the text the model wrapped. */
  lemma StripFencesFenced(x: string)
    requires Trimmed(x)
    ensures StripFences(Fenced(x)) == x
  {
    var t2 := "\n" + x + "\n";
    var t1 := t2 + Fence;
    var f := JsonFence + t1;
    assert Fenced(x) == f;
    assert f[0] == '`' && f[|f| - 1] == '`';
    StripUnpadded(f);
    DropPrefix(JsonFence, t1);
    DropSuffix(t2, Fence);
    StripPadded("\n", x, "\n");
  }

  /** A reply that is just a JSON object is only stripped. */
  lemma StripFencesUnfenced(x: string)
    requires Trimmed(x) && x[0] == '{' && x[|x| - 1] == '}'
    ensures StripFences(x) == x
  {
    StripPadded("", x, "");
    assert "" + x + "" == x;
    assert !StartsWith(x, Fence) by {
      assert x[0] != Fence[0];
    }
    assert !StartsWith(x, JsonFence) by {
      assert x[0] != JsonFence[0];
    }
    assert !EndsWith(x, Fence) by {
      assert x[|x| - 1] != Fence[|Fence| - 1];
    }
  }

  // ---------------------------------------------------------------------
  // Normalising the invoice
  // ---------------------------------------------------------------------

  /** `not data.get('items') or not isinstance(data['items'], list)`, inverted. */
  function ItemsOf(fields: seq<Field>): (r: Option<seq<Json>>)
    ensures r.Some? <==>
      (Get(fields, "items").Some? && Get(fields, "items").value.JArr?
       && |Get(fields, "items").value.items| > 0)
    ensures r.Some? ==> Get(fields, "items") == Some(JArr(r.value))
  {
    match Get(fields, "items")
    case Some(JArr(items)) => if |items| > 0 then Some(items) else None
    case _ => None
  }

  /**
   * Python's `float(x)`: `None` where it raises. It must read a number as
   * itself and fail on `null`.
   */
  ghost predicate FloatOracle(toFloat: Json -> Option<real>) {
    (forall n :: toFloat(JNum(n)) == Some(n)) && toFloat(JNull) == None
  }

  /** An item as the page expects it. */
  predicate NormalItem(item: Json) {
    && item.JObj?
    && Keys(item.fields) == ["description", "quantity", "price"]
    && item.fields[1].value.JNum? && item.fields[2].value.JNum?
  }

  /** One item of the list comprehension; `None` where `.get` or `float` raises. */
  function NormaliseItem(item: Json, toFloat: Json -> Option<real>): (r: Option<Json>)
    ensures r.Some? ==> NormalItem(r.value)
    ensures r.Some? ==> item.JObj? && r.value.fields[0].value == Get(item.fields, "description").GetOr(JStr("Service"))
    ensures r.Some? ==> Some(r.value.fields[1].value.n) == toFloat(Get(item.fields, "quantity").GetOr(JNum(1.0)))
    ensures r.Some? ==> Some(r.value.fields[2].value.n) == toFloat(Get(item.fields, "price").GetOr(JNum(0.0)))
    ensures r.None? <==>
      (!item.JObj?
       || toFloat(Get(item.fields, "quantity").GetOr(JNum(1.0))).None?
       || toFloat(Get(item.fields, "price").GetOr(JNum(0.0))).None?)
  {
    match item
    case JObj(f) =>
      var quantity := toFloat(Get(f, "quantity").GetOr(JNum(1.0)));
      var price := toFloat(Get(f, "price").GetOr(JNum(0.0)));
      if quantity.None? || price.None? then None
      else
        var fields := [Field("description", Get(f, "description").GetOr(JStr("Service"))),
                       Field("quantity", JNum(quantity.value)),
                       Field("price", JNum(price.value))];
        assert Keys(fields) == ["description", "quantity", "price"];
        Some(JObj(fields))
    case _ => None
  }

  /** Normalising a normalised item leaves it as it is. */
  lemma NormaliseItemFixed(item: Json, toFloat: Json -> Option<real>)
    requires FloatOracle(toFloat) && NormalItem(item)
    ensures NormaliseItem(item, toFloat) == Some(item)
  {
    var f := item.fields;
    assert f == [f[0], f[1], f[2]];
    assert f[0].key == "description" && f[1].key == "quantity" && f[2].key == "price";
    GetTriple(f[0], f[1], f[2], "description");
    GetTriple(f[0], f[1], f[2], "quantity");
    GetTriple(f[0], f[1], f[2], "price");
  }

  /** A missing or null quantity is not the same: a missing one becomes 1, a null one raises. */
  lemma MissingFieldsDefault(toFloat: Json -> Option<real>)
    requires FloatOracle(toFloat)
    ensures NormaliseItem(JObj([]), toFloat)
         == Some(JObj([Field("description", JStr("Service")), Field("quantity", JNum(1.0)), Field("price", JNum(0.0))]))
    ensures NormaliseItem(JObj([Field("quantity", JNull)]), toFloat).None?
  {
    assert Get([Field("quantity", JNull)], "quantity") == Some(JNull);
  }

  /** The list comprehension over the items: every item normalised, or an exception. */
  function NormaliseItems(items: seq<Json>, toFloat: Json -> Option<real>): (r: Option<seq<Json>>)
    ensures r.Some? <==> forall i :: 0 <= i < |items| ==> NormaliseItem(items[i], toFloat).Some?
    ensures r.Some? ==> |r.value| == |items|
    ensures r.Some? ==> forall i :: 0 <= i < |items| ==> NormaliseItem(items[i], toFloat) == Some(r.value[i])
  {
    MapAll((item: Json) => NormaliseItem(item, toFloat), items)
  }

  /** The client object: exactly name, email and address, missing ones null. */
  function NormalClient(f: seq<Field>): (c: Json)
    ensures c.JObj? && Keys(c.fields) == ["name", "email", "address"]
    ensures forall i :: 0 <= i < 3 ==> c.fields[i].value == Get(f, c.fields[i].key).GetOr(JNull)
  {
    var fields := [Field("name", Get(f, "name").GetOr(JNull)),
                   Field("email", Get(f, "email").GetOr(JNull)),
                   Field("address", Get(f, "address").GetOr(JNull))];
    assert Keys(fields) == ["name", "email", "address"];
    JObj(fields)
  }

  /** The invoice object: exactly notes, null if missing. */
  function NormalInvoice(f: seq<Field>): (v: Json)
    ensures v.JObj? && Keys(v.fields) == ["notes"]
    ensures v.fields[0].value == Get(f, "notes").GetOr(JNull)
  {
    var fields := [Field("notes", Get(f, "notes").GetOr(JNull))];
    assert Keys(fields) == ["notes"];
    JObj(fields)
  }

  /** `data.get(key, {})` followed by `.get` calls: `None` when the value is not an object. */
  function ObjectFields(fields: seq<Field>, key: string): (r: Option<seq<Field>>)
    ensures r.Some? <==> Get(fields, key).None? || Get(fields, key).value.JObj?
    ensures key !in Keys(fields) ==> r == Some([])
  {
    match Get(fields, key).GetOr(JObj([]))
    case JObj(f) => Some(f)
    case _ => None
  }

  /** The shape the page relies on. */
  predicate NormalInvoiceData(out: Json) {
    && out.JObj?
    && Get(out.fields, "items").Some? && Get(out.fields, "items").value.JArr?
    && |Get(out.fields, "items").value.items| > 0
    && (forall i :: 0 <= i < |Get(out.fields, "items").value.items| ==>
          NormalItem(Get(out.fields, "items").value.items[i]))
    && Get(out.fields, "client").Some? && Get(out.fields, "client").value.JObj?
    && Keys(Get(out.fields, "client").value.fields) == ["name", "email", "address"]
    && Get(out.fields, "invoice").Some? && Get(out.fields, "invoice").value.JObj?
    && Keys(Get(out.fields, "invoice").value.fields) == ["notes"]
  }

  /** The three assignments into the parsed object, every other key kept. */
  function Assemble(fields: seq<Field>, items: seq<Json>, client: Json, invoice: Json): (out: seq<Field>)
    ensures Get(out, "items") == Some(JArr(items))
    ensures Get(out, "client") == Some(client)
    ensures Get(out, "invoice") == Some(invoice)
    ensures forall k :: k != "items" && k != "client" && k != "invoice" ==> Get(out, k) == Get(fields, k)
  {
    var a := Set(fields, "items", JArr(items));
    var b := Set(a, "client", client);
    var c := Set(b, "invoice", invoice);
    SetOther(a, "client", client, "items");
    SetOther(b, "invoice", invoice, "items");
    SetOther(b, "invoice", invoice, "client");
    forall k | k != "items" && k != "client" && k != "invoice" ensures Get(c, k) == Get(fields, k) {
      SetOther(fields, "items", JArr(items), k);
      SetOther(a, "client", client, k);
      SetOther(b, "invoice", invoice, k);
    }
    c
  }

  /** The response body: the parsed object with its items, client and invoice replaced. */
  function Output(f: seq<Field>, normal: seq<Json>, client: seq<Field>, invoice: seq<Field>): (out: Json)
    requires |normal| > 0 && forall i :: 0 <= i < |normal| ==> NormalItem(normal[i])
    ensures NormalInvoiceData(out)
    ensures Get(out.fields, "items") == Some(JArr(normal))
    ensures Get(out.fields, "client") == Some(NormalClient(client))
    ensures Get(out.fields, "invoice") == Some(NormalInvoice(invoice))
    ensures forall k :: k != "items" && k != "client" && k != "invoice" ==> Get(out.fields, k) == Get(f, k)
  {
    JObj(Assemble(f, normal, NormalClient(client), NormalInvoice(invoice)))
  }

  /**
   * A body carries the normalised parts of the parsed object `f`: its items
   * each normalised, and its client and invoice reduced to their fields.
   */
  predicate NormalisedFrom(body: Json, f: seq<Field>, toFloat: Json -> Option<real>) {
    && body.JObj?
    && ItemsOf(f).Some? && NormaliseItems(ItemsOf(f).value, toFloat).Some?
    && ObjectFields(f, "client").Some? && ObjectFields(f, "invoice").Some?
    && Get(body.fields, "items") == Some(JArr(NormaliseItems(ItemsOf(f).value, toFloat).value))
    && Get(body.fields, "client") == Some(NormalClient(ObjectFields(f, "client").value))
    && Get(body.fields, "invoice") == Some(NormalInvoice(ObjectFields(f, "invoice").value))
  }

  /** Everything after `json.loads` of the reply succeeded. */
  function NormaliseParsed(parsed: Json, toFloat: Json -> Option<real>): (r: Response)
    ensures r.Respond? ==> r.status == 200 || r.status == 400
    ensures (r.Respond? && r.status == 400) <==> parsed.JObj? && ItemsOf(parsed.fields).None?
    ensures r.Respond? && r.status == 400 ==> r.body == ErrorBody(NoItems)
    ensures r.Respond? && r.status == 200 ==>
      NormalInvoiceData(r.body) && parsed.JObj? && NormalisedFrom(r.body, parsed.fields, toFloat)
    ensures r.Crash? <==>
      || !parsed.JObj?
      || (&& ItemsOf(parsed.fields).Some?
          && (|| NormaliseItems(ItemsOf(parsed.fields).value, toFloat).None?
              || ObjectFields(parsed.fields, "client").None?
              || ObjectFields(parsed.fields, "invoice").None?))
  {
    if !parsed.JObj? then Crash
    else
      var f := parsed.fields;
      match ItemsOf(f)
      case None => Respond(400, ErrorBody(NoItems))
      case Some(items) =>
        match NormaliseItems(items, toFloat)
        case None => Crash
        case Some(normal) =>
          match ObjectFields(f, "client")
          case None => Crash
          case Some(client) =>
            match ObjectFields(f, "invoice")
            case None => Crash
            case Some(invoice) =>
              Respond(200, Output(f, normal, client, invoice))
  }

  /** Keys other than items, client and invoice pass through unchanged. */
  lemma NormaliseParsedKeepsOtherKeys(parsed: Json, toFloat: Json -> Option<real>, k: string)
    requires NormaliseParsed(parsed, toFloat).Respond? && NormaliseParsed(parsed, toFloat).status == 200
    requires k != "items" && k != "client" && k != "invoice"
    ensures Get(NormaliseParsed(parsed, toFloat).body.fields, k) == Get(parsed.fields, k)
  {
    var f := parsed.fields;
    var normal := NormaliseItems(ItemsOf(f).value, toFloat).value;
    assert NormaliseParsed(parsed, toFloat).body
        == Output(f, normal, ObjectFields(f, "client").value, ObjectFields(f, "invoice").value);
  }

  /** A `null` client in the model's reply raises instead of producing an empty client. */
  lemma NullClientCrashes(item: Json, toFloat: Json -> Option<real>)
    requires NormaliseItem(item, toFloat).Some?
    ensures NormaliseParsed(JObj([Field("items", JArr([item])), Field("client", JNull)]), toFloat) == Crash
  {
    var f := [Field("items", JArr([item])), Field("client", JNull)];
    assert Get(f, "items") == Some(JArr([item]));
    assert ItemsOf(f) == Some([item]);
    assert NormaliseItems([item], toFloat).Some?;
    assert f[1..] == [Field("client", JNull)];
    assert Get(f, "client") == Some(JNull);
    assert ObjectFields(f, "client").None?;
  }

  /** `data.get(key) or {}`: a client or invoice that is missing, null or not an object counts as empty. */
  function ObjectFieldsOrEmpty(fields: seq<Field>, key: string): (r: seq<Field>)
    ensures Get(fields, key).Some? && Get(fields, key).value.JObj? ==> r == Get(fields, key).value.fields
    ensures !(Get(fields, key).Some? && Get(fields, key).value.JObj?) ==> r == []
  {
    match Get(fields, key)
    case Some(JObj(f)) => f
    case _ => []
  }

  /** The normalisation with client and invoice defaulted whenever they are not objects. */
  function NormaliseParsedChecked(parsed: Json, toFloat: Json -> Option<real>): (r: Response)
    ensures r.Respond? ==> r.status == 200 || r.status == 400
    ensures (r.Respond? && r.status == 400) <==> parsed.JObj? && ItemsOf(parsed.fields).None?
    ensures r.Respond? && r.status == 200 ==> NormalInvoiceData(r.body)
    ensures (parsed.JObj? && ItemsOf(parsed.fields).Some?
             && NormaliseItems(ItemsOf(parsed.fields).value, toFloat).Some?) ==> r.Respond? && r.status == 200
  {
    if !parsed.JObj? then Crash
    else
      var f := parsed.fields;
      match ItemsOf(f)
      case None => Respond(400, ErrorBody(NoItems))
      case Some(items) =>
        match NormaliseItems(items, toFloat)
        case None => Crash
        case Some(normal) =>
          Respond(200, Output(f, normal, ObjectFieldsOrEmpty(f, "client"), ObjectFieldsOrEmpty(f, "invoice")))
  }

  /** Where the original responds, the checked version responds the same. */
  lemma CheckedAgrees(parsed: Json, toFloat: Json -> Option<real>)
    requires NormaliseParsed(parsed, toFloat).Respond?
    ensures NormaliseParsedChecked(parsed, toFloat) == NormaliseParsed(parsed, toFloat)
  {
    var f := parsed.fields;
    var items := ItemsOf(f);
    if items.Some? {
      var normal := NormaliseItems(items.value, toFloat);
      assert normal.Some?;
      var client := ObjectFields(f, "client");
      var invoice := ObjectFields(f, "invoice");
      assert client.Some? && invoice.Some?;
      ObjectFieldsAgree(f, "client");
      ObjectFieldsAgree(f, "invoice");
      assert NormaliseParsed(parsed, toFloat) == Respond(200, Output(f, normal.value, client.value, invoice.value));
    }
  }

  /** Where the original finds an object, the corrected lookup finds the same fields. */
  lemma ObjectFieldsAgree(fields: seq<Field>, key: string)
    requires ObjectFields(fields, key).Some?
    ensures ObjectFieldsOrEmpty(fields, key) == ObjectFields(fields, key).value
  {
  }

  // ---------------------------------------------------------------------
  // The handler
  // ---------------------------------------------------------------------

  /** The prompt sent to the model, if any, and the response. */
  datatype Handled = Handled(forwarded: Option<string>, response: Response)

  /**
   * `handle_parse_invoice`. `body` is the decoded request (`None` when it
   * is not JSON), `api` the model call, `parse` the `json.loads` of the
   * reply text (`None` when it is not JSON).
   */
  function HandleParseInvoice(
    body: Option<Json>, apiKeySet: bool, api: string -> ApiReply,
    parse: string -> Option<Json>, toFloat: Json -> Option<real>)
    : (r: Handled)
    ensures body.None? ==> r == Handled(None, Respond(400, ErrorBody(InvalidJson)))
    ensures r.forwarded.Some? <==>
      && apiKeySet && body.Some? && PromptOf(body.value).Some?
      && CheckPrompt(PromptOf(body.value).value).Usable?
    ensures r.forwarded.Some? ==>
      && r.forwarded.value == Sanitise(CheckPrompt(PromptOf(body.value).value).text)
      && MinPrompt <= |r.forwarded.value| <= MaxPrompt
      && r.response == Answer(api(r.forwarded.value), parse, toFloat)
    ensures (&& !apiKeySet && body.Some? && PromptOf(body.value).Some?
             && CheckPrompt(PromptOf(body.value).value).Usable?)
            ==> r == Handled(None, Respond(500, ErrorBody(KeyMissing)))
    ensures body.Some? && (PromptOf(body.value).None? || CheckPrompt(PromptOf(body.value).value).NotText?)
            ==> r == Handled(None, Crash)
    ensures r.response == Respond(400, ErrorBody(PromptTooShort)) <==>
      body.Some? && PromptOf(body.value).Some? && CheckPrompt(PromptOf(body.value).value).TooShort?
    ensures r.forwarded.None? ==> r.response.Crash? || r.response.status == 400 || r.response.status == 500
    ensures r.response.Respond? && r.response.status == 200 ==> r.forwarded.Some? && NormalInvoiceData(r.response.body)
  {
    match body
    case None => Handled(None, Respond(400, ErrorBody(InvalidJson)))
    case Some(data) =>
      match PromptOf(data)
      case None => Handled(None, Crash)
      case Some(prompt) =>
        match CheckPrompt(prompt)
        case TooShort => Handled(None, Respond(400, ErrorBody(PromptTooShort)))
        case NotText => Handled(None, Crash)
        case Usable(text) =>
          if !apiKeySet then Handled(None, Respond(500, ErrorBody(KeyMissing)))
          else
            var sent := Sanitise(text);
            Handled(Some(sent), Answer(api(sent), parse, toFloat))
  }

  /** What the handler answers once the model has been called. */
  function Answer(reply: ApiReply, parse: string -> Option<Json>, toFloat: Json -> Option<real>): (r: Response)
    ensures r != Respond(400, ErrorBody(PromptTooShort))
    ensures r.Respond? && r.status == 200 ==> NormalInvoiceData(r.body)
    ensures r.Respond? ==> r.status == 200 || r.status == 400 || r.status == 500
    ensures reply.HttpFailure? ==> r == Respond(500, ErrorBody(ApiFailed))
    ensures reply.ConnectionFailure? ==> r == Respond(500, ErrorBody(ConnectionFailed))
    ensures reply.Reply? && FirstText(reply.blocks).GetOr("") == "" ==> r == Respond(500, ErrorBody(InvalidReply))
    ensures reply.Reply? && FirstText(reply.blocks).GetOr("") != "" ==>
      var parsed := parse(StripFences(FirstText(reply.blocks).value));
      && (parsed.None? ==> r == Respond(500, ErrorBody(NotUnderstood)))
      && (parsed.Some? ==> r == NormaliseParsed(parsed.value, toFloat))
  {
    match reply
    case HttpFailure => Respond(500, ErrorBody(ApiFailed))
    case ConnectionFailure => Respond(500, ErrorBody(ConnectionFailed))
    case Reply(blocks) =>
      match FirstText(blocks)
      case None => Respond(500, ErrorBody(InvalidReply))
      case Some(text) =>
        if text == "" then Respond(500, ErrorBody(InvalidReply))
        else
          match parse(StripFences(text))
          case None => Respond(500, ErrorBody(NotUnderstood))
          case Some(parsed) =>
            var r := NormaliseParsed(parsed, toFloat);
            assert r.Respond? ==> r.body.JObj? && r.body.fields != [Field("error", JStr(PromptTooShort))] by {
              if r.Respond? && r.status == 400 {
                assert r.body == ErrorBody(NoItems);
                assert r.body.fields[0].value != JStr(PromptTooShort);
              }
            }
            r
  }

  /** A reply whose one text block is fenced JSON is answered with the normalisation of that JSON. */
  lemma FencedReplyAnswered(x: string, invoice: Json, parse: string -> Option<Json>, toFloat: Json -> Option<real>)
    requires Trimmed(x) && parse(x) == Some(invoice)
    ensures Answer(Reply([Block(Some("text"), Some(Fenced(x)))]), parse, toFloat) == NormaliseParsed(invoice, toFloat)
  {
    var blocks := [Block(Some("text"), Some(Fenced(x)))];
    assert FirstText(blocks) == Some(Fenced(x));
    assert Fenced(x) != "" by {
      assert |Fenced(x)| > 0;
    }
    StripFencesFenced(x);
  }

  /**
   * A request whose prompt is long enough, answered with the invoice JSON
   * wrapped in a code fence, gets the normalisation of exactly that JSON.
   */
  lemma FencedReplyHandled(
    prompt: string, x: string, invoice: Json, api: string -> ApiReply,
    parse: string -> Option<Json>, toFloat: Json -> Option<real>)
    requires |Strip(prompt)| >= MinPrompt && Trimmed(x)
    requires api(Sanitise(prompt)) == Reply([Block(Some("text"), Some(Fenced(x)))])
    requires parse(x) == Some(invoice)
    ensures HandleParseInvoice(Some(JObj([Field("prompt", JStr(prompt))])), true, api, parse, toFloat)
         == Handled(Some(Sanitise(prompt)), NormaliseParsed(invoice, toFloat))
  {
    var request := [Field("prompt", JStr(prompt))];
    assert Get(request, "prompt") == Some(JStr(prompt));
    assert PromptOf(JObj(request)) == Some(JStr(prompt));
    assert CheckPrompt(JStr(prompt)) == Usable(prompt);
    var h := HandleParseInvoice(Some(JObj(request)), true, api, parse, toFloat);
    assert h.forwarded == Some(Sanitise(prompt));
    assert h.response == Answer(api(Sanitise(prompt)), parse, toFloat);
    FencedReplyAnswered(x, invoice, parse, toFloat);
  }
}

=== FILE: outcomes.dfy ===
/** Optional values and error results shared by every agent model. */
module Outcomes {

  /** A value that may be absent (Python's None). */
  datatype Option<T> = None | Some(value: T) {

    /** The wrapped value, or `default` when absent. */
    function GetOr(default: T): T {
      match this
      case Some(v) => v
      case None => default
    }
  }

  /** The outcome of an operation that can fail with an error of type E. */
  datatype Result<T, E> = Ok(value: T) | Err(error: E)
}

=== FILE: question_discovery.dfy ===
/**
 * The question discovery agent: which forum posts count as questions, how
 * they are ranked and deduplicated, how answered questions are remembered,
 * the article file name, and the weekly loop over the top new questions.
 * The forum search, the language-model calls and the clock are parameters.
 */
module QuestionDiscovery {
  import opened Outcomes
  import opened Strings
  import opened Sequences
  import opened Slugs

  // ---------------------------------------------------------------------
  // Collecting questions
  // ---------------------------------------------------------------------

  /** The fields of a search result the agent reads (missing ones as their defaults). */
  datatype Post = Post(title: string, selftext: string, score: int, comments: int, permalink: string)

  datatype Question = Question(
    source: string,
    title: string,
    body: string,
    score: int,
    comments: int,
    url: string,
    engagement: int)

  const QuestionWords: seq<string> := ["how", "what", "why", "when", "should", "can", "do", "is"]

  const BodyLimit := 500
  const TopCount := 20

  /** Whether `s` starts with any of `words`. */
  function StartsWithAny(s: string, words: seq<string>): (r: bool)
    ensures r <==> exists i :: 0 <= i < |words| && StartsWith(s, words[i])
  {
    if |words| == 0 then false
    else if StartsWith(s, words[0]) then true
    else
      var r := StartsWithAny(s, words[1..]);
      assert forall i :: 1 <= i < |words| ==> words[i] == words[1..][i - 1];
      r
  }

  /** A title qualifies when it has a question mark or opens with a question word. */
  predicate IsQuestionTitle(title: string) {
    '?' in title || StartsWithAny(Lower(title), QuestionWords)
  }

  /** The question a qualifying post becomes. */
  function ToQuestion(subreddit: string, p: Post): (q: Question)
    ensures q.title == p.title && q.score == p.score && q.comments == p.comments
    ensures q.engagement == q.score + 2 * q.comments
    ensures |q.body| <= BodyLimit && StartsWith(p.selftext, q.body)
    ensures |p.selftext| <= BodyLimit ==> q.body == p.selftext
  {
    var body := Take(p.selftext, BodyLimit);
    Question("r/" + subreddit, p.title, body, p.score, p.comments,
             "https://reddit.com" + p.permalink, p.score + p.comments * 2)
  }

  /** The posts whose titles qualify, in result order. */
  function QuestionPosts(posts: seq<Post>): seq<Post> {
    Filter((p: Post) => IsQuestionTitle(p.title), posts)
  }

  /** The questions among one search's posts, in result order. */
  function Collect(subreddit: string, posts: seq<Post>): (r: seq<Question>)
    ensures |r| == |QuestionPosts(posts)| <= |posts|
    ensures forall i :: 0 <= i < |r| ==> r[i] == ToQuestion(subreddit, QuestionPosts(posts)[i])
    ensures forall i :: 0 <= i < |r| ==> IsQuestionTitle(r[i].title)
    ensures forall i :: 0 <= i < |r| ==> r[i].engagement == r[i].score + 2 * r[i].comments
    ensures forall p :: p in posts ==> (ToQuestion(subreddit, p) in r <==> IsQuestionTitle(p.title))
  {
    var chosen := QuestionPosts(posts);
    var r := Map((p: Post) => ToQuestion(subreddit, p), chosen);
    forall p | p in posts && ToQuestion(subreddit, p) in r ensures IsQuestionTitle(p.title) {
      var i :| 0 <= i < |r| && r[i] == ToQuestion(subreddit, p);
      assert chosen[i] in chosen;
    }
    forall p | p in chosen ensures ToQuestion(subreddit, p) in r {
      var i :| 0 <= i < |chosen| && chosen[i] == p;
      assert r[i] == ToQuestion(subreddit, p);
    }
    r
  }

  // ---------------------------------------------------------------------
  // Ranking and deduplication
  // ---------------------------------------------------------------------

  function Engagement(q: Question): int {
    q.engagement
  }

  function LowerTitle(q: Question): string {
    Lower(q.title)
  }

  /**
   * The end of `get_reddit_questions`: a stable sort by engagement, highest
   * first, one question per lower-cased title, the first 20.
   */
  function TopQuestions(qs: seq<Question>): (r: seq<Question>)
    ensures |r| <= TopCount
    ensures forall i, j :: 0 <= i < j < |r| ==> LowerTitle(r[i]) != LowerTitle(r[j])
    ensures SortedDesc(r, Engagement)
    ensures forall x :: x in r ==> x in qs
  {
    var sorted := SortDesc(qs, Engagement);
    var unique := DedupBy(sorted, LowerTitle, {});
    DedupByProperties(sorted, LowerTitle, {});
    TakeSubseq(unique, TopCount);
    SubseqTrans(Take(unique, TopCount), unique, sorted);
    SubseqKeepsSorted(Take(unique, TopCount), sorted, Engagement);
    SubseqMembers(Take(unique, TopCount), sorted);
    assert forall x :: x in sorted ==> x in qs by {
      assert forall x :: x in sorted ==> x in multiset(qs);
    }
    Take(unique, TopCount)
  }

  /** The sorted list `TopQuestions` deduplicates holds exactly the collected questions. */
  lemma SortedMembers(qs: seq<Question>)
    ensures forall x :: x in SortDesc(qs, Engagement) <==> x in qs
  {
    var sorted := SortDesc(qs, Engagement);
    assert forall x :: x in sorted <==> x in multiset(qs);
  }

  /** A kept question has the highest engagement of all questions with its title. */
  lemma TopQuestionsMaxEngagement(qs: seq<Question>, i: nat, y: Question)
    requires i < |TopQuestions(qs)| && y in qs
    requires LowerTitle(y) == LowerTitle(TopQuestions(qs)[i])
    ensures y.engagement <= TopQuestions(qs)[i].engagement
  {
    var sorted := SortDesc(qs, Engagement);
    var unique := DedupBy(sorted, LowerTitle, {});
    var x := TopQuestions(qs)[i];
    DedupByProperties(sorted, LowerTitle, {});
    SortedMembers(qs);
    assert x == unique[i];
    FirstWithKeyIsMax(sorted, LowerTitle, Engagement, LowerTitle(x), x, y);
  }

  /** Among the questions of its title with the same engagement, the kept one comes first in the input. */
  lemma TopQuestionsFirstAmongTies(qs: seq<Question>, i: nat)
    requires i < |TopQuestions(qs)|
    ensures var x := TopQuestions(qs)[i];
      FirstWithKey(WithKey(qs, Engagement, x.engagement), LowerTitle, LowerTitle(x)) == Some(x)
  {
    var sorted := SortDesc(qs, Engagement);
    var unique := DedupBy(sorted, LowerTitle, {});
    var x := TopQuestions(qs)[i];
    DedupByProperties(sorted, LowerTitle, {});
    SortDescStable(qs, Engagement);
    assert x == unique[i];
    FirstWithKeyAmongTies(sorted, LowerTitle, Engagement, LowerTitle(x), x);
    assert WithKey(sorted, Engagement, Engagement(x)) == WithKey(qs, Engagement, Engagement(x));
  }

  /**
   * A title left out means 20 questions were kept, and none of the left-out
   * title's questions has more engagement than the last one kept.
   */
  lemma TopQuestionsAreTop(qs: seq<Question>, y: Question)
    requires y in qs && LowerTitle(y) !in KeySet(TopQuestions(qs), LowerTitle)
    ensures |TopQuestions(qs)| == TopCount
    ensures y.engagement <= TopQuestions(qs)[TopCount - 1].engagement
  {
    assert LowerTitle(y) in KeySet(qs, LowerTitle) by {
      var i :| 0 <= i < |qs| && qs[i] == y;
    }
    if |TopQuestions(qs)| < TopCount {
      TopQuestionsAllTitles(qs);
      assert false;
    }
    LeftOutBelowLast(qs, y);
  }

  /** With 20 kept, a left-out title's questions rank no higher than the last one kept. */
  lemma LeftOutBelowLast(qs: seq<Question>, y: Question)
    requires y in qs && LowerTitle(y) !in KeySet(TopQuestions(qs), LowerTitle)
    requires |TopQuestions(qs)| == TopCount
    ensures y.engagement <= TopQuestions(qs)[TopCount - 1].engagement
  {
    var sorted := SortDesc(qs, Engagement);
    var unique := DedupBy(sorted, LowerTitle, {});
    var top := TopQuestions(qs);
    DedupByProperties(sorted, LowerTitle, {});
    SortedMembers(qs);
    KeySetSameMembers(sorted, qs, LowerTitle);
    var k := KeySetWitness(unique, LowerTitle, LowerTitle(y));
    var z := unique[k];
    PastKept(unique, top, k);
    FirstWithKeyIsMax(sorted, LowerTitle, Engagement, LowerTitle(y), z, y);
    SubseqKeepsSorted(unique, sorted, Engagement);
    assert unique[TopCount - 1] == top[TopCount - 1];
  }

  /** A title missing from the first 20 of a list sits at position 20 or later. */
  lemma PastKept(unique: seq<Question>, top: seq<Question>, k: nat)
    requires TopCount <= |unique| && top == unique[..TopCount] && k < |unique|
    requires LowerTitle(unique[k]) !in KeySet(top, LowerTitle)
    ensures k >= TopCount
  {
    if k < TopCount {
      assert false;
    }
  }

  /** Fewer than 20 results means every title of the input is represented. */
  lemma TopQuestionsAllTitles(qs: seq<Question>)
    requires |TopQuestions(qs)| < TopCount
    ensures KeySet(TopQuestions(qs), LowerTitle) == KeySet(qs, LowerTitle)
  {
    var sorted := SortDesc(qs, Engagement);
    var unique := DedupBy(sorted, LowerTitle, {});
    DedupByProperties(sorted, LowerTitle, {});
    SortedMembers(qs);
    assert TopQuestions(qs) == unique;
    KeySetSameMembers(sorted, qs, LowerTitle);
  }

  // ---------------------------------------------------------------------
  // Answered questions
  // ---------------------------------------------------------------------

  /** `load_answered_questions`: the stored hashes, or none when there is no file. */
  function LoadAnswered(file: Option<seq<int>>): (r: set<int>)
    ensures forall h :: h in r <==> file.Some? && h in file.value
  {
    match file
    case None => {}
    case Some(hashes) => set h | h in hashes
  }

  /** `save_answered_question`: the stored set gains `h`. */
  function AddAnswered(answered: set<int>, h: int): (r: set<int>)
    ensures h in r && answered <= r
    ensures forall x :: x in r && x != h ==> x in answered
  {
    answered + {h}
  }

  /** Recording a hash twice is the same as recording it once. */
  lemma AddAnsweredIdempotent(answered: set<int>, h: int)
    ensures AddAnswered(AddAnswered(answered, h), h) == AddAnswered(answered, h)
  {
  }

  /** Recording a hash already present changes nothing. */
  lemma AddAnsweredPresent(answered: set<int>, h: int)
    requires h in answered
    ensures AddAnswered(answered, h) == answered
  {
  }

  // ---------------------------------------------------------------------
  // The article file
  // ---------------------------------------------------------------------

  const FileSlugLimit := 50

  /** `save_article`'s file name: the date, a dash, the title's slug (at most 50 characters), ".md". */
  function ArticleFilename(date: string, title: string): (r: string)
    ensures StartsWith(r, date + "-") && EndsWith(r, ".md")
    ensures |date| + 4 <= |r| <= |date| + 4 + FileSlugLimit
    ensures FilenameSlug(date, r) == Slug(title, FileSlugLimit)
    ensures '/' !in date ==> '/' !in r
  {
    var slug := Slug(title, FileSlugLimit);
    assert '/' !in slug by {
      assert forall i :: 0 <= i < |slug| ==> slug[i] != '/';
    }
    DatedName(date, slug);
    date + "-" + slug + ".md"
  }

  /** The shape of `date + "-" + slug + ".md"`, for any two texts. */
  lemma DatedName(date: string, slug: string)
    ensures var r := date + "-" + slug + ".md";
      && |r| == |date| + |slug| + 4
      && StartsWith(r, date + "-") && EndsWith(r, ".md")
      && r[|date| + 1..|r| - 3] == slug
      && ('/' !in date && '/' !in slug ==> '/' !in r)
  {
    var r := date + "-" + slug + ".md";
    assert r == (date + "-") + slug + ".md";
    assert r[..|date| + 1] == date + "-";
    assert r[|r| - 3..] == ".md";
    assert r[|date| + 1..|r| - 3] == slug;
  }

  /** The slug part of a file name written for `date`. */
  function FilenameSlug(date: string, name: string): string
    requires |date| + 4 <= |name|
  {
    name[|date| + 1..|name| - 3]
  }

  // ---------------------------------------------------------------------
  // The weekly run
  // ---------------------------------------------------------------------

  /**
   * The `suggested_title` field of an evaluation: absent, text, or a value
   * without `.lower()` (`null`, a number, a list).
   */
  datatype SuggestedTitle = NoTitle | TitleText(text: string) | NotText

  /** What `evaluate_question` returned, as far as the loop reads it. */
  datatype Evaluation = Evaluation(worthWriting: bool, suggestedTitle: SuggestedTitle)

  /**
   * The `quality_score` field of a review: absent, a number (JSON booleans
   * compare as 0 and 1 and count as numbers), or a value such as `null` or
   * text that Python cannot compare with 7.
   */
  datatype Score = NoScore | Number(value: real) | NotNumber

  /**
   * What `review_article` returned. It is the model's JSON as parsed, so
   * either field can be missing or of any type; a failed review has score 0
   * and no revision.
   */
  datatype Review = Review(qualityScore: Score, revisedArticle: Option<string>)

  /**
   * The external services: Python's `hash`, and the three language-model
   * calls. `generate` is `None` where `generate_article` raises: in
   * `call_claude` (a status other than 200 or a failed request), or earlier
   * when `target_keywords` is not a list of text and the prompt's `join`
   * fails. The other two calls catch their exceptions themselves.
   */
  datatype Agents = Agents(
    hash: string -> int,
    evaluate: Question -> Evaluation,
    generate: (Question, Evaluation) -> Option<string>,
    review: (string, Question) -> Review)

  /**
   * An article the run saved: its question, file name, title and the
   * article text. The file also starts with a front matter block (title,
   * date, keywords, source, URL, draft status) that is fixed text around
   * these values and is not modelled.
   */
  datatype Saved = Saved(question: Question, filename: string, title: string, text: string)

  /**
   * The files and hashes a run left behind, and whether it stopped on an
   * exception; a stopped run sends no summary.
   */
  datatype Outcome = Outcome(saved: seq<Saved>, answered: set<int>, stopped: bool)

  function HashOf(agents: Agents, q: Question): int {
    agents.hash(Lower(q.title))
  }

  predicate Worth(agents: Agents, q: Question) {
    agents.evaluate(q).worthWriting
  }

  const ReviseBelow: real := 7.0

  /** A review offers a revision when its `revised_article` is non-empty text. */
  predicate Revises(review: Review) {
    review.revisedArticle.Some? && review.revisedArticle.value != ""
  }

  /**
   * The article kept after review: the revision, if the score (0 when
   * missing) is below 7 and there is a non-empty revision. `None` where the
   * step raises: comparing a score that is not a number with 7 raises
   * `TypeError`, and announcing a revision reads `review['quality_score']`,
   * which raises `KeyError` when the score is missing.
   */
  function FinalArticle(article: string, review: Review): (r: Option<string>)
    ensures r.None? <==>
      review.qualityScore.NotNumber? || (review.qualityScore.NoScore? && Revises(review))
    ensures r.Some? && r.value != article ==> Revises(review) && r.value == review.revisedArticle.value
    ensures review.qualityScore.Number? && review.qualityScore.value >= ReviseBelow ==> r == Some(article)
    ensures !review.qualityScore.NotNumber? && !Revises(review) ==> r == Some(article)
    ensures review.qualityScore.Number? && review.qualityScore.value < ReviseBelow && Revises(review)
            ==> r == Some(review.revisedArticle.value)
  {
    match review.qualityScore
    case NotNumber => None
    case NoScore => if Revises(review) then None else Some(article)
    case Number(score) =>
      if score < ReviseBelow && Revises(review) then Some(review.revisedArticle.value) else Some(article)
  }

  /** A failed review keeps the generated article. */
  lemma FailedReviewKeepsArticle(article: string)
    ensures FinalArticle(article, Review(Number(0.0), None)) == Some(article)
  {
  }

  /** A revision offered without a score stops the run instead of being used. */
  lemma RevisionWithoutScoreRaises(article: string, revision: string)
    requires revision != ""
    ensures FinalArticle(article, Review(NoScore, Some(revision))).None?
  {
  }

  /** A score that is not a number stops the run, whatever the review offers. */
  lemma NonNumericScoreRaises(article: string, revision: Option<string>)
    ensures FinalArticle(article, Review(NotNumber, revision)).None?
  {
  }

  /** The article kept for `q` after generation and review; `None` where either step raises. */
  function Reviewed(agents: Agents, q: Question): Option<string> {
    match agents.generate(q, agents.evaluate(q))
    case None => None
    case Some(article) => FinalArticle(article, agents.review(article, q))
  }

  /**
   * The article can be saved: generation and review did not raise, and the
   * title `save_article` lower-cases is text (`.lower()` on anything else
   * raises `AttributeError` before the file is opened).
   */
  predicate Writable(agents: Agents, q: Question) {
    Reviewed(agents, q).Some? && !agents.evaluate(q).suggestedTitle.NotText?
  }

  /** A question the loop cannot get past: it is worth writing and generating, reviewing or saving it raises. */
  predicate Raises(agents: Agents, q: Question) {
    Worth(agents, q) && !Writable(agents, q)
  }

  /** The article written for a question judged worth writing. */
  function Written(agents: Agents, q: Question, date: string): Saved
    requires Writable(agents, q)
  {
    var title := match agents.evaluate(q).suggestedTitle
      case TitleText(t) => t
      case _ => q.title;
    Saved(q, ArticleFilename(date, title), title, Reviewed(agents, q).value)
  }

  function Questions(saved: seq<Saved>): (r: seq<Question>)
    ensures |r| == |saved|
    ensures forall i :: 0 <= i < |saved| ==> r[i] == saved[i].question
  {
    if |saved| == 0 then [] else [saved[0].question] + Questions(saved[1..])
  }

  lemma QuestionsCons(x: Saved, rest: seq<Saved>)
    ensures Questions([x] + rest) == [x.question] + Questions(rest)
  {
    assert ([x] + rest)[1..] == rest;
  }

  /** The questions of a batch the evaluation finds worth writing, in batch order. */
  function Worthy(agents: Agents, batch: seq<Question>): (r: seq<Question>)
    ensures forall q :: q in r <==> q in batch && Worth(agents, q)
    ensures IsSubseq(r, batch)
  {
    FilterSubseq((q: Question) => Worth(agents, q), batch);
    Filter((q: Question) => Worth(agents, q), batch)
  }

  lemma WorthyFirst(agents: Agents, batch: seq<Question>)
    requires |batch| > 0
    ensures Worthy(agents, batch)
         == (if Worth(agents, batch[0]) then [batch[0]] else []) + Worthy(agents, batch[1..])
  {
  }

  /** The questions of a batch the loop reaches: those before the first one that raises. */
  function Reached(agents: Agents, batch: seq<Question>): (r: seq<Question>)
    ensures |r| <= |batch| && r == batch[..|r|]
    ensures forall i :: 0 <= i < |r| ==> !Raises(agents, r[i])
    ensures |r| < |batch| ==> Raises(agents, batch[|r|])
  {
    if |batch| == 0 then []
    else if Raises(agents, batch[0]) then []
    else
      var rest := Reached(agents, batch[1..]);
      assert forall i :: 1 <= i <= |rest| ==> ([batch[0]] + rest)[i] == rest[i - 1];
      [batch[0]] + rest
  }

  /** With no question that raises, the loop reaches the whole batch. */
  lemma ReachedAll(agents: Agents, batch: seq<Question>)
    requires forall q :: q in batch ==> !Raises(agents, q)
    ensures Reached(agents, batch) == batch
  {
  }

  /** The questions whose hash is not yet answered, in order. */
  function NewQuestions(qs: seq<Question>, answered: set<int>, agents: Agents): (r: seq<Question>)
    ensures forall q :: q in r <==> q in qs && HashOf(agents, q) !in answered
    ensures IsSubseq(r, qs)
  {
    FilterSubseq(q => HashOf(agents, q) !in answered, qs);
    Filter(q => HashOf(agents, q) !in answered, qs)
  }

  /** Every saved article is what the agents write for its question. */
  predicate AllWritten(agents: Agents, saved: seq<Saved>, date: string) {
    forall i :: 0 <= i < |saved| ==>
      Writable(agents, saved[i].question) && saved[i] == Written(agents, saved[i].question, date)
  }

  lemma AllWrittenCons(agents: Agents, x: Saved, rest: seq<Saved>, date: string)
    requires Writable(agents, x.question) && x == Written(agents, x.question, date)
    requires AllWritten(agents, rest, date)
    ensures AllWritten(agents, [x] + rest, date)
  {
    var s := [x] + rest;
    forall i | 0 <= i < |s|
      ensures Writable(agents, s[i].question) && s[i] == Written(agents, s[i].question, date)
    {
      if i > 0 {
        assert s[i] == rest[i - 1];
      }
    }
  }

  /** The hashes a run over `reached` records: the answered ones and those of its worthy questions. */
  ghost predicate RecordsExactly(r: set<int>, answered: set<int>, agents: Agents, reached: seq<Question>) {
    forall h :: h in r <==> h in answered || exists q :: q in reached && Worth(agents, q) && HashOf(agents, q) == h
  }

  /**
   * The loop body over a batch: skip what is not worth writing, save and
   * record the rest, and stop at the first question whose generation,
   * review or saving raises.
   */
  function ProcessBatch(batch: seq<Question>, answered: set<int>, agents: Agents, date: string)
    : (r: Outcome)
    ensures Questions(r.saved) == Worthy(agents, Reached(agents, batch))
    ensures AllWritten(agents, r.saved, date)
    ensures r.stopped <==> |Reached(agents, batch)| < |batch|
    ensures RecordsExactly(r.answered, answered, agents, Reached(agents, batch))
    decreases |batch|
  {
    if |batch| == 0 then Outcome([], answered, false)
    else
      var q := batch[0];
      var tail := batch[1..];
      if Raises(agents, q) then Outcome([], answered, true)
      else
        var reached := Reached(agents, batch);
        ReachedCons(agents, batch);
        WorthyFirst(agents, reached);
        if !Worth(agents, q) then
          ProcessBatch(tail, answered, agents, date)
        else
          var rest := ProcessBatch(tail, AddAnswered(answered, HashOf(agents, q)), agents, date);
          var saved := [Written(agents, q, date)] + rest.saved;
          QuestionsCons(Written(agents, q, date), rest.saved);
          AllWrittenCons(agents, Written(agents, q, date), rest.saved, date);
          Outcome(saved, rest.answered, rest.stopped)
  }

  /** One step of `Reached` past a question that does not raise. */
  lemma ReachedCons(agents: Agents, batch: seq<Question>)
    requires |batch| > 0 && !Raises(agents, batch[0])
    ensures var r := Reached(agents, batch);
      && |r| > 0 && r[0] == batch[0] && r[1..] == Reached(agents, batch[1..])
      && (forall x :: x in r <==> x == batch[0] || x in Reached(agents, batch[1..]))
  {
    var r := Reached(agents, batch);
    assert r == [batch[0]] + Reached(agents, batch[1..]);
  }

  /** A worthy question whose article cannot be generated ends the loop with nothing more saved. */
  lemma GenerationFailureStops(batch: seq<Question>, answered: set<int>, agents: Agents, date: string)
    requires |batch| > 0 && Worth(agents, batch[0])
    requires agents.generate(batch[0], agents.evaluate(batch[0])).None?
    ensures ProcessBatch(batch, answered, agents, date) == Outcome([], answered, true)
  {
  }

  /** A worthy question whose suggested title is not text ends the loop with nothing more saved. */
  lemma UntitledStops(batch: seq<Question>, answered: set<int>, agents: Agents, date: string)
    requires |batch| > 0 && Worth(agents, batch[0])
    requires agents.evaluate(batch[0]).suggestedTitle.NotText?
    ensures ProcessBatch(batch, answered, agents, date) == Outcome([], answered, true)
  {
  }

  const BatchSize := 3

  /** The batch `main` takes: the first three new questions. */
  function Batch(qs: seq<Question>, answered: set<int>, agents: Agents): seq<Question> {
    Take(NewQuestions(qs, answered, agents), BatchSize)
  }

  /**
   * `main`: the first three new questions go through the loop. The saved
   * articles are those of the worthy questions reached before generation,
   * review or saving raises, and exactly their hashes are added.
   */
  function WeeklyRun(qs: seq<Question>, answered: set<int>, agents: Agents, date: string): (r: Outcome)
    ensures Questions(r.saved) == Worthy(agents, Reached(agents, Batch(qs, answered, agents)))
    ensures AllWritten(agents, r.saved, date)
    ensures r.stopped <==> |Reached(agents, Batch(qs, answered, agents))| < |Batch(qs, answered, agents)|
    ensures RecordsExactly(r.answered, answered, agents, Reached(agents, Batch(qs, answered, agents)))
  {
    ProcessBatch(Batch(qs, answered, agents), answered, agents, date)
  }

  /** When nothing raises, every worthy question of the batch is saved and the run completes. */
  lemma WeeklyRunSavesEveryWorthy(qs: seq<Question>, answered: set<int>, agents: Agents, date: string)
    requires forall q :: q in Batch(qs, answered, agents) ==> !Raises(agents, q)
    ensures var r := WeeklyRun(qs, answered, agents, date);
      Questions(r.saved) == Worthy(agents, Batch(qs, answered, agents)) && !r.stopped
  {
    ReachedAll(agents, Batch(qs, answered, agents));
  }

  /**
   * A run saves at most three articles, each for a listed question whose
   * hash was new, is worth writing and is now recorded, in list order.
   */
  lemma WeeklyRunSavesNew(qs: seq<Question>, answered: set<int>, agents: Agents, date: string)
    ensures var r := WeeklyRun(qs, answered, agents, date);
      && |r.saved| <= BatchSize
      && answered <= r.answered
      && (forall i :: 0 <= i < |r.saved| ==>
            var q := r.saved[i].question;
            q in qs && HashOf(agents, q) !in answered && HashOf(agents, q) in r.answered && Worth(agents, q))
      && IsSubseq(Questions(r.saved), qs)
  {
    var r := WeeklyRun(qs, answered, agents, date);
    var unseen := NewQuestions(qs, answered, agents);
    var batch := Batch(qs, answered, agents);
    var reached := Reached(agents, batch);
    var worth := Worthy(agents, reached);
    assert Questions(r.saved) == worth;
    assert |r.saved| <= BatchSize by {
      assert |worth| <= |reached| <= |batch| <= BatchSize;
    }
    ReachedAmongNew(qs, answered, agents);
    SubseqTrans(worth, reached, unseen);
    SubseqTrans(worth, unseen, qs);
    SubseqMembers(worth, unseen);
    Recorded(r.answered, answered, agents, reached);
    forall i | 0 <= i < |r.saved|
      ensures var q := r.saved[i].question;
        q in qs && HashOf(agents, q) !in answered && HashOf(agents, q) in r.answered && Worth(agents, q)
    {
      var q := r.saved[i].question;
      assert q == worth[i];
      assert q in worth;
    }
  }

  /** The questions the loop reaches keep their order among the new questions. */
  lemma ReachedAmongNew(qs: seq<Question>, answered: set<int>, agents: Agents)
    ensures IsSubseq(Reached(agents, Batch(qs, answered, agents)), NewQuestions(qs, answered, agents))
  {
    var unseen := NewQuestions(qs, answered, agents);
    var batch := Batch(qs, answered, agents);
    var reached := Reached(agents, batch);
    TakeSubseq(unseen, BatchSize);
    TakeSubseq(batch, |reached|);
    assert Take(batch, |reached|) == reached;
    SubseqTrans(reached, batch, unseen);
  }

  /** The recorded hashes include the old ones and those of the worthy questions reached. */
  lemma Recorded(r: set<int>, answered: set<int>, agents: Agents, reached: seq<Question>)
    requires RecordsExactly(r, answered, agents, reached)
    ensures answered <= r
    ensures forall q :: q in reached && Worth(agents, q) ==> HashOf(agents, q) in r
  {
    forall h | h in answered ensures h in r {
    }
  }

  /** A question saved by one run is not new in the next. */
  lemma SavedNotNewAgain(qs: seq<Question>, answered: set<int>, agents: Agents, date: string, i: nat)
    requires i < |WeeklyRun(qs, answered, agents, date).saved|
    ensures var r := WeeklyRun(qs, answered, agents, date);
      r.saved[i].question !in NewQuestions(qs, r.answered, agents)
  {
    WeeklyRunSavesNew(qs, answered, agents, date);
  }
}

=== FILE: schema_injector.dfy ===
/**
 * The FAQ schema injector: HTML escaping of FAQ text, the generated FAQ
 * section, the JSON-LD FAQPage block, insertion at the first marker and the
 * per-file decision procedure (skip, extract, generate, inject).
 */
module SchemaInjector {
  import opened Outcomes
  import opened Strings
  import opened Sequences
  import opened Json

  /** One question/answer pair. */
  datatype Faq = Faq(question: string, answer: string)

  // ---------------------------------------------------------------------
  // Escaping
  // ---------------------------------------------------------------------

  /** `s.replace('<', '&lt;').replace('>', '&gt;')`: no angle bracket survives. */
  function EscapeHtml(s: string): (r: string)
    ensures '<' !in r && '>' !in r
  {
    var once := ReplaceAll(s, "<", "&lt;");
    ReplaceAllRemoves(s, '<', "&lt;");
    ReplaceAllRemoves(once, '>', "&gt;");
    ReplaceAllKeepsAbsent(once, '>', "&gt;", '<');
    ReplaceAll(once, ">", "&gt;")
  }

  /** Reference definition: each character escaped on its own. */
  function EscapeChar(c: char): string {
    if c == '<' then "&lt;" else if c == '>' then "&gt;" else [c]
  }

  function EscapeChars(s: string): string {
    if |s| == 0 then "" else EscapeChar(s[0]) + EscapeChars(s[1..])
  }

  lemma {:induction false} ReplaceCharTwice(s: string)
    ensures ReplaceChar(ReplaceChar(s, '<', "&lt;"), '>', "&gt;") == EscapeChars(s)
    decreases |s|
  {
    if |s| > 0 {
      var head := if s[0] == '<' then "&lt;" else [s[0]];
      var rest := ReplaceChar(s[1..], '<', "&lt;");
      assert ReplaceChar(s, '<', "&lt;") == head + rest;
      ReplaceCharConcat(head, rest, '>', "&gt;");
      ReplaceCharTwice(s[1..]);
      if s[0] == '<' {
        assert ReplaceChar("&lt;", '>', "&gt;") == "&lt;";
      } else {
        assert ReplaceChar([s[0]], '>', "&gt;") == EscapeChar(s[0]);
      }
    }
  }

  /** The two whole-string passes escape character by character. */
  lemma EscapeHtmlPerChar(s: string)
    ensures EscapeHtml(s) == EscapeChars(s)
  {
    ReplaceAllChar(s, '<', "&lt;");
    ReplaceAllChar(ReplaceAll(s, "<", "&lt;"), '>', "&gt;");
    ReplaceCharTwice(s);
  }

  /** Decodes the two entities the escaper writes. */
  function UnescapeHtml(s: string): string
    decreases |s|
  {
    if |s| == 0 then ""
    else if StartsWith(s, "&lt;") then "<" + UnescapeHtml(s[4..])
    else if StartsWith(s, "&gt;") then ">" + UnescapeHtml(s[4..])
    else [s[0]] + UnescapeHtml(s[1..])
  }

  /** Unescaping undoes the escape of one character, whatever follows it. */
  lemma UnescapeEscapeChar(c: char, rest: string)
    requires c != '&'
    ensures UnescapeHtml(EscapeChar(c) + rest) == [c] + UnescapeHtml(rest)
  {
    var e := EscapeChar(c) + rest;
    if c == '<' || c == '>' {
      assert e[..4] == EscapeChar(c) && e[4..] == rest;
    } else {
      assert e[..1] == [c] && e[1..] == rest;
      assert !StartsWith(e, "&lt;") && !StartsWith(e, "&gt;");
    }
  }

  lemma {:induction false} UnescapeEscapeChars(s: string)
    requires '&' !in s
    ensures UnescapeHtml(EscapeChars(s)) == s
    decreases |s|
  {
    if |s| > 0 {
      UnescapeEscapeChars(s[1..]);
      UnescapeEscapeChar(s[0], EscapeChars(s[1..]));
      assert s == [s[0]] + s[1..];
    }
  }

  /** Escaping loses nothing for text without `&`: unescaping gives it back. */
  lemma EscapeRoundTrip(s: string)
    requires '&' !in s
    ensures UnescapeHtml(EscapeHtml(s)) == s
  {
    EscapeHtmlPerChar(s);
    UnescapeEscapeChars(s);
  }

  // ---------------------------------------------------------------------
  // The FAQ section placed in the page body
  // ---------------------------------------------------------------------

  const Comment := "\n  <!-- FAQ Section (auto-generated) -->"
  const SectionOpen := "  <section class=\"mt-12 mb-8\">"
  const Heading := "    <h2 class=\"text-2xl font-bold text-gray-900 mt-8 mb-4\">Frequently Asked Questions</h2>"
  const QuestionOpen := "    <h3 class=\"text-xl font-semibold text-gray-900 mt-6 mb-3\">"
  const QuestionClose := "</h3>"
  const AnswerOpen := "    <p class=\"text-gray-600 mb-4\">"
  const AnswerClose := "</p>"
  const SectionClose := "  </section>"

  /** Everything before the first question. */
  const Header := Comment + ("\n" + SectionOpen) + ("\n" + Heading)

  function QuestionLine(f: Faq): string {
    QuestionOpen + EscapeHtml(f.question) + QuestionClose
  }

  function AnswerLine(f: Faq): string {
    AnswerOpen + EscapeHtml(f.answer) + AnswerClose
  }

  /** The `<h3>`/`<p>` lines, two per FAQ, in input order. */
  function PairLines(faqs: seq<Faq>): (r: seq<string>)
    ensures |r| == 2 * |faqs|
  {
    if |faqs| == 0 then [] else [QuestionLine(faqs[0]), AnswerLine(faqs[0])] + PairLines(faqs[1..])
  }

  /** `build_faq_html`: the section's lines joined by newlines. */
  function BuildFaqHtml(faqs: seq<Faq>): string {
    Join([Comment, SectionOpen, Heading] + PairLines(faqs) + [SectionClose], "\n")
  }

  /** The separators around the escaped texts of one FAQ. */
  const QuestionStart := "\n" + QuestionOpen
  const Between := QuestionClose + ("\n" + AnswerOpen)
  const Trailer := "\n" + SectionClose

  /** The text one FAQ contributes to the section. */
  function PairText(f: Faq): string {
    QuestionStart + (EscapeHtml(f.question) + (Between + (EscapeHtml(f.answer) + AnswerClose)))
  }

  function PairsText(faqs: seq<Faq>): string {
    if |faqs| == 0 then "" else PairText(faqs[0]) + PairsText(faqs[1..])
  }

  lemma {:induction false} PairLinesText(faqs: seq<Faq>)
    ensures JoinTail(PairLines(faqs), "\n") == PairsText(faqs)
    decreases |faqs|
  {
    if |faqs| > 0 {
      var f := faqs[0];
      var two := [QuestionLine(f), AnswerLine(f)];
      assert PairLines(faqs) == two + PairLines(faqs[1..]);
      JoinTailConcat(two, PairLines(faqs[1..]), "\n");
      PairLinesText(faqs[1..]);
      JoinTailPair(QuestionLine(f), AnswerLine(f), "\n");
      PairTextLines(f);
    }
  }

  lemma PairTextLines(f: Faq)
    ensures PairText(f) == "\n" + QuestionLine(f) + ("\n" + AnswerLine(f))
  {
    PairLayout(EscapeHtml(f.question), EscapeHtml(f.answer));
  }

  lemma PairLayout(q: string, a: string)
    ensures QuestionStart + (q + (Between + (a + AnswerClose)))
         == "\n" + (QuestionOpen + q + QuestionClose) + ("\n" + (AnswerOpen + a + AnswerClose))
  {
  }

  /** The section is the header, one question/answer pair per FAQ, and the closing tag. */
  lemma FaqHtmlShape(faqs: seq<Faq>)
    ensures BuildFaqHtml(faqs) == Header + PairsText(faqs) + Trailer
  {
    JoinFramed(Comment, SectionOpen, Heading, PairLines(faqs), SectionClose, "\n");
    PairLinesText(faqs);
  }

  /** Reads the FAQ section back: the inverse of `BuildFaqHtml`. */
  function ParseFaqHtml(html: string): Option<seq<Faq>> {
    if StartsWith(html, Header) then ParsePairs(html[|Header|..]) else None
  }

  function ParsePairs(s: string): Option<seq<Faq>>
    decreases |s|
  {
    if s == Trailer then Some([])
    else if !StartsWith(s, QuestionStart) then None
    else
      var t := s[|QuestionStart|..];
      var q := TakeUntil(t, '<');
      var u := t[|q|..];
      if !StartsWith(u, Between) then None
      else
        var v := u[|Between|..];
        var a := TakeUntil(v, '<');
        var w := v[|a|..];
        if !StartsWith(w, AnswerClose) then None
        else
          match ParsePairs(w[|AnswerClose|..])
          case None => None
          case Some(rest) => Some([Faq(UnescapeHtml(q), UnescapeHtml(a))] + rest)
  }

  /** FAQ text without `&` survives the trip through the section's HTML. */
  predicate Plain(f: Faq) {
    '&' !in f.question && '&' !in f.answer
  }

  /** One step of the parser over escaped texts `q` and `a`. */
  lemma ParseStepEscaped(q: string, a: string, rest: string)
    requires '<' !in q && '<' !in a
    ensures ParsePairs(QuestionStart + (q + (Between + (a + (AnswerClose + rest)))))
         == match ParsePairs(rest)
            case None => None
            case Some(fs) => Some([Faq(UnescapeHtml(q), UnescapeHtml(a))] + fs)
  {
    var w := AnswerClose + rest;
    var v := a + w;
    var u := Between + v;
    var t := q + u;
    var s := QuestionStart + t;
    assert |s| > |Trailer|;
    assert s[..|QuestionStart|] == QuestionStart;
    assert s[|QuestionStart|..] == t;
    assert Between[0] == '<';
    TakeUntilConcat(q, u, '<');
    assert t[|q|..] == u;
    assert u[..|Between|] == Between && u[|Between|..] == v;
    TakeUntilConcat(a, w, '<');
    assert v[|a|..] == w;
    assert w[..|AnswerClose|] == AnswerClose && w[|AnswerClose|..] == rest;
  }

  lemma ParsePairStep(f: Faq, rest: string, fs: seq<Faq>)
    requires Plain(f) && ParsePairs(rest) == Some(fs)
    ensures ParsePairs(PairText(f) + rest) == Some([f] + fs)
  {
    var q := EscapeHtml(f.question);
    var a := EscapeHtml(f.answer);
    ConcatLayout(q, a, rest);
    ParseStepEscaped(q, a, rest);
    EscapeRoundTrip(f.question);
    EscapeRoundTrip(f.answer);
  }

  lemma ConcatLayout(q: string, a: string, rest: string)
    ensures QuestionStart + (q + (Between + (a + AnswerClose)))  + rest
         == QuestionStart + (q + (Between + (a + (AnswerClose + rest))))
  {
  }

  lemma {:induction false} ParsePairsRoundTrip(faqs: seq<Faq>)
    requires forall i :: 0 <= i < |faqs| ==> Plain(faqs[i])
    ensures ParsePairs(PairsText(faqs) + Trailer) == Some(faqs)
    decreases |faqs|
  {
    if |faqs| == 0 {
      ParseTrailer(faqs);
    } else {
      ParsePairsRoundTrip(faqs[1..]);
      ParseFirstPair(faqs);
    }
  }

  /** The closing text alone parses as no pairs. */
  lemma ParseTrailer(faqs: seq<Faq>)
    requires |faqs| == 0
    ensures ParsePairs(PairsText(faqs) + Trailer) == Some(faqs)
  {
    assert PairsText(faqs) + Trailer == Trailer;
  }

  /** The first pair's text parses as the first pair, in front of whatever the rest parses as. */
  lemma ParseFirstPair(faqs: seq<Faq>)
    requires |faqs| > 0 && Plain(faqs[0])
    requires ParsePairs(PairsText(faqs[1..]) + Trailer) == Some(faqs[1..])
    ensures ParsePairs(PairsText(faqs) + Trailer) == Some(faqs)
  {
    ParsePairStep(faqs[0], PairsText(faqs[1..]) + Trailer, faqs[1..]);
    PairsTextFirst(faqs, Trailer);
    HeadTail(faqs);
  }

  lemma PairsTextFirst(faqs: seq<Faq>, tail: string)
    requires |faqs| > 0
    ensures PairsText(faqs) + tail == PairText(faqs[0]) + (PairsText(faqs[1..]) + tail)
  {
    var a := PairText(faqs[0]);
    var b := PairsText(faqs[1..]);
    assert PairsText(faqs) == a + b;
    ConcatAssoc(a, b, tail);
  }

  /**
   * The generated section holds exactly the given FAQs, in order, one
   * `<h3>`/`<p>` pair each, after the single heading.
   */
  lemma FaqHtmlRoundTrip(faqs: seq<Faq>)
    requires forall i :: 0 <= i < |faqs| ==> Plain(faqs[i])
    ensures ParseFaqHtml(BuildFaqHtml(faqs)) == Some(faqs)
  {
    FaqHtmlShape(faqs);
    var html := BuildFaqHtml(faqs);
    var body := PairsText(faqs) + Trailer;
    assert html == Header + body;
    assert html[..|Header|] == Header && html[|Header|..] == body;
    ParsePairsRoundTrip(faqs);
  }

  // ---------------------------------------------------------------------
  // The JSON-LD FAQPage schema
  // ---------------------------------------------------------------------

  function Entity(f: Faq): Json {
    JObj([
      Field("@type", JStr("Question")),
      Field("name", JStr(f.question)),
      Field("acceptedAnswer", JObj([Field("@type", JStr("Answer")), Field("text", JStr(f.answer))]))
    ])
  }

  /** One Question entity per FAQ, in order. */
  function Entities(faqs: seq<Faq>): seq<Json> {
    seq(|faqs|, i requires 0 <= i < |faqs| => Entity(faqs[i]))
  }

  /** The `schema` dictionary of `build_faq_schema`. */
  function FaqSchema(faqs: seq<Faq>): Json {
    JObj([
      Field("@context", JStr("https://schema.org")),
      Field("@type", JStr("FAQPage")),
      Field("mainEntity", JArr(Entities(faqs)))
    ])
  }

  /** Reads one Question entity back. */
  function EntityFaq(j: Json): Option<Faq> {
    if !j.JObj? then None
    else
      match (Get(j.fields, "name"), Get(j.fields, "acceptedAnswer"))
      case (Some(JStr(q)), Some(JObj(answer))) =>
        (match Get(answer, "text")
         case Some(JStr(a)) => Some(Faq(q, a))
         case _ => None)
      case _ => None
  }

  /** Reads every entity back; one unreadable entity fails the list. */
  function EntitiesFaqs(items: seq<Json>): Option<seq<Faq>> {
    MapAll(EntityFaq, items)
  }

  /** Reads the FAQs back from a FAQPage schema: the inverse of `FaqSchema`. */
  function SchemaFaqs(j: Json): Option<seq<Faq>> {
    if !j.JObj? || Get(j.fields, "@type") != Some(JStr("FAQPage")) then None
    else
      match Get(j.fields, "mainEntity")
      case Some(JArr(items)) => EntitiesFaqs(items)
      case _ => None
  }

  lemma EntityRoundTrip(f: Faq)
    ensures EntityFaq(Entity(f)) == Some(f)
  {
    var answer := [Field("@type", JStr("Answer")), Field("text", JStr(f.answer))];
    var fields := Entity(f).fields;
    assert fields[2] == Field("acceptedAnswer", JObj(answer));
    GetTriple(fields[0], fields[1], fields[2], "name");
    GetTriple(fields[0], fields[1], fields[2], "acceptedAnswer");
    assert answer == [answer[0]] + [answer[1]];
    GetCons(answer[0], [answer[1]], "text");
    GetCons(answer[1], [], "text");
  }

  /** The entity list reads back as the FAQs it was built from. */
  lemma EntitiesRoundTrip(faqs: seq<Faq>)
    ensures EntitiesFaqs(Entities(faqs)) == Some(faqs)
  {
    var items := Entities(faqs);
    forall i | 0 <= i < |items|
      ensures EntityFaq(items[i]) == Some(faqs[i])
    {
      EntityRoundTrip(faqs[i]);
    }
    var r := MapAll(EntityFaq, items);
    assert r.Some? && |r.value| == |faqs|;
    assert forall i :: 0 <= i < |faqs| ==> r.value[i] == faqs[i];
    assert r.value == faqs;
  }

  /** The schema is a FAQPage with one Question per FAQ, in order, texts unchanged. */
  lemma FaqSchemaRoundTrip(faqs: seq<Faq>)
    ensures SchemaFaqs(FaqSchema(faqs)) == Some(faqs)
  {
    var fields := FaqSchema(faqs).fields;
    GetTriple(fields[0], fields[1], fields[2], "@type");
    GetTriple(fields[0], fields[1], fields[2], "mainEntity");
    EntitiesRoundTrip(faqs);
  }

  /** The FAQ schema holds no numbers, so the number format is never consulted. */
  function NoNumbers(n: real): string {
    ""
  }

  const ScriptOpen := "\n  <!-- JSON-LD FAQ Schema -->\n  <script type=\"application/ld+json\">\n  "
  const ScriptClose := "\n  </script>"

  /** The script block `inject_faq_schema` writes. */
  function SchemaBlock(faqs: seq<Faq>): string {
    ScriptOpen + Render(FaqSchema(faqs), 0, NoNumbers) + ScriptClose
  }

  /** The written block names the FAQPage type, so a page carrying it is recognised. */
  lemma SchemaBlockNamesFaqPage(faqs: seq<Faq>)
    ensures Contains(SchemaBlock(faqs), "FAQPage")
  {
    var fields := FaqSchema(faqs).fields;
    var rendered := Render(FaqSchema(faqs), 0, NoNumbers);
    var line := FieldLine(Field("@type", JStr("FAQPage")), 1, NoNumbers);
    assert fields[1] == Field("@type", JStr("FAQPage"));
    RenderObjectContains(fields, 1, 0, NoNumbers);
    FaqPagePlain();
    TypeLineNames("FAQPage");
    ContainsTrans(rendered, line, "FAQPage");
    ContainsInside(ScriptOpen, rendered, ScriptClose, "FAQPage");
  }

  /** "FAQPage" needs no escaping in JSON. */
  lemma FaqPagePlain()
    ensures forall i :: 0 <= i < |"FAQPage"| ==> IsPlain("FAQPage"[i])
  {
    var s := "FAQPage";
    assert s[0] == 'F' && s[1] == 'A' && s[2] == 'Q' && s[3] == 'P' && s[4] == 'a' && s[5] == 'g' && s[6] == 'e';
  }

  /** A `"@type"` line names its type when the type needs no escaping. */
  lemma TypeLineNames(t: string)
    requires forall i :: 0 <= i < |t| ==> IsPlain(t[i])
    ensures Contains(FieldLine(Field("@type", JStr(t)), 1, NoNumbers), t)
  {
    assert EscapeString(t) == t;
    assert Render(JStr(t), 1, NoNumbers) == "\"" + t + "\"";
    ContainsQuoted(Indent(1) + Quote("@type") + ": ", "\"", t);
  }

  // ---------------------------------------------------------------------
  // Insertion into the page
  // ---------------------------------------------------------------------

  const HeadEnd := "</head>"
  const ArticleEnd := "</article>"
  const MainEnd := "</main>"

  /** `has_faq_schema`. */
  predicate HasFaqSchema(html: string) {
    Contains(html, "FAQPage")
  }

  /** `inject_faq_schema`: the block goes just before the first `</head>`, nowhere else. */
  function InjectFaqSchema(html: string, faqs: seq<Faq>): (r: string)
    ensures Find(html, HeadEnd).Some? ==>
      var i := Find(html, HeadEnd).value;
      r == html[..i] + (SchemaBlock(faqs) + "\n") + html[i..]
    ensures Find(html, HeadEnd).None? ==> r == html
  {
    ReplaceFirstInserts(html, HeadEnd, SchemaBlock(faqs) + "\n");
    ReplaceFirst(html, HeadEnd, SchemaBlock(faqs) + "\n" + HeadEnd)
  }

  /** After injection into a page with a `</head>`, the page is recognised as carrying the schema. */
  lemma InjectedIsRecognised(html: string, faqs: seq<Faq>)
    requires Contains(html, HeadEnd)
    ensures HasFaqSchema(InjectFaqSchema(html, faqs))
  {
    var i := Find(html, HeadEnd).value;
    SchemaBlockNamesFaqPage(faqs);
    ContainsConcat(SchemaBlock(faqs), "\n", "FAQPage");
    ContainsInside(html[..i], SchemaBlock(faqs) + "\n", html[i..], "FAQPage");
  }

  /**
   * `add_faq_section_to_body`: the section goes before the first
   * `</article>`, or failing that before the first `</main>`; with neither
   * marker the page is unchanged.
   */
  function AddFaqSectionToBody(html: string, faqs: seq<Faq>): (r: string)
    ensures Contains(html, ArticleEnd) ==>
      var i := Find(html, ArticleEnd).value;
      r == html[..i] + BuildFaqHtml(faqs) + "\n  " + html[i..]
    ensures !Contains(html, ArticleEnd) && Contains(html, MainEnd) ==>
      var i := Find(html, MainEnd).value;
      r == html[..i] + BuildFaqHtml(faqs) + "\n  " + html[i..]
    ensures !Contains(html, ArticleEnd) && !Contains(html, MainEnd) ==> r == html
  {
    var section := BuildFaqHtml(faqs);
    ReplaceFirstInserts(html, ArticleEnd, section + "\n  ");
    ReplaceFirstInserts(html, MainEnd, section + "\n  ");
    if Contains(html, ArticleEnd) then ReplaceFirst(html, ArticleEnd, section + "\n  " + ArticleEnd)
    else ReplaceFirst(html, MainEnd, section + "\n  " + MainEnd)
  }

  // ---------------------------------------------------------------------
  // Extraction and the per-file procedure
  // ---------------------------------------------------------------------

  predicate Complete(f: Faq) {
    |f.question| > 0 && |f.answer| > 0
  }

  /**
   * The filter and cap of `extract_faqs`, applied to the tag-stripped
   * question/answer pairs found after the page's FAQ heading.
   */
  function ExtractFaqs(pairs: seq<Faq>): (r: seq<Faq>)
    ensures |r| <= 10
    ensures forall f :: f in r ==> f in pairs && Complete(f)
    ensures |r| < 10 ==> forall f :: f in pairs && Complete(f) ==> f in r
    ensures IsSubseq(r, pairs)
    ensures |r| == if |Filter(Complete, pairs)| < 10 then |Filter(Complete, pairs)| else 10
    ensures r == Filter(Complete, pairs)[..|r|]
  {
    var complete := Filter(Complete, pairs);
    FilterSubseq(Complete, pairs);
    TakeSubseq(complete, 10);
    SubseqTrans(Take(complete, 10), complete, pairs);
    SubseqMembers(Take(complete, 10), complete);
    Take(complete, 10)
  }

  /**
   * The loop of `extract_faqs` one match at a time: a complete pair is
   * appended, duplicates included, until ten are kept, and later ones
   * change nothing.
   */
  lemma ExtractFaqsSnoc(pairs: seq<Faq>, f: Faq)
    ensures ExtractFaqs(pairs + [f])
         == if Complete(f) && |ExtractFaqs(pairs)| < 10 then ExtractFaqs(pairs) + [f] else ExtractFaqs(pairs)
  {
    FilterConcat(Complete, pairs, [f]);
    FilterCons(Complete, f, []);
    var before := Filter(Complete, pairs);
    var after := Filter(Complete, pairs + [f]);
    assert after == before + (if Complete(f) then [f] else []) by {
      assert [f] + [] == [f];
    }
    if Complete(f) && |before| < 10 {
      assert after[..|after|] == before + [f];
    } else if Complete(f) {
      assert after[..10] == before[..10];
    } else {
      assert after == before;
    }
  }

  /** What `process_file` reports as changes. */
  datatype Change =
    | UrlFixed
    | AlreadyPresent
    | GeneratedAndAdded(count: nat)
    | Injected(count: nat, generated: bool)
    | NothingToInject

  /** The page as last written, whether it was written, the change log and `faq_injected`. */
  datatype FileReport = FileReport(html: string, written: bool, changes: seq<Change>, faqInjected: bool)

  /**
   * The external results `process_file` depends on: the mainEntityOfPage
   * URL fix (a regular expression), the pairs found after the FAQ heading,
   * and the FAQs the model generates for the page.
   */
  datatype Oracles = Oracles(
    fixUrl: string -> string,
    findPairs: string -> seq<Faq>,
    generate: string -> seq<Faq>)

  /** The page after the URL fix, the FAQs used and the page after the body insertion. */
  datatype Plan = Plan(fixed: string, skip: bool, extracted: seq<Faq>, faqs: seq<Faq>, body: string)

  function PlanFile(html: string, o: Oracles): (p: Plan)
    ensures p.fixed == o.fixUrl(html)
    ensures p.skip <==> HasFaqSchema(p.fixed)
    ensures !p.skip ==> p.extracted == ExtractFaqs(o.findPairs(p.fixed))
    ensures !p.skip && |p.extracted| > 0 ==> p.faqs == p.extracted && p.body == p.fixed
    ensures !p.skip && |p.extracted| == 0 ==>
      p.faqs == o.generate(p.fixed)
      && p.body == (if |p.faqs| > 0 then AddFaqSectionToBody(p.fixed, p.faqs) else p.fixed)
    ensures p.skip ==> p.faqs == [] && p.body == p.fixed
  {
    var fixed := o.fixUrl(html);
    if HasFaqSchema(fixed) then Plan(fixed, true, [], [], fixed)
    else
      var extracted := ExtractFaqs(o.findPairs(fixed));
      if |extracted| > 0 then Plan(fixed, false, extracted, extracted, fixed)
      else
        var generated := o.generate(fixed);
        Plan(fixed, false, extracted, generated,
             if |generated| > 0 then AddFaqSectionToBody(fixed, generated) else fixed)
  }

  /** The change log for a plan. */
  function Changes(html: string, p: Plan): seq<Change> {
    var fix := if p.fixed != html then [UrlFixed] else [];
    if p.skip then fix + [AlreadyPresent]
    else
      var generated := |p.extracted| == 0 && |p.faqs| > 0;
      fix
      + (if generated then [GeneratedAndAdded(|p.faqs|)] else [])
      + (if |p.faqs| > 0 then [Injected(|p.faqs|, generated)] else [NothingToInject])
  }

  function Finish(html: string, p: Plan, injected: bool): FileReport {
    if p.skip then FileReport(p.fixed, p.fixed != html, Changes(html, p), false)
    else if |p.faqs| > 0 then FileReport(InjectFaqSchema(p.body, p.faqs), true, Changes(html, p), injected)
    else FileReport(p.fixed, p.fixed != html, Changes(html, p), false)
  }

  /** `process_file` as written: `faq_injected` is `bool(faqs)`. */
  function ProcessFile(html: string, o: Oracles): (r: FileReport)
    ensures HasFaqSchema(o.fixUrl(html)) ==>
      r.html == o.fixUrl(html) && r.written == (o.fixUrl(html) != html) && !r.faqInjected
      && AlreadyPresent in r.changes
    ensures !HasFaqSchema(o.fixUrl(html)) ==>
      var extracted := ExtractFaqs(o.findPairs(o.fixUrl(html)));
      r.faqInjected == (|extracted| > 0 || |o.generate(o.fixUrl(html))| > 0)
    ensures r.written <==> o.fixUrl(html) != html || r.faqInjected
    ensures !HasFaqSchema(o.fixUrl(html)) ==>
      var fixed := o.fixUrl(html);
      var extracted := ExtractFaqs(o.findPairs(fixed));
      var generated := o.generate(fixed);
      && (|extracted| > 0 ==> r.html == InjectFaqSchema(fixed, extracted))
      && (|extracted| == 0 && |generated| > 0 ==>
            r.html == InjectFaqSchema(AddFaqSectionToBody(fixed, generated), generated))
      && (|extracted| == 0 && |generated| == 0 ==> r.html == fixed)
  {
    var p := PlanFile(html, o);
    Finish(html, p, |p.faqs| > 0)
  }

  /** The generator is consulted only when extraction finds nothing. */
  lemma GeneratorOnlyWhenNothingExtracted(html: string, o: Oracles, generate: string -> seq<Faq>)
    requires |ExtractFaqs(o.findPairs(o.fixUrl(html)))| > 0
    ensures ProcessFile(html, o) == ProcessFile(html, o.(generate := generate))
  {
  }

  /** A page with FAQs but no `</head>` is reported as injected though it carries no schema. */
  lemma ReportsInjectionWithoutHead(html: string, o: Oracles)
    requires !HasFaqSchema(o.fixUrl(html)) && !Contains(o.fixUrl(html), HeadEnd)
    requires |ExtractFaqs(o.findPairs(o.fixUrl(html)))| > 0
    ensures ProcessFile(html, o).faqInjected && !HasFaqSchema(ProcessFile(html, o).html)
  {
  }

  /** For instance, an empty page whose FAQ heading search yields one pair. */
  lemma ReportsInjectionOnEmptyPage()
    ensures var r := ProcessFile("", Oracles(h => h, h => [Faq("Q?", "A.")], h => []));
            r.faqInjected && !HasFaqSchema(r.html)
  {
    var o := Oracles(h => h, h => [Faq("Q?", "A.")], h => []);
    assert Complete(Faq("Q?", "A."));
    assert Faq("Q?", "A.") in ExtractFaqs(o.findPairs(o.fixUrl("")));
    ReportsInjectionWithoutHead("", o);
  }

  /** `process_file` with `faq_injected` reporting whether the schema was actually inserted. */
  function ProcessFileChecked(html: string, o: Oracles): (r: FileReport)
    ensures r.faqInjected ==> HasFaqSchema(r.html)
    ensures !HasFaqSchema(o.fixUrl(html)) ==>
      var p := PlanFile(html, o);
      r.faqInjected == (|p.faqs| > 0 && Contains(p.body, HeadEnd))
    ensures r.written <==> o.fixUrl(html) != html || |PlanFile(html, o).faqs| > 0
  {
    var p := PlanFile(html, o);
    var injected := |p.faqs| > 0 && Contains(p.body, HeadEnd);
    if injected then InjectedIsRecognised(p.body, p.faqs); Finish(html, p, injected)
    else Finish(html, p, injected)
  }

  /**
   * A page whose schema was injected is skipped on the next run, provided
   * the URL fix never removes an occurrence of "FAQPage".
   */
  lemma SecondRunSkips(html: string, o: Oracles)
    requires forall h :: HasFaqSchema(h) ==> HasFaqSchema(o.fixUrl(h))
    requires ProcessFileChecked(html, o).faqInjected
    ensures var again := ProcessFileChecked(ProcessFileChecked(html, o).html, o);
            !again.faqInjected && AlreadyPresent in again.changes
            && again.html == o.fixUrl(ProcessFileChecked(html, o).html)
  {
    var r := ProcessFileChecked(html, o);
    assert HasFaqSchema(o.fixUrl(r.html));
  }
}

=== FILE: sequences.dfy ===
/**
 * Generic list operations shared by the agents: comprehension filters,
 * Python's stable `sorted(..., key=..., reverse=True)` and the
 * "seen set" loop that keeps the first element of each key.
 */
module Sequences {
  import opened Outcomes

  /** Python's `[x for x in s if f(x)]`. */
  function Filter<T(!new)>(f: T -> bool, s: seq<T>): (r: seq<T>)
    ensures |r| <= |s|
    ensures forall x :: x in r <==> x in s && f(x)
  {
    if |s| == 0 then [] else (if f(s[0]) then [s[0]] else []) + Filter(f, s[1..])
  }

  lemma {:induction false} FilterConcat<T(!new)>(f: T -> bool, a: seq<T>, b: seq<T>)
    ensures Filter(f, a + b) == Filter(f, a) + Filter(f, b)
    decreases |a|
  {
    if |a| > 0 {
      assert (a + b)[1..] == a[1..] + b;
      FilterConcat(f, a[1..], b);
    } else {
      assert a + b == b;
    }
  }

  /** A comprehension whose condition holds throughout keeps everything. */
  lemma {:induction false} FilterAll<T(!new)>(f: T -> bool, s: seq<T>)
    requires forall i :: 0 <= i < |s| ==> f(s[i])
    ensures Filter(f, s) == s
    decreases |s|
  {
    if |s| > 0 {
      FilterAll(f, s[1..]);
      assert [s[0]] + s[1..] == s;
    }
  }

  /** One step of the comprehension, on an explicit first element. */
  lemma FilterCons<T(!new)>(f: T -> bool, x: T, t: seq<T>)
    ensures Filter(f, [x] + t) == (if f(x) then [x] else []) + Filter(f, t)
  {
    assert ([x] + t)[1..] == t;
  }

  /** Python's `[f(x) for x in s]`. */
  function Map<A, B>(f: A -> B, s: seq<A>): (r: seq<B>)
    ensures |r| == |s| && forall i :: 0 <= i < |s| ==> r[i] == f(s[i])
  {
    seq(|s|, i requires 0 <= i < |s| => f(s[i]))
  }

  /** `[f(x) for x in s]` where `f` may raise: one failure fails the whole list. */
  function MapAll<A, B>(f: A -> Option<B>, s: seq<A>): (r: Option<seq<B>>)
    ensures r.Some? <==> forall i :: 0 <= i < |s| ==> f(s[i]).Some?
    ensures r.Some? ==> |r.value| == |s| && forall i :: 0 <= i < |s| ==> f(s[i]) == Some(r.value[i])
  {
    if |s| == 0 then Some([])
    else
      var rest := MapAll(f, s[1..]);
      assert forall i :: 1 <= i < |s| ==> s[i] == s[1..][i - 1];
      match f(s[0])
      case None => None
      case Some(x) =>
        if rest.None? then None
        else
          assert forall i :: 1 <= i < |s| ==> ([x] + rest.value)[i] == rest.value[i - 1];
          Some([x] + rest.value)
  }

  /** A non-empty list is its head in front of its tail. */
  lemma HeadTail<T>(s: seq<T>)
    requires |s| > 0
    ensures [s[0]] + s[1..] == s
  {
  }

  /** Python's `s[:n]`. */
  function Take<T>(s: seq<T>, n: nat): (r: seq<T>)
    ensures |r| == if |s| < n then |s| else n
    ensures r == s[..|r|]
  {
    if |s| <= n then s else s[..n]
  }

  /** `r` can be obtained from `s` by deleting elements: `r` keeps `s`'s relative order. */
  ghost predicate IsSubseq<T>(r: seq<T>, s: seq<T>)
    decreases |s|
  {
    |r| == 0 || (|s| > 0 && ((r[0] == s[0] && IsSubseq(r[1..], s[1..])) || IsSubseq(r, s[1..])))
  }

  /** Non-increasing order of `key`. */
  ghost predicate SortedDesc<T>(s: seq<T>, key: T -> int) {
    forall i, j :: 0 <= i < j < |s| ==> key(s[i]) >= key(s[j])
  }

  /** The elements of `s` whose key equals `k`, in their order in `s`. */
  function WithKey<T>(s: seq<T>, key: T -> int, k: int): seq<T> {
    if |s| == 0 then [] else (if key(s[0]) == k then [s[0]] else []) + WithKey(s[1..], key, k)
  }

  /**
   * A sort is stable when, for every key, the elements carrying that key
   * appear in the output in the order they had in the input.
   */
  ghost predicate StableFor<T>(r: seq<T>, s: seq<T>, key: T -> int) {
    forall k :: WithKey(r, key, k) == WithKey(s, key, k)
  }

  /** Inserts `x` into a descending list, in front of the elements whose key does not exceed its own. */
  function Insert<T>(x: T, s: seq<T>, key: T -> int): (r: seq<T>)
    requires SortedDesc(s, key)
    ensures |r| == |s| + 1
    ensures r[0] == x || (|s| > 0 && r[0] == s[0])
    ensures SortedDesc(r, key)
    ensures multiset(r) == multiset(s) + multiset{x}
    decreases |s|
  {
    if |s| == 0 || key(x) >= key(s[0]) then
      [x] + s
    else
      var t := Insert(x, s[1..], key);
      assert key(t[0]) <= key(s[0]);
      assert s == [s[0]] + s[1..];
      [s[0]] + t
  }

  /** `x` lands after every element with a larger key and before every element with its own key. */
  lemma {:induction false} InsertWithKey<T>(x: T, s: seq<T>, key: T -> int, k: int)
    requires SortedDesc(s, key)
    ensures WithKey(Insert(x, s, key), key, k) == if key(x) == k then [x] + WithKey(s, key, k) else WithKey(s, key, k)
    decreases |s|
  {
    if |s| == 0 || key(x) >= key(s[0]) {
      assert ([x] + s)[1..] == s;
    } else {
      var t := Insert(x, s[1..], key);
      InsertWithKey(x, s[1..], key, k);
      assert ([s[0]] + t)[1..] == t;
      var head: seq<T> := if key(s[0]) == k then [s[0]] else [];
      assert WithKey([s[0]] + t, key, k) == head + WithKey(t, key, k);
      assert WithKey(s, key, k) == head + WithKey(s[1..], key, k);
      if key(x) == k {
        assert head == [];
      }
    }
  }

  /** Python's `sorted(s, key=key, reverse=True)`: a stable descending sort. */
  function SortDesc<T>(s: seq<T>, key: T -> int): (r: seq<T>)
    ensures SortedDesc(r, key)
    ensures multiset(r) == multiset(s)
  {
    if |s| == 0 then []
    else
      assert s == [s[0]] + s[1..];
      Insert(s[0], SortDesc(s[1..], key), key)
  }

  /** Sorting neither adds nor drops elements. */
  lemma SortDescMembers<T>(s: seq<T>, key: T -> int)
    ensures forall x :: x in SortDesc(s, key) <==> x in s
  {
    var r := SortDesc(s, key);
    assert forall x :: x in r <==> x in multiset(r);
    assert forall x :: x in s <==> x in multiset(s);
  }

  /** The sort is stable: elements with equal keys keep their input order. */
  lemma {:induction false} SortDescStable<T>(s: seq<T>, key: T -> int)
    ensures StableFor(SortDesc(s, key), s, key)
    decreases |s|
  {
    if |s| > 0 {
      SortDescStable(s[1..], key);
      forall k ensures WithKey(SortDesc(s, key), key, k) == WithKey(s, key, k) {
        InsertWithKey(s[0], SortDesc(s[1..], key), key, k);
      }
    }
  }

  /** The set of keys of the elements of `s`. */
  function KeySet<T, K>(s: seq<T>, key: T -> K): (r: set<K>)
    ensures forall i :: 0 <= i < |s| ==> key(s[i]) in r
  {
    if |s| == 0 then {} else {key(s[0])} + KeySet(s[1..], key)
  }

  lemma {:induction false} KeySetConcat<T, K>(a: seq<T>, b: seq<T>, key: T -> K)
    ensures KeySet(a + b, key) == KeySet(a, key) + KeySet(b, key)
    decreases |a|
  {
    if |a| == 0 {
      assert a + b == b;
    } else {
      assert (a + b)[1..] == a[1..] + b;
      KeySetConcat(a[1..], b, key);
    }
  }

  lemma {:induction false} KeySetWitness<T, K>(s: seq<T>, key: T -> K, k: K) returns (i: nat)
    requires k in KeySet(s, key)
    ensures i < |s| && key(s[i]) == k
    decreases |s|
  {
    if key(s[0]) == k {
      i := 0;
    } else {
      var j := KeySetWitness(s[1..], key, k);
      i := j + 1;
    }
  }

  lemma {:induction false} KeySetExcludes<T, K>(s: seq<T>, key: T -> K, k: K)
    requires forall i :: 0 <= i < |s| ==> key(s[i]) != k
    ensures k !in KeySet(s, key)
    decreases |s|
  {
    if |s| > 0 {
      KeySetExcludes(s[1..], key, k);
    }
  }

  /** The first element of `s` whose key is `k`, if any. */
  function FirstWithKey<T, K(==)>(s: seq<T>, key: T -> K, k: K): Option<T> {
    if |s| == 0 then None
    else if key(s[0]) == k then Some(s[0])
    else FirstWithKey(s[1..], key, k)
  }

  /**
   * The loop `for x in s: if key(x) not in seen: seen.add(key(x)); out.append(x)`:
   * keeps, in order, the first element of every key not already in `seen`.
   */
  function DedupBy<T, K>(s: seq<T>, key: T -> K, seen: set<K>): (r: seq<T>)
    ensures |r| <= |s|
    decreases |s|
  {
    if |s| == 0 then []
    else if key(s[0]) in seen then DedupBy(s[1..], key, seen)
    else [s[0]] + DedupBy(s[1..], key, seen + {key(s[0])})
  }

  /** What the seen-set loop keeps: distinct unseen keys, in input order, each the first of its key. */
  lemma {:induction false} DedupByProperties<T, K>(s: seq<T>, key: T -> K, seen: set<K>)
    ensures var r := DedupBy(s, key, seen);
      && IsSubseq(r, s)
      && (forall i, j :: 0 <= i < j < |r| ==> key(r[i]) != key(r[j]))
      && (forall i :: 0 <= i < |r| ==> key(r[i]) !in seen)
      && (forall i :: 0 <= i < |r| ==> FirstWithKey(s, key, key(r[i])) == Some(r[i]))
      && KeySet(r, key) == KeySet(s, key) - seen
    decreases |s|
  {
    if |s| > 0 {
      if key(s[0]) in seen {
        DedupByProperties(s[1..], key, seen);
      } else {
        var t := DedupBy(s[1..], key, seen + {key(s[0])});
        DedupByProperties(s[1..], key, seen + {key(s[0])});
        assert ([s[0]] + t)[1..] == t;
      }
    }
  }

  /** Running the loop over `a + b` is running it over `a`, then over `b` with `a`'s keys seen. */
  lemma {:induction false} DedupByConcat<T, K>(a: seq<T>, b: seq<T>, key: T -> K, seen: set<K>)
    ensures DedupBy(a + b, key, seen) == DedupBy(a, key, seen) + DedupBy(b, key, seen + KeySet(a, key))
    decreases |a|
  {
    if |a| == 0 {
      assert a + b == b;
      assert seen + KeySet(a, key) == seen;
    } else {
      assert (a + b)[1..] == a[1..] + b;
      if key(a[0]) in seen {
        DedupByConcat(a[1..], b, key, seen);
        assert seen + KeySet(a[1..], key) == seen + KeySet(a, key);
      } else {
        DedupByConcat(a[1..], b, key, seen + {key(a[0])});
        assert seen + {key(a[0])} + KeySet(a[1..], key) == seen + KeySet(a, key);
      }
    }
  }

  lemma {:induction false} SubseqRefl<T>(s: seq<T>)
    ensures IsSubseq(s, s)
    decreases |s|
  {
    if |s| > 0 {
      SubseqRefl(s[1..]);
    }
  }

  lemma {:induction false} FilterSubseq<T(!new)>(f: T -> bool, s: seq<T>)
    ensures IsSubseq(Filter(f, s), s)
    decreases |s|
  {
    if |s| > 0 {
      FilterSubseq(f, s[1..]);
      var r := Filter(f, s);
      if f(s[0]) {
        assert r == [s[0]] + Filter(f, s[1..]);
        assert r[0] == s[0] && r[1..] == Filter(f, s[1..]);
      } else {
        assert r == Filter(f, s[1..]);
      }
    }
  }

  /** A prefix is a subsequence. */
  lemma {:induction false} TakeSubseq<T>(s: seq<T>, n: nat)
    ensures IsSubseq(Take(s, n), s)
    decreases |s|
  {
    var r := Take(s, n);
    if |r| == |s| {
      assert r == s;
      SubseqRefl(s);
    } else if |r| > 0 {
      TakeSubseq(s[1..], n - 1);
      assert r[1..] == Take(s[1..], n - 1);
    }
  }

  lemma {:induction false} SubseqTrans<T>(a: seq<T>, b: seq<T>, c: seq<T>)
    requires IsSubseq(a, b) && IsSubseq(b, c)
    ensures IsSubseq(a, c)
    decreases |c|
  {
    if |a| > 0 {
      if b[0] == c[0] && IsSubseq(b[1..], c[1..]) {
        if a[0] == b[0] && IsSubseq(a[1..], b[1..]) {
          SubseqTrans(a[1..], b[1..], c[1..]);
        } else {
          SubseqTrans(a, b[1..], c[1..]);
        }
      } else {
        SubseqTrans(a, b, c[1..]);
      }
    }
  }

  /** Dropping elements from a descending list leaves it descending. */
  lemma {:induction false} SubseqKeepsSorted<T>(r: seq<T>, s: seq<T>, key: T -> int)
    requires IsSubseq(r, s) && SortedDesc(s, key)
    ensures SortedDesc(r, key)
    decreases |s|
  {
    if |r| > 0 {
      if r[0] == s[0] && IsSubseq(r[1..], s[1..]) {
        SubseqKeepsSorted(r[1..], s[1..], key);
        SubseqMembers(r[1..], s[1..]);
        forall i, j | 0 <= i < j < |r| ensures key(r[i]) >= key(r[j]) {
          if i > 0 {
            assert r[i] == r[1..][i - 1] && r[j] == r[1..][j - 1];
          } else {
            assert r[j] in s[1..];
          }
        }
      } else {
        SubseqKeepsSorted(r, s[1..], key);
      }
    }
  }

  lemma {:induction false} SubseqMembers<T>(r: seq<T>, s: seq<T>)
    requires IsSubseq(r, s)
    ensures forall x :: x in r ==> x in s
    decreases |s|
  {
    if |r| > 0 {
      if r[0] == s[0] && IsSubseq(r[1..], s[1..]) {
        SubseqMembers(r[1..], s[1..]);
        assert r == [r[0]] + r[1..];
      } else {
        SubseqMembers(r, s[1..]);
      }
    }
  }

  /** Two lists with the same members have the same keys. */
  lemma KeySetSameMembers<T, K>(a: seq<T>, b: seq<T>, key: T -> K)
    requires forall x :: x in a <==> x in b
    ensures KeySet(a, key) == KeySet(b, key)
  {
    forall k | k in KeySet(a, key) ensures k in KeySet(b, key) {
      var i := KeySetWitness(a, key, k);
      assert a[i] in b;
    }
    forall k | k in KeySet(b, key) ensures k in KeySet(a, key) {
      var i := KeySetWitness(b, key, k);
      assert b[i] in a;
    }
  }

  /** In a descending list, the first element with a given key has the largest sort key among them. */
  lemma {:induction false} FirstWithKeyIsMax<T, K>(s: seq<T>, key: T -> K, order: T -> int, k: K, x: T, y: T)
    requires SortedDesc(s, order)
    requires FirstWithKey(s, key, k) == Some(x)
    requires y in s && key(y) == k
    ensures key(x) == k && order(y) <= order(x)
    decreases |s|
  {
    if key(s[0]) != k {
      assert y in s[1..];
      FirstWithKeyIsMax(s[1..], key, order, k, x, y);
      assert x in s[1..] by { FirstWithKeyMember(s[1..], key, k, x); }
    }
  }

  lemma {:induction false} FirstWithKeyMember<T, K>(s: seq<T>, key: T -> K, k: K, x: T)
    requires FirstWithKey(s, key, k) == Some(x)
    ensures x in s && key(x) == k
    decreases |s|
  {
    if key(s[0]) != k {
      FirstWithKeyMember(s[1..], key, k, x);
    }
  }

  /**
   * The first element with key `k` is also the first with key `k` among the
   * elements that share its `order` value.
   */
  lemma {:induction false} FirstWithKeyAmongTies<T, K>(s: seq<T>, key: T -> K, order: T -> int, k: K, x: T)
    requires FirstWithKey(s, key, k) == Some(x)
    ensures FirstWithKey(WithKey(s, order, order(x)), key, k) == Some(x)
    decreases |s|
  {
    if key(s[0]) != k {
      FirstWithKeyAmongTies(s[1..], key, order, k, x);
      var rest := WithKey(s[1..], order, order(x));
      if order(s[0]) == order(x) {
        assert WithKey(s, order, order(x)) == [s[0]] + rest;
        assert ([s[0]] + rest)[1..] == rest;
      } else {
        assert WithKey(s, order, order(x)) == rest;
      }
    } else {
      assert WithKey(s, order, order(x)) == [s[0]] + WithKey(s[1..], order, order(x));
    }
  }
}

=== FILE: slugs.dfy ===
/**
 * The slug rule shared by the content agents:
 * `re.sub('[^a-z0-9]+', '-', title.lower()).strip('-')[:n]`.
 */
module Slugs {
  import opened Strings
  import opened Sequences

  /** The characters `[a-z0-9]` keeps. */
  predicate IsWordChar(c: char) {
    'a' <= c <= 'z' || '0' <= c <= '9'
  }

  /** The characters a slug is made of. */
  predicate InAlphabet(s: string) {
    forall i :: 0 <= i < |s| ==> IsWordChar(s[i]) || s[i] == '-'
  }

  /** Positions `i` and `i + 1` both hold a dash. */
  predicate DoubleDashAt(s: string, i: int) {
    0 <= i < |s| - 1 && s[i] == '-' && s[i + 1] == '-'
  }

  /** No two adjacent dashes. */
  predicate NoDoubleDash(s: string) {
    forall i :: 0 <= i < |s| ==> !DoubleDashAt(s, i)
  }

  /** What the regular expression leaves of the input once a run of other characters starts. */
  function DropRun(s: string): (r: string)
    ensures |r| <= |s| && r == s[|s| - |r|..]
    ensures |r| > 0 ==> IsWordChar(r[0])
  {
    if |s| > 0 && !IsWordChar(s[0]) then DropRun(s[1..]) else s
  }

  /** `re.sub('[^a-z0-9]+', '-', s)`: every maximal run of other characters becomes one dash. */
  function Collapse(s: string): (r: string)
    ensures |r| > 0 && r[0] == '-' <==> |s| > 0 && !IsWordChar(s[0])
    decreases |s|
  {
    if |s| == 0 then ""
    else if IsWordChar(s[0]) then [s[0]] + Collapse(s[1..])
    else "-" + Collapse(DropRun(s[1..]))
  }

  /** The text after lower-casing, substitution and `strip('-')`, before truncation. */
  function Normalise(title: string): string {
    RStripChar(LStripChar(Collapse(Lower(title)), '-'), '-')
  }

  /** The slug of `title`, at most `n` characters long. */
  function Slug(title: string, n: nat): (r: string)
    ensures |r| <= n && |r| <= |Normalise(title)|
    ensures InAlphabet(r) && NoDoubleDash(r)
    ensures |r| > 0 ==> r[0] != '-'
    ensures r == Normalise(title)[..|r|]
    ensures |Normalise(title)| <= n ==> r == Normalise(title)
    ensures |Normalise(title)| > n ==> |r| == n
  {
    NormaliseShape(title);
    var r := Take(Normalise(title), n);
    SliceShape(Normalise(title), 0, |r|);
    assert Normalise(title)[0..|r|] == r;
    r
  }

  /** A letter or digit in front of a slug-shaped text keeps it slug-shaped. */
  lemma ShapeWordCons(c: char, t: string)
    requires IsWordChar(c) && InAlphabet(t) && NoDoubleDash(t)
    ensures InAlphabet([c] + t) && NoDoubleDash([c] + t)
  {
    var s := [c] + t;
    assert forall i :: 1 <= i < |s| ==> s[i] == t[i - 1];
    assert forall i :: 1 <= i < |s| ==> DoubleDashAt(s, i) ==> DoubleDashAt(t, i - 1);
  }

  /** A dash in front of a slug-shaped text that does not start with a dash keeps it slug-shaped. */
  lemma ShapeDashCons(t: string)
    requires InAlphabet(t) && NoDoubleDash(t)
    requires |t| > 0 ==> t[0] != '-'
    ensures InAlphabet("-" + t) && NoDoubleDash("-" + t)
  {
    var s := "-" + t;
    assert forall i :: 1 <= i < |s| ==> s[i] == t[i - 1];
    assert forall i :: 1 <= i < |s| ==> DoubleDashAt(s, i) ==> DoubleDashAt(t, i - 1);
    assert !DoubleDashAt(s, 0);
  }

  lemma {:induction false} CollapseShape(s: string)
    ensures InAlphabet(Collapse(s)) && NoDoubleDash(Collapse(s))
    decreases |s|
  {
    if |s| > 0 {
      if IsWordChar(s[0]) {
        CollapseShape(s[1..]);
        ShapeWordCons(s[0], Collapse(s[1..]));
      } else {
        var t := DropRun(s[1..]);
        CollapseShape(t);
        ShapeDashCons(Collapse(t));
      }
    }
  }

  /** Both properties hold of every contiguous piece. */
  lemma SliceShape(s: string, i: nat, j: nat)
    requires i <= j <= |s|
    requires InAlphabet(s) && NoDoubleDash(s)
    ensures InAlphabet(s[i..j]) && NoDoubleDash(s[i..j])
  {
    assert forall k :: 0 <= k < j - i ==> s[i..j][k] == s[i + k];
    assert forall k :: 0 <= k < j - i ==> DoubleDashAt(s[i..j], k) ==> DoubleDashAt(s, i + k);
  }

  /** A normalised title uses only `[a-z0-9-]`, has no double dash and no dash at either end. */
  lemma NormaliseShape(title: string)
    ensures var r := Normalise(title);
      InAlphabet(r) && NoDoubleDash(r)
      && (|r| > 0 ==> r[0] != '-' && r[|r| - 1] != '-')
  {
    CollapseShape(Lower(title));
    StripDashesShape(Collapse(Lower(title)));
  }

  /** Stripping dashes from both ends keeps the shape and leaves no dash at either end. */
  lemma StripDashesShape(c: string)
    requires InAlphabet(c) && NoDoubleDash(c)
    ensures var r := RStripChar(LStripChar(c, '-'), '-');
      InAlphabet(r) && NoDoubleDash(r)
      && (|r| > 0 ==> r[0] != '-' && r[|r| - 1] != '-')
  {
    var l := LStripChar(c, '-');
    LStripShape(c);
    var r := RStripChar(l, '-');
    RStripShape(l);
    assert |r| > 0 ==> r[0] == l[0];
  }

  lemma LStripShape(c: string)
    requires InAlphabet(c) && NoDoubleDash(c)
    ensures InAlphabet(LStripChar(c, '-')) && NoDoubleDash(LStripChar(c, '-'))
  {
    SuffixShape(c, LStripChar(c, '-'));
  }

  lemma RStripShape(l: string)
    requires InAlphabet(l) && NoDoubleDash(l)
    ensures InAlphabet(RStripChar(l, '-')) && NoDoubleDash(RStripChar(l, '-'))
  {
    PrefixShape(l, RStripChar(l, '-'));
  }

  lemma SuffixShape(c: string, l: string)
    requires |l| <= |c| && l == c[|c| - |l|..]
    requires InAlphabet(c) && NoDoubleDash(c)
    ensures InAlphabet(l) && NoDoubleDash(l)
  {
    SliceShape(c, |c| - |l|, |c|);
    assert c[|c| - |l|..|c|] == l;
  }

  lemma PrefixShape(l: string, r: string)
    requires |r| <= |l| && r == l[..|r|]
    requires InAlphabet(l) && NoDoubleDash(l)
    ensures InAlphabet(r) && NoDoubleDash(r)
  {
    SliceShape(l, 0, |r|);
    assert l[0..|r|] == r;
  }

  /** The letters and digits of a text, in order. */
  function Word(s: string): string {
    Filter(IsWordChar, s)
  }

  /** The word of a text is the word of its tail, preceded by its first character when that is a letter or digit. */
  lemma WordSplit(s: string)
    requires |s| > 0
    ensures Word(s) == (if IsWordChar(s[0]) then [s[0]] else []) + Word(s[1..])
  {
    assert s == [s[0]] + s[1..];
    FilterCons(IsWordChar, s[0], s[1..]);
  }

  lemma {:induction false} WordDropRun(s: string)
    ensures Word(DropRun(s)) == Word(s)
    decreases |s|
  {
    if |s| > 0 && !IsWordChar(s[0]) {
      WordDropRun(s[1..]);
      WordSplit(s);
    }
  }

  lemma {:induction false} WordCollapse(s: string)
    ensures Word(Collapse(s)) == Word(s)
    decreases |s|
  {
    if |s| > 0 {
      WordSplit(s);
      if IsWordChar(s[0]) {
        var c := Collapse(s[1..]);
        WordCollapse(s[1..]);
        assert Collapse(s) == [s[0]] + c;
        FilterCons(IsWordChar, s[0], c);
      } else {
        var t := DropRun(s[1..]);
        WordCollapse(t);
        WordDropRun(s[1..]);
        assert Collapse(s) == "-" + Collapse(t);
        FilterCons(IsWordChar, '-', Collapse(t));
      }
    }
  }

  lemma {:induction false} WordDashes(s: string)
    requires forall i :: 0 <= i < |s| ==> s[i] == '-'
    ensures Word(s) == ""
    decreases |s|
  {
    if |s| > 0 {
      WordDashes(s[1..]);
      WordSplit(s);
    }
  }

  lemma WordLStrip(s: string)
    ensures Word(LStripChar(s, '-')) == Word(s)
  {
    var l := LStripChar(s, '-');
    var a := s[..|s| - |l|];
    assert s == a + l;
    assert forall i :: 0 <= i < |a| ==> a[i] == '-';
    FilterConcat(IsWordChar, a, l);
    WordDashes(a);
  }

  lemma WordRStrip(s: string)
    ensures Word(RStripChar(s, '-')) == Word(s)
  {
    var r := RStripChar(s, '-');
    var b := s[|r|..];
    assert s == r + b;
    assert forall i :: 0 <= i < |b| ==> b[i] == '-';
    FilterConcat(IsWordChar, r, b);
    WordDashes(b);
  }

  /** Normalising keeps exactly the letters and digits of the lower-cased title, in order. */
  lemma NormaliseKeepsWord(title: string)
    ensures Word(Normalise(title)) == Word(Lower(title))
  {
    WordCollapse(Lower(title));
    WordLStrip(Collapse(Lower(title)));
    WordRStrip(LStripChar(Collapse(Lower(title)), '-'));
  }

  /** A letter or digit passes through the substitution unchanged. */
  lemma CollapseWordCons(c: char, u: string)
    requires IsWordChar(c)
    ensures Collapse([c] + u) == [c] + Collapse(u)
  {
    assert ([c] + u)[1..] == u;
  }

  /** A single dash in front of a letter or digit becomes a single dash. */
  lemma CollapseDashCons(t: string)
    requires |t| > 0 ==> IsWordChar(t[0])
    ensures Collapse("-" + t) == "-" + Collapse(t)
  {
    assert ("-" + t)[1..] == t;
    assert DropRun(t) == t;
  }

  lemma TailShape(s: string)
    requires |s| > 0 && InAlphabet(s) && NoDoubleDash(s)
    ensures InAlphabet(s[1..]) && NoDoubleDash(s[1..])
  {
    SliceShape(s, 1, |s|);
    assert s[1..|s|] == s[1..];
  }

  /** In a slug-shaped text a dash is followed by a letter or digit, if by anything. */
  lemma AfterDash(u: string)
    requires |u| > 0 && u[0] == '-' && InAlphabet(u) && NoDoubleDash(u)
    ensures |u| > 1 ==> IsWordChar(u[1]) && u[1..][0] == u[1]
  {
    if |u| > 1 {
      assert !DoubleDashAt(u, 0);
    }
  }

  lemma {:induction false} CollapseFixed(s: string)
    requires InAlphabet(s) && NoDoubleDash(s)
    requires |s| > 0 ==> s[0] != '-'
    ensures Collapse(s) == s
    decreases |s|, 1
  {
    if |s| > 0 {
      TailShape(s);
      assert IsWordChar(s[0]);
      assert |s| > 1 ==> s[1..][0] == s[1];
      if |s| > 1 && s[1] == '-' {
        CollapseFixedDash(s[1..]);
      } else {
        CollapseFixed(s[1..]);
      }
      WordFixedCons(s);
    }
  }

  /** A letter or digit in front of a fixed point of the substitution gives a fixed point. */
  lemma WordFixedCons(s: string)
    requires |s| > 0 && IsWordChar(s[0]) && Collapse(s[1..]) == s[1..]
    ensures Collapse(s) == s
  {
    assert s == [s[0]] + s[1..];
  }

  /** The part of `CollapseFixed` for a text that starts with a single dash. */
  lemma {:induction false} CollapseFixedDash(u: string)
    requires |u| > 0 && u[0] == '-' && InAlphabet(u) && NoDoubleDash(u)
    ensures Collapse(u) == u
    decreases |u|, 0
  {
    var t := u[1..];
    TailShape(u);
    AfterDash(u);
    CollapseFixed(t);
    CollapseDashCons(t);
    assert u == "-" + t;
  }

  lemma {:induction false} LowerFixed(s: string)
    requires InAlphabet(s)
    ensures Lower(s) == s
  {
    assert forall i :: 0 <= i < |s| ==> LowerChar(s[i]) == s[i];
  }

  /** Normalising a normalised text changes nothing. */
  lemma NormaliseIdempotent(title: string)
    ensures Normalise(Normalise(title)) == Normalise(title)
  {
    var r := Normalise(title);
    NormaliseShape(title);
    LowerFixed(r);
    CollapseFixed(r);
  }

  /** Truncation can leave a trailing dash: the slug of "a b" cut at 2 is "a-". */
  lemma TruncatedSlugMayEndWithDash()
    ensures Slug("a b", 2) == "a-"
  {
    ExampleNormalised();
    assert Take("a-b", 2) == "a-";
  }

  /** The normalised form of "a b" is "a-b". */
  lemma ExampleNormalised()
    ensures Normalise("a b") == "a-b"
  {
    ExampleLower();
    ExampleCollapsed();
    assert LStripChar("a-b", '-') == "a-b";
    assert RStripChar("a-b", '-') == "a-b";
  }

  lemma ExampleLower()
    ensures Lower("a b") == "a b"
  {
    var t := "a b";
    assert forall i :: 0 <= i < |t| ==> LowerChar(t[i]) == t[i];
  }

  lemma ExampleCollapsed()
    ensures Collapse("a b") == "a-b"
  {
    CollapseWordCons('b', "");
    assert " b"[1..] == "b" && DropRun("b") == "b";
    assert Collapse(" b") == "-b";
    assert "a b" == ['a'] + " b";
    CollapseWordCons('a', " b");
  }

}

=== FILE: strings.dfy ===
/**
 * The handful of Python `str` operations the agents rely on, over ASCII
 * text: substring search, `replace` (all occurrences and the first one),
 * `lower`, `strip`/`lstrip`, `join` and `split`.
 */
module Strings {
  import opened Outcomes

  /** `p` occurs in `s` starting at index `i`. */
  predicate StartsAt(s: string, p: string, i: nat) {
    i + |p| <= |s| && s[i..i + |p|] == p
  }

  predicate StartsWith(s: string, p: string) {
    StartsAt(s, p, 0)
  }

  predicate EndsWith(s: string, p: string) {
    |p| <= |s| && s[|s| - |p|..] == p
  }

  /** Index of the first occurrence of `p` in `s` at or after `from`. */
  function FindFrom(s: string, p: string, from: nat): (r: Option<nat>)
    ensures r.Some? ==> from <= r.value && StartsAt(s, p, r.value)
    ensures r.Some? ==> forall j :: from <= j < r.value ==> !StartsAt(s, p, j)
    ensures r.None? ==> forall j :: from <= j ==> !StartsAt(s, p, j)
    decreases |s| - from
  {
    if from + |p| > |s| then None
    else if StartsAt(s, p, from) then Some(from)
    else FindFrom(s, p, from + 1)
  }

  /** Index of the first occurrence of `p` in `s` (Python's `s.find(p)`). */
  function Find(s: string, p: string): Option<nat> {
    FindFrom(s, p, 0)
  }

  /** Python's `p in s`. */
  predicate Contains(s: string, p: string) {
    Find(s, p).Some?
  }

  lemma ContainsAt(s: string, p: string, i: nat)
    requires StartsAt(s, p, i)
    ensures Contains(s, p)
  {
  }

  /** An occurrence of `p` inside `a` is an occurrence inside `a + b` and `b + a`. */
  lemma ContainsConcat(a: string, b: string, p: string)
    requires Contains(a, p)
    ensures Contains(a + b, p) && Contains(b + a, p)
  {
    var i := Find(a, p).value;
    assert (a + b)[i..i + |p|] == a[i..i + |p|];
    ContainsAt(a + b, p, i);
    assert (b + a)[|b| + i..|b| + i + |p|] == a[i..i + |p|];
    ContainsAt(b + a, p, |b| + i);
  }

  lemma ContainsMiddle(x: string, p: string, y: string)
    ensures Contains(x + p + y, p)
  {
    assert (x + p + y)[|x|..|x| + |p|] == p;
    ContainsAt(x + p + y, p, |x|);
  }

  /** Cutting a known prefix off leaves the rest. */
  lemma DropPrefix(p: string, y: string)
    ensures StartsWith(p + y, p) && (p + y)[|p|..] == y
  {
    assert (p + y)[0..|p|] == p;
  }

  /** Cutting a known suffix off leaves the rest. */
  lemma DropSuffix(y: string, q: string)
    ensures EndsWith(y + q, q) && (y + q)[..|y|] == y
  {
    assert (y + q)[|y + q| - |q|..] == q;
  }

  lemma ConcatAssoc(a: string, b: string, c: string)
    ensures (a + b) + c == a + (b + c)
  {
  }

  lemma ContainsQuoted(x: string, q: string, p: string)
    ensures Contains(x + (q + p + q), p)
  {
    assert x + (q + p + q) == (x + q) + p + q;
    ContainsMiddle(x + q, p, q);
  }

  lemma ContainsInside(x: string, m: string, y: string, p: string)
    requires Contains(m, p)
    ensures Contains(x + m + y, p)
  {
    ContainsConcat(m, y, p);
    ContainsConcat(m + y, x, p);
    assert x + (m + y) == x + m + y;
  }

  /** Containment is transitive: an occurrence inside an occurrence is an occurrence. */
  lemma ContainsTrans(a: string, b: string, c: string)
    requires Contains(a, b) && Contains(b, c)
    ensures Contains(a, c)
  {
    var i := Find(a, b).value;
    var j := Find(b, c).value;
    assert StartsAt(a, b, i) && StartsAt(b, c, j);
    forall k | 0 <= k < |c|
      ensures a[i + j + k] == c[k]
    {
      assert c[k] == b[j..j + |c|][k] == b[j + k];
      assert b[j + k] == a[i..i + |b|][j + k] == a[i + j + k];
    }
    assert a[i + j..i + j + |c|] == c;
    ContainsAt(a, c, i + j);
  }

  /** Python's `s.replace(p, r, 1)`: only the first occurrence is replaced. */
  function ReplaceFirst(s: string, p: string, r: string): string {
    match Find(s, p)
    case None => s
    case Some(i) => s[..i] + r + s[i + |p|..]
  }

  /** Replacing the first marker by `t + marker` inserts `t` just before the first marker. */
  lemma ReplaceFirstInserts(s: string, p: string, t: string)
    ensures Find(s, p).Some? ==>
      ReplaceFirst(s, p, t + p) == s[..Find(s, p).value] + t + s[Find(s, p).value..]
    ensures Find(s, p).None? ==> ReplaceFirst(s, p, t + p) == s
  {
    if Find(s, p).Some? {
      var i := Find(s, p).value;
      assert s[i..] == p + s[i + |p|..];
    }
  }

  /** Python's `s.replace(p, r)`: a left-to-right scan replacing non-overlapping occurrences. */
  function ReplaceAll(s: string, p: string, r: string): string
    requires |p| > 0
    decreases |s|
  {
    if |s| < |p| then s
    else if s[..|p|] == p then r + ReplaceAll(s[|p|..], p, r)
    else [s[0]] + ReplaceAll(s[1..], p, r)
  }

  /** Replacing a one-character pattern by a text without that character removes it. */
  lemma {:induction false} ReplaceAllRemoves(s: string, c: char, r: string)
    requires c !in r
    ensures c !in ReplaceAll(s, [c], r)
    decreases |s|
  {
    if |s| >= 1 {
      ReplaceAllRemoves(s[1..], c, r);
    }
  }

  /** A character found neither in the text nor in the replacement is not introduced. */
  lemma {:induction false} ReplaceAllKeepsAbsent(s: string, c: char, r: string, d: char)
    requires d !in s && d !in r
    ensures d !in ReplaceAll(s, [c], r)
    decreases |s|
  {
    if |s| >= 1 {
      ReplaceAllKeepsAbsent(s[1..], c, r, d);
    }
  }

  /** Every occurrence of the character `c` in `s` written as `t`, the others kept. */
  function ReplaceChar(s: string, c: char, t: string): string {
    if |s| == 0 then "" else (if s[0] == c then t else [s[0]]) + ReplaceChar(s[1..], c, t)
  }

  lemma {:induction false} ReplaceCharConcat(a: string, b: string, c: char, t: string)
    ensures ReplaceChar(a + b, c, t) == ReplaceChar(a, c, t) + ReplaceChar(b, c, t)
    decreases |a|
  {
    if |a| == 0 {
      assert a + b == b;
    } else {
      assert (a + b)[1..] == a[1..] + b;
      ReplaceCharConcat(a[1..], b, c, t);
    }
  }

  /** For a one-character pattern, the left-to-right scan is a character-by-character rewrite. */
  lemma {:induction false} ReplaceAllChar(s: string, c: char, t: string)
    ensures ReplaceAll(s, [c], t) == ReplaceChar(s, c, t)
    decreases |s|
  {
    if |s| > 0 {
      assert s[..1] == [s[0]];
      ReplaceAllChar(s[1..], c, t);
    }
  }

  predicate IsUpper(c: char) {
    'A' <= c <= 'Z'
  }

  /** Python's `str.lower` on ASCII letters. */
  function LowerChar(c: char): char {
    if IsUpper(c) then (c as int + 32) as char else c
  }

  function Lower(s: string): (r: string)
    ensures |r| == |s|
    ensures forall i :: 0 <= i < |s| ==> r[i] == LowerChar(s[i])
  {
    if |s| == 0 then "" else [LowerChar(s[0])] + Lower(s[1..])
  }

  /** The ASCII characters Python's `str.isspace` accepts, which `str.strip()` removes. */
  predicate IsSpace(c: char) {
    9 <= c as int <= 13 || 28 <= c as int <= 32
  }

  function StripLeft(s: string): (r: string)
    ensures |r| <= |s| && r == s[|s| - |r|..]
    ensures |r| > 0 ==> !IsSpace(r[0])
    ensures forall i :: 0 <= i < |s| - |r| ==> IsSpace(s[i])
  {
    if |s| > 0 && IsSpace(s[0]) then
      var r := StripLeft(s[1..]);
      assert forall i :: 1 <= i < |s| ==> s[i] == s[1..][i - 1];
      assert s[1..][|s| - 1 - |r|..] == s[|s| - |r|..];
      r
    else s
  }

  function StripRight(s: string): (r: string)
    ensures |r| <= |s| && r == s[..|r|]
    ensures |r| > 0 ==> !IsSpace(r[|r| - 1])
    ensures forall i :: |r| <= i < |s| ==> IsSpace(s[i])
  {
    if |s| > 0 && IsSpace(s[|s| - 1]) then
      var r := StripRight(s[..|s| - 1]);
      assert forall i :: 0 <= i < |s| - 1 ==> s[i] == s[..|s| - 1][i];
      assert s[..|s| - 1][..|r|] == s[..|r|];
      r
    else s
  }

  /** Python's `s.strip()`. */
  function Strip(s: string): string {
    StripRight(StripLeft(s))
  }

  /** Leading whitespace in front of a text that starts with a non-space is exactly what `lstrip` removes. */
  lemma {:induction false} StripLeftPadded(a: string, y: string)
    requires forall i :: 0 <= i < |a| ==> IsSpace(a[i])
    requires |y| > 0 ==> !IsSpace(y[0])
    ensures StripLeft(a + y) == y
    decreases |a|
  {
    if |a| == 0 {
      assert a + y == y;
    } else {
      assert (a + y)[1..] == a[1..] + y;
      StripLeftPadded(a[1..], y);
    }
  }

  lemma {:induction false} StripRightPadded(y: string, b: string)
    requires forall i :: 0 <= i < |b| ==> IsSpace(b[i])
    requires |y| > 0 ==> !IsSpace(y[|y| - 1])
    ensures StripRight(y + b) == y
    decreases |b|
  {
    if |b| == 0 {
      assert y + b == y;
    } else {
      assert (y + b)[..|y + b| - 1] == y + b[..|b| - 1];
      StripRightPadded(y, b[..|b| - 1]);
    }
  }

  /** A text that starts and ends with a non-space is left as it is. */
  lemma StripUnpadded(x: string)
    requires |x| > 0 && !IsSpace(x[0]) && !IsSpace(x[|x| - 1])
    ensures Strip(x) == x
  {
  }

  /** `strip` removes whitespace padding and nothing else from a text with non-space ends. */
  lemma StripPadded(a: string, x: string, b: string)
    requires forall i :: 0 <= i < |a| ==> IsSpace(a[i])
    requires forall i :: 0 <= i < |b| ==> IsSpace(b[i])
    requires |x| > 0 && !IsSpace(x[0]) && !IsSpace(x[|x| - 1])
    ensures Strip(a + x + b) == x
  {
    assert a + x + b == a + (x + b);
    StripLeftPadded(a, x + b);
    StripRightPadded(x, b);
  }

  /** Python's `s.lstrip(c)` for one character `c`. */
  function LStripChar(s: string, c: char): (r: string)
    ensures |r| <= |s| && r == s[|s| - |r|..]
    ensures |r| > 0 ==> r[0] != c
    ensures forall i :: 0 <= i < |s| - |r| ==> s[i] == c
  {
    if |s| > 0 && s[0] == c then
      var r := LStripChar(s[1..], c);
      assert forall i :: 1 <= i < |s| ==> s[i] == s[1..][i - 1];
      assert s[1..][|s| - 1 - |r|..] == s[|s| - |r|..];
      r
    else s
  }

  /** Python's `s.rstrip(c)` for one character `c`. */
  function RStripChar(s: string, c: char): (r: string)
    ensures |r| <= |s| && r == s[..|r|]
    ensures |r| > 0 ==> r[|r| - 1] != c
    ensures forall i :: |r| <= i < |s| ==> s[i] == c
  {
    if |s| > 0 && s[|s| - 1] == c then
      var r := RStripChar(s[..|s| - 1], c);
      assert forall i :: 0 <= i < |s| - 1 ==> s[i] == s[..|s| - 1][i];
      assert s[..|s| - 1][..|r|] == s[..|r|];
      r
    else s
  }

  /** The longest prefix of `s` without the character `c`. */
  function TakeUntil(s: string, c: char): (r: string)
    ensures |r| <= |s| && r == s[..|r|]
    ensures c !in r
    ensures |r| < |s| ==> s[|r|] == c
  {
    if |s| == 0 || s[0] == c then ""
    else
      var t := TakeUntil(s[1..], c);
      assert s[..|t| + 1] == [s[0]] + s[1..][..|t|];
      [s[0]] + t
  }

  lemma {:induction false} TakeUntilConcat(x: string, y: string, c: char)
    requires c !in x
    requires |y| > 0 && y[0] == c
    ensures TakeUntil(x + y, c) == x
    decreases |x|
  {
    if |x| == 0 {
      assert x + y == y;
    } else {
      assert (x + y)[1..] == x[1..] + y;
      TakeUntilConcat(x[1..], y, c);
    }
  }

  /** Python's `sep.join(parts)`. */
  function Join(parts: seq<string>, sep: string): string {
    if |parts| == 0 then ""
    else if |parts| == 1 then parts[0]
    else parts[0] + sep + Join(parts[1..], sep)
  }

  /** Joining one more part appends the separator and the part. */
  lemma {:induction false} JoinSnoc(parts: seq<string>, x: string, sep: string)
    requires |parts| > 0
    ensures Join(parts + [x], sep) == Join(parts, sep) + sep + x
    decreases |parts|
  {
    if |parts| > 1 {
      assert (parts + [x])[1..] == parts[1..] + [x];
      JoinSnoc(parts[1..], x, sep);
    } else {
      assert parts + [x] == [parts[0], x];
      assert [parts[0], x][1..] == [x];
    }
  }

  /** `sep + part` for every part, concatenated: what `Join` writes after its first part. */
  function JoinTail(parts: seq<string>, sep: string): string {
    if |parts| == 0 then "" else sep + parts[0] + JoinTail(parts[1..], sep)
  }

  lemma {:induction false} JoinFirst(parts: seq<string>, sep: string)
    requires |parts| > 0
    ensures Join(parts, sep) == parts[0] + JoinTail(parts[1..], sep)
    decreases |parts|
  {
    if |parts| > 1 {
      JoinFirst(parts[1..], sep);
      assert parts[1..][1..] == parts[2..];
    }
  }

  lemma {:induction false} JoinTailConcat(a: seq<string>, b: seq<string>, sep: string)
    ensures JoinTail(a + b, sep) == JoinTail(a, sep) + JoinTail(b, sep)
    decreases |a|
  {
    if |a| == 0 {
      assert a + b == b;
    } else {
      assert (a + b)[1..] == a[1..] + b;
      JoinTailConcat(a[1..], b, sep);
    }
  }

  lemma JoinTailPair(x: string, y: string, sep: string)
    ensures JoinTail([x, y], sep) == sep + x + (sep + y)
  {
    var two := [x, y];
    assert two[1..] == [y] && two[1..][1..] == [];
    assert JoinTail(two[1..], sep) == sep + y + JoinTail([], sep);
  }

  /** Joining three fixed lines, a run of lines and a last line. */
  lemma JoinFramed(a: string, b: string, c: string, mid: seq<string>, d: string, sep: string)
    ensures Join([a, b, c] + mid + [d], sep) == a + (sep + b) + (sep + c) + JoinTail(mid, sep) + (sep + d)
  {
    var lines := [a, b, c] + mid + [d];
    JoinFirst(lines, sep);
    assert lines[1..] == [b, c] + (mid + [d]);
    JoinTailConcat([b, c], mid + [d], sep);
    JoinTailConcat(mid, [d], sep);
    assert [b, c][1..] == [c] && [c][1..] == [] && [d][1..] == [];
    var tb := JoinTail([b, c], sep);
    var td := JoinTail([d], sep);
    assert td == sep + d;
    assert tb == (sep + b) + (sep + c);
    assert JoinTail(lines[1..], sep) == tb + (JoinTail(mid, sep) + td);
    var x, y, m := sep + b, sep + c, JoinTail(mid, sep);
    ConcatAssoc(x + y, m, td);
    ConcatAssoc(a, (x + y) + m, td);
    ConcatAssoc(a, x + y, m);
    ConcatAssoc(a, x, y);
  }

  /** Python's `s.split(c)` for one separator character: never empty. */
  function SplitOn(s: string, c: char): (r: seq<string>)
    ensures |r| > 0
  {
    if |s| == 0 then [""]
    else
      var rest := SplitOn(s[1..], c);
      if s[0] == c then [""] + rest else [[s[0]] + rest[0]] + rest[1..]
  }

  lemma {:induction false} SplitOnNoSeparator(s: string, c: char)
    requires c !in s
    ensures SplitOn(s, c) == [s]
    decreases |s|
  {
    if |s| > 0 {
      assert s[0] != c && c !in s[1..];
      SplitOnNoSeparator(s[1..], c);
      assert [s[0]] + s[1..] == s;
    }
  }

  lemma {:induction false} SplitOnFirst(x: string, c: char, y: string)
    requires c !in x
    ensures SplitOn(x + [c] + y, c) == [x] + SplitOn(y, c)
    decreases |x|
  {
    if |x| == 0 {
      assert x + [c] + y == [c] + y;
      assert ([c] + y)[1..] == y;
    } else {
      SplitOnFirst(x[1..], c, y);
      assert (x + [c] + y)[1..] == x[1..] + [c] + y;
      assert [x[0]] + x[1..] == x;
    }
  }

  /** Splitting on the separator undoes joining on it, when no part contains it. */
  lemma {:induction false} SplitJoin(parts: seq<string>, c: char)
    requires |parts| > 0
    requires forall i :: 0 <= i < |parts| ==> c !in parts[i]
    ensures SplitOn(Join(parts, [c]), c) == parts
    decreases |parts|
  {
    if |parts| == 1 {
      SplitOnNoSeparator(parts[0], c);
    } else {
      SplitJoin(parts[1..], c);
      SplitOnFirst(parts[0], c, Join(parts[1..], [c]));
      assert [parts[0]] + parts[1..] == parts;
    }
  }
}
